=== FILE: README.md ===
# google-chart web components, modelled in Dafny

This project models the core of the `google-chart` web components. These are
Polymer custom elements that draw Google Charts. The elements are:

- the TypeScript `google-chart` element;
- its Polymer 1 predecessors: `google-chart`, `google-chart-dashboard`,
  `google-chart-control` and `google-chart-data`.

The elements share two loaders:
- the TypeScript loader, which inserts the gstatic loader script once,
  normalises `load` settings and turns chart data into a DataTable;
- the Polymer 1 `GoogleChartLoader`, which requests each chart package once
  and copies the library's style sheets into shadow roots.

The library objects are opaque here: chart wrappers, charts, `DataTable`, `Dashboard` and `ControlWrapper`. The model
keeps what the elements hand to them and what they read back. The asynchronous
parts are explicit steps of a step function over an element record:
- promises, the redraw debounces and `requestAnimationFrame` callbacks;
- the library's `ready`, `select` and `statechange` events.

Properties about whole runs are lemmas over traces of those steps.

Modules:

- `Js`: the few JavaScript semantics the sources rely on.
  - truthiness, `||` and `String(x)`;
  - property lookup that falls through to `Object.prototype`;
  - a `Result` type for thrown errors.
- `PackageLoader` (google-chart-loader.js):
  - the configured defaults;
  - `load`, which marks packages in `packagesLoaded` and issues one `google.charts.load` per new set;
  - the `GoogleChartLoader` constructor;
  - `moveStyles`.
- `Loader` (src/loader.ts; loader.ts and loader.js are copies of it with
  shifted lines, so one model covers all three, and the rows below cite
  whichever copy a lemma was read against):
  - the loader-script promise;
  - `load` with its default settings;
  - `dataTable`'s classification of its argument.
- `ChartTypes`: the type tables and the lookup `TABLE[type] || type`.
  - the TypeScript table, the Polymer 1 chart table and the control table;
  - the lookup as written, which also finds `Object.prototype` members;
  - `Resolve`, the lookup the elements are modelled with, which finds only listed names.
- `ChartElement` (google-chart.ts): the TypeScript element.
- `LegacyChart` and `ChartActions` (google-chart.js): the Polymer 1 chart element.
  - its selection echo suppression;
  - its tooltip-action bookkeeping.
- `Dashboard` (google-chart-dashboard.js): bind groups, classification, initial draw.
- `ChartControl` (google-chart-control.js): control wrapper, filter column, the `_dontReact` flag.
- `ChartData` (google-chart-data.js): the table built from `value` or from `cols` and `rows`, and the `data` it announces.

## Model

| member | source | states |
|---|---|---|
| PackageLoader.Configure | google-chart-loader.js:13-15 | Each `google.visualization` setting wins when set. The language falls back to the document's `lang` and then to `en`. The version falls back to `current` and the packages to `['corechart']`. |
| PackageLoader.MarkAndCollectSpec | google-chart-loader.js:28-34 | The reduce marks every requested name. It collects exactly the names not marked before: without repeats, and in the order of their first occurrence in the request. |
| PackageLoader.Load | google-chart-loader.js:27-45 | When every package is already marked, the state and the returned promise are the most recent load. Otherwise exactly one new request is issued: it carries the configured version and language and the new names, and it becomes the most recent load. |
| PackageLoader.NewGoogleChartLoader | google-chart-loader.js:59-72 | A new loader makes exactly the `load` call for the configured packages followed by the extra ones, and its promise is the handle that call returns. It throws (`then` on null) exactly when no wanted package is new and no load has happened yet. |
| PackageLoader.LoaderWaitsForAllPackages | google-chart-loader.js:52-72 | The promise a new loader keeps is the most recent load, and every package it wants was requested by that load or an earlier one, so the promise settles only once all of them have loaded. A second loader with the same packages requests nothing and shares the promise. |
| PackageLoader.LoadKeepsConsistent | google-chart-loader.js:27-45 | The requests issued so far never repeat a package, and `packagesLoaded` marks exactly the packages requested. One more `load` call keeps both facts. |
| PackageLoader.RequestedAtMostOnce | google-chart-loader.js:17-45 | Over any sequence of `load` calls, no package is ever requested twice. A package is requested exactly when some call asked for it and it was not marked beforehand. |
| PackageLoader.Run | google-chart-loader.js:27-45 | Over any sequence of `load` calls the configuration is kept, no mark is taken back and earlier requests stay as they were. Every package some call asked for ends marked. |
| PackageLoader.MoveStylesAsWritten | google-chart-loader.js:80-95 | Nothing happens for the document. On a shadow root with count N, the call succeeds exactly when N is 0 or the root holds `shadow-css-N`. On success `shadow-css-N` is removed and every other style kept, the count goes to N+1, the new element goes into the one page-wide `styleElement`, its append is queued, and no other root changes. |
| PackageLoader.SettleAsWritten | google-chart-loader.js:95-102 | A queued callback appends whatever element the page-wide `styleElement` holds, to the root of its own call, and moves it out of any root that held it. It throws when no element was ever created. |
| PackageLoader.SharedElementCounterexample | google-chart-loader.js:85-102 | Two fresh shadow roots moved into in one turn: both callbacks append the second call's element, so the first root ends with a count of 1 and no sheet, and its next call throws. With an element per call, both roots keep their sheets. |
| PackageLoader.MoveStylesKeepsInvariant | google-chart-loader.js:80-103 | With the element declared per call and appended when created, every shadow root keeps exactly one `shadow-css-N` sheet, N being its count. A call never throws. It raises the target's count by one, keeps its other style elements and changes no other root. |
| PackageLoader.BackToBackMovesThrow | google-chart-loader.js:85-102 | Two calls on the same shadow root before the first append lands: the second throws. With the append in the same step, both calls succeed. |
| Loader.DataTable | src/loader.ts:111-135 | Each branch holds exactly when its guard does (both directions). Nullish data gives an empty table. Data with a `getNumberOfRows` method is kept as it is. Truthy `cols` gives the object format. A positive `length` gives the array format. A zero `length` throws "Data was empty". Anything else throws "Data format was not recognized". |
| Loader.ExistingTableWinsOverColumns | src/loader.ts:115-124 | Any object whose `getNumberOfRows` reads truthy, own or inherited and wherever it sits among the fields, is taken as a DataTable as it is. It is never converted as `{cols, rows}`, even when it also has a truthy `cols`. |
| Loader.JsonShapes | loader.ts:117-131 | An object without its own `getNumberOfRows` takes the object format when its `cols` is an array. It is not recognised when it has neither `cols` nor `length`. |
| Loader.ScalarShapes | loader.js:119-128 | An array or string goes to `arrayToDataTable` exactly when it is non-empty and throws "Data was empty" exactly when it is empty. Numbers and booleans are not recognised. |
| Loader.LoadSettings | src/loader.ts:62-74 | `load()` destructures its settings: it throws exactly for null, and undefined takes all the defaults. For an object, each of `version`, `packages` and `language` is the given value unless it is undefined, and then its default; `mapsApiKey` is passed through. |
| Loader.Default | src/loader.ts:64-68 | A destructuring default replaces only undefined; null, false, 0 and the empty string are kept. |
| Loader.LoadDefaultsOnlyForUndefined | loader.js:63-76 | When only a version is given, it is kept. The other settings default: packages to `['corechart']`, language to the document's `lang` or `en`, and `mapsApiKey` to undefined. |
| Loader.StartLoader | src/loader.ts:22-43 | The script is left alone exactly when `google.charts.load` is already a function, and awaited exactly when it is not; a null `google` rejects. The script is appended only when the page does not have it yet, and only then does the page change. |
| Loader.LoaderScriptAtMostOnce | src/loader.ts:22-43 | Any number of copies of the module evaluated on one page leave at most one loader script. If the API is missing, at least one script exists afterwards. |
| Loader.LoaderPresentCounts | loader.ts:23-36 | The `querySelector` test finds the script exactly when the page has at least one. |
| Loader.CountAppendLoader | loader.js:27-34 | Appending the loader script when none was found raises the page's count of loader scripts by exactly one. |
| Loader.Started | src/loader.ts:22-43 | The executor resolves the promise when the API is already there and rejects it with what it threw. Otherwise it leaves the promise pending for the script. |
| Loader.ScriptEventArrives | src/loader.ts:39-40 | Only a promise waiting on the script listens to it. While pending, `load` resolves it and `error` rejects it with the event. A settled promise ignores further events. |
| Loader.LoaderSettlesOnFirstEvent | src/loader.ts:22-43 | A promise settled by the executor stays so whatever the script fires. A waiting one stays pending until the script's first event, and that event alone decides the outcome. |
| ChartTypes.Resolve | google-chart.ts:405-407 | The lookup used by the rest of the model: a listed short name maps to its class name, and any other type is passed through unchanged. |
| ChartTypes.AsWrittenAgreesOffPrototype | google-chart.ts:407 | The written lookup agrees with `Resolve` for every listed type and for every name that is not an `Object.prototype` member. |
| ChartTypes.PrototypeNameMisresolves | google-chart-control.js:149 | For an unlisted type that names an `Object.prototype` member, the written lookup returns the inherited member instead of the type string. |
| ChartTypes.ConstructorTypeCounterexample | google-chart.js:316 | The type `constructor` resolves to the `Object` constructor function rather than to the string `constructor`. |
| ChartTypes.SourceTablesMisresolveExactlyPrototypeNames | google-chart.ts:405-407 | For each of the three tables, the written lookup differs from `Resolve` exactly on the names of `Object.prototype` members. |
| ChartTypes.ChartTablesCompare | google-chart.js:9-33 | A name both chart tables list resolves alike. The tables differ in which names they list exactly on the two spellings of the Material and stepped-area types, `calendar` and `gantt`. |
| ChartElement.ExtraEvents | google-chart.ts:414-417 | The filtered list is no longer than `events` and holds no default event. |
| ChartElement.ExtraEventsCounts | google-chart.ts:414-417 | Filtering `events` drops every `ready` and `select` and keeps every other event as often as it was listed. |
| ChartElement.ExtraEventsMembers | google-chart.ts:414-417 | An event is relayed from a new chart exactly when it is listed and is not a default event. |
| ChartElement.Attach | google-chart.ts:387-402 | Once the wrapper is created, it has no chart yet, has not drawn and holds the resolved type, and `ready` and `select` are relayed from it, in that order. The type change it runs adds one `ready` listener that has seen no chart. With data, the wrapper gets the table and `options \|\| {}`, `drawn` goes false and a draw is pending. Without data, no draw is requested and the wrapper holds no table. The data, events, selection and type are kept. |
| ChartElement.Redraw | google-chart.ts:472-485 | Without a wrapper or data, nothing happens. Otherwise the wrapper gets the data and `options` (`{}` when unset), `drawn` goes false and a draw is pending. |
| ChartElement.FireDebounce | google-chart.ts:480-484 | The timer consumes the pending draw. The relays, the data shown and the selection are unchanged. |
| ChartElement.RedrawsCoalesce | google-chart.ts:480-484 | Any number of redraws before the 5 ms timer fires draw the chart exactly once. |
| ChartElement.SelectionChanged | google-chart.ts:450-464 | `setSelection` is called exactly when there is a chart with that method. For a timeline, the serialised selection must also differ from the chart's current one. Otherwise nothing changes. |
| ChartElement.SelectEchoSettles | google-chart.ts:396-399 | A user selection on a timeline is not written back to the chart. On other charts it is written back once. |
| ChartElement.TypeChanged | google-chart.ts:405-427 | Without a wrapper, nothing happens. Otherwise the wrapper gets the resolved type, and a one-time `ready` listener remembering the current chart is added. Then comes the redraw: with data, the wrapper also gets the table and `options \|\| {}`, `drawn` goes false and a draw is pending. Without data, nothing else of the element or the wrapper changes. |
| ChartElement.RunTypeListener | google-chart.ts:409-424 | The user's extra events are relayed from the chart only when the chart differs from the one seen when the listener was registered. Then a truthy selection is re-applied exactly as `selectionChanged()` would, and a falsy one is not. Nothing but the relays, the chart's own selection and the count of `setSelection` calls changes. |
| ChartElement.OnWrapperReady | google-chart.ts:392-424 | `ready` sets `drawn` and consumes every pending one-time listener. Each listener for which the shown chart is new relays the extra events from it. With a selection set and a chart shown, a chart with `setSelection` is called once per listener, and a timeline only once. Otherwise no `setSelection` call is made, and nothing else changes. |
| ChartElement.ListenersRelay | google-chart.ts:409-418 | The relays the pending listeners add, in registration order, are exactly those of the listeners that saw a chart other than the one now shown. |
| ChartElement.ListenersKeep | google-chart.ts:409-424 | Besides the relays, the listeners change only the chart's current selection and the count of `setSelection` calls. Without listeners, without a selection or without a chart, no `setSelection` call is made. |
| ChartElement.ListenersReapplySelection | google-chart.ts:422-424 | With a selection set and a chart shown, the listeners call `setSelection` once each when the chart has it, except that a timeline, once it holds the selection, is not called again. A chart without `setSelection` is never called. |
| ChartElement.TypeChangeRedrawsAndRelays | google-chart.ts:404-427 | A new type on an element with a wrapper and data, then the timer and the wrapper's `ready`: the wrapper has the resolved new type and has drawn once with the data. The extra events are relayed from the new chart, and a truthy selection is re-applied to it once when it has `setSelection`, unless it is a timeline already showing that selection. |
| ChartElement.FirstReadyRelaysChartEvents | google-chart.ts:386-427 | On an element with data, creating the wrapper, the timer and the first `ready` draw the chart of the resolved type once with that data. `drawn` is set, and the default events are relayed from the wrapper and the extra events from the chart drawn. |
| ChartElement.ViewChanged | google-chart.ts:499-504 | A falsy view is ignored; any other view becomes the data and redraws. |
| ChartElement.RowsOrColumnsChanged | google-chart.ts:507-517 | Nothing happens unless both `rows` and `cols` are truthy. Then `{cols}` is converted and the rows are added. |
| ChartElement.ColumnsObjectFormat | google-chart.ts:511 | `{cols}` with truthy columns always takes the object format. |
| ChartElement.DataChanged | google-chart.ts:522-551 | Falsy data is ignored. Parseable JSON goes straight to `dataTable`. An unparseable string is fetched as a URL. Anything else goes to `dataTable` as it is. |
| ChartElement.UseTable | google-chart.ts:548-550 | A value `dataTable` accepts becomes the data and redraws. A rejected one leaves the element as it was. |
| ChartElement.Fetched | google-chart.ts:540-550 | The response to pending fetch i removes that fetch only, and the relays stay. A body `dataTable` rejects changes nothing else. An accepted body becomes the data and redraws, exactly as if it had been given inline, whether or not its URL is still the element's `data`. |
| ChartElement.ImageUri | google-chart.ts:492-496 | Without a wrapper or before the first draw the URI is null. A chart with `getImageURI` gives its URI, and a chart without it makes the call throw a TypeError. |
| ChartElement.InlineDataDrawn | google-chart.ts:472-551 | Data given as a value, or as JSON text, that `dataTable` accepts is drawn: after the timer the wrapper has drawn once with the converted table and `options \|\| {}`. |
| ChartElement.FetchedDataDrawn | google-chart.ts:522-551 | A string that does not parse joins the pending fetches and draws nothing yet. When its response brings a body `dataTable` accepts, the next timer draws the chart once with that table, and the fetch is no longer pending. |
| ChartElement.LateResponseWins | google-chart.ts:522-551 | Two URLs written in a row are both fetched. If the second URL's response lands first, the first URL's late response replaces it: the element shows the first URL's table while `data` is the second URL. |
| ChartElement.ViewDrawn | google-chart.ts:472-504 | A truthy view is drawn once when the next timer fires. A falsy view leaves the data, the wrapper and the pending draw alone. |
| ChartElement.ImageUriAfterDraw | google-chart.ts:480-496 | After the first draw `imageURI` answers from the chart drawn: its URI, or a TypeError for a chart without `getImageURI`. Before it, the URI is null. |
| ChartElement.RunKeepsRelaysSorted | google-chart.ts:400-417 | Over any run, relays on the wrapper are exactly those of the default events, and a chart never relays `ready` or `select`. |
| ChartElement.StepKeepsRelaysSorted | google-chart.ts:387-447 | Every single step keeps wrapper relays to the default events and chart relays to the others. |
| ChartElement.Apply | google-chart.ts:169-212 | A write of the value a property already holds runs no observer and changes nothing. Every property write leaves the property holding the value written. |
| ChartElement.Run | google-chart.ts:169-212 | Any sequence of writes of the values already held leaves the element as it was. |
| LegacyChart.Draw | google-chart.js:217-221 | Without a wrapper, nothing happens. Otherwise exactly one debounced draw is pending. |
| LegacyChart.FireDraw | google-chart.js:221-227 | The debounce draws at most once, and only when the wrapper has a data table or a data source URL. |
| LegacyChart.Execute | google-chart.js:241-244 | `execute` answers null until the chart is drawn. Then it returns the result of the chart's method, and throws a TypeError when there is no chart or the chart lacks that method. |
| LegacyChart.ImageUri | google-chart.js:252-254 | `imageURI` is null until drawn. Then it is the chart's URI, and it throws a TypeError when there is no chart or the chart has no `getImageURI`. |
| LegacyChart.ComputeWrapper | google-chart.js:312-323 | `drawn` goes false and nothing else of the element changes. The new wrapper gets the resolved Polymer 1 chart type and the element's data, source URL, query, options and view, and has not drawn yet. |
| LegacyChart.WrapperChanged | google-chart.js:190-195 | The computed `wrapper` is not built while `options` is undefined, and is rebuilt otherwise. |
| LegacyChart.OnReady | google-chart.js:324-342 | On `ready`, the chart is recorded and `drawn` goes true; a chart already held is left as it is. Only on the wrapper's first `ready` are the user events relayed from the chart and the styles moved, unless the type is `column`. |
| LegacyChart.ReadyRelaysOncePerWrapper | google-chart.js:329-335 | The user events are relayed only from the chart of the wrapper's first `ready`. |
| LegacyChart.ReadyRegistersActions | google-chart.js:324-417 | A new chart with the action methods takes over the actions. It drops the ids of the list remembered before, which is `actions` itself while the two still share one array, and registers exactly the ids of `actions`. `actions` becomes the remembered array, shared again. A chart with an empty registry ends with exactly the ids of `actions`. |
| LegacyChart.ChangeSelection | google-chart.js:363-375 | Nothing happens without a chart or with an undefined selection. A set `_noReact` flag is consumed without writing the selection. Otherwise the selection goes to a chart that has `setSelection`, and a chart without it is left alone. |
| LegacyChart.SelectionEchoSuppressed | google-chart.js:347-351 | A selection made in the chart is copied to the element, and it is not written back to the chart. |
| LegacyChart.ChangeActions | google-chart.js:384-417 | Without a chart, nothing is registered. Otherwise the chart's registry, the remembered contents and the error are those the action bookkeeping computes from what `_attachedActions` holds. While it still shares the array of `actions`, it already shows an in-place change. The two share an array afterwards exactly when the observer ran to its end, or they shared one before and the change was made in place. Nothing else changes. |
| LegacyChart.TakeOver | google-chart.js:324-417 | A chart new to the element is recorded and `drawn` goes true. Its registry takes over `actions` as a full replacement of the remembered list, and the wrapper, relays, styles and properties are kept. |
| LegacyChart.StepKeepsAttachedInStep | google-chart.js:384-417 | Every step keeps `_attachedActions` reading the same as `actions` while the two share an array. |
| LegacyChart.NullPushBlocksReplacement | google-chart.js:384-417 | A null pushed in place onto `['a']` makes the observer throw, and the shared remembered array already holds the null. A later replacement by `['b']` throws on that null while removing the old entries: `a` is gone, `b` is never registered, and the remembered array is still `['a', null]`. |
| LegacyChart.ChangeData | google-chart.js:451-459 | With a wrapper, the wrapper gets the data and a draw is requested; nothing else changes. |
| LegacyChart.ChangeOptions | google-chart.js:422-430 | With a wrapper, the wrapper gets the options and a draw is requested; nothing else changes. |
| LegacyChart.ChangeView | google-chart.js:436-444 | With a wrapper, the wrapper gets the view and a draw is requested; nothing else changes. |
| LegacyChart.ChangeSrc | google-chart.js:467-479 | With a wrapper, the data table is cleared, the source URL is set and a draw is requested. The query is set only when it is truthy. |
| LegacyChart.SrcOrQueryChanged | google-chart.js:200 | The `_changeSrc(src, query)` observer runs only when both `src` and `query` are defined. |
| LegacyChart.Constructed | google-chart.js:39-204 | The element built from its attributes has a wrapper exactly when `options` is defined. That wrapper holds the resolved type, the options, view, source URL and query, and has a draw pending. It holds the data unless both `src` and `query` are defined, which clears the table. Nothing is drawn and no chart is held. |
| LegacyChart.SourceUrlDraws | google-chart.js:190-227 | A chart configured with a truthy `src` draws once from that URL. With `query` undefined, a later `src` write does not reach the wrapper. With `query` defined, a changed defined `src` is forwarded, the table is cleared and a draw is pending. |
| LegacyChart.OnDataChanged | google-chart.js:301-305 | A data event's detail becomes the element's data. A change forwards it to the wrapper and requests a draw; the same object again changes nothing. |
| LegacyChart.DataWritesCoalesce | google-chart.js:217-227 | Any number of data and view writes leave the wrapper holding the latest data and view and keep a pending draw pending. The debounce then draws at most once, exactly when a draw is pending and there is a table or a URL. |
| LegacyChart.RunKeepsDrawnHasChart | google-chart.js:241-328 | Over any run, whenever the element is drawn it holds a chart. So `execute` and `imageURI` throw only for a chart that lacks the method asked for. |
| LegacyChart.OnlyMissingMethodsThrow | google-chart.js:241-254 | From construction on, `execute` and `imageURI` are null until the chart is drawn. Afterwards they throw exactly when the drawn chart lacks the method asked for. |
| LegacyChart.Apply | google-chart.js:197-204 | A write of the value a property already holds runs none of its effects. Every property write leaves the property holding the value written, and `ready` reaches only an element with a wrapper. |
| LegacyChart.Run | google-chart.js:197-204 | Any sequence of writes of the values already held leaves the element as it was. |
| ChartActions.ActionField | google-chart.js:391-396 | An action's id and text are the `id` or `text` property when truthy, otherwise the action itself, as a string. Reading them throws exactly for a null or undefined entry. |
| ChartActions.ActionNormalisation | google-chart.js:391-396 | A bare string is both the id and the text. An object with a truthy id and text supplies them. |
| ChartActions.FalsyIdFallsBackToObject | google-chart.js:391 | An object with an empty or missing id is registered under `[object Object]`. |
| ChartActions.RemoveEachRegistry | google-chart.js:400-404 | Removing well-formed actions unregisters exactly their ids. |
| ChartActions.AddEachRegistry | google-chart.js:392-405 | Adding well-formed actions registers exactly their ids, in addition to the existing ones. |
| ChartActions.RemoveEach | google-chart.js:400-404 | Removal stops at the first entry that throws. It throws exactly when some entry is null or undefined, and it never adds an id. |
| ChartActions.AddEach | google-chart.js:392-405 | Adding stops at the first entry that throws. It throws exactly when some entry is null or undefined, and it never drops an id. |
| ChartActions.JsSlice | google-chart.js:411 | `slice` with bounds inside the array is the subsequence, and no slice is longer than the array. |
| ChartActions.ApplySplices | google-chart.js:407-412 | Once a splice has thrown, the later splices change nothing. The splices throw exactly when one carries a null or undefined item. Otherwise each splice unregisters its removed ids and registers its inserted ones, in order. |
| ChartActions.ChangeActions | google-chart.js:384-417 | The list handed in is what `_attachedActions` holds as the observer finds it, in-place changes to a shared array included. A chart without the action methods is left alone, and so is that list. Otherwise the remembered list becomes the change's array unless an entry threw, in which case the list handed in is kept. A change to another path registers nothing. |
| ChartActions.ReplaceResyncs | google-chart.js:401-416 | Replacing the whole list re-registers exactly the new ids on top of whatever the old list did not own. A chart in step with the old list ends in step with the new one. |
| ChartActions.NullActionThrows | google-chart.js:391-405 | A null entry in a replacement list throws, and the old list is kept. |
| ChartActions.SpliceResyncs | google-chart.js:407-412 | A splice on a list without repeated ids keeps the chart's registry equal to the ids of the list. |
| ChartActions.EditsResync | google-chart.js:384-412 | Any number of well-formed edits to the array, each notified as one splice, keep a chart in step with it: the registered ids are exactly the ids of the array after the last edit. |
| ChartActions.DuplicateIdSpliceDrops | google-chart.js:409-412 | Removing one of two actions with the same id unregisters that id although the other action is still listed. |
| Dashboard.GroupKey | google-chart-dashboard.js:98 | A falsy group maps to `__DEFAULT`, and a non-empty string group maps to itself. |
| Dashboard.Lookup | google-chart-dashboard.js:97-103 | `getGroup` returns the first group stored under the key, or, when none is, a fresh empty group carrying the key. |
| Dashboard.CreateGroups | google-chart-dashboard.js:94-116 | The loop builds, for every key, exactly the controls and the charts whose group key is that key, in document order. |
| Dashboard.GroupingLookup | google-chart-dashboard.js:111-114 | Every group holds exactly its own members, controls first and then charts, each in document order. |
| Dashboard.MembersSpec | google-chart-dashboard.js:97-103 | A child is a member of key k exactly when some child with that identity has group key k. |
| Dashboard.ChildInExactlyOneGroup | google-chart-dashboard.js:111-112 | With distinct identities, a control lies in the group of its own key and in no other. |
| Dashboard.GroupingKeys | google-chart-dashboard.js:99-101 | Keys are distinct and no group is empty. A key has a group exactly when some child has that key. |
| Dashboard.AsWrittenAgreesOffPrototype | google-chart-dashboard.js:97-103 | The written `groups[id]` lookup agrees with the own-property lookup when no child's key is an `Object.prototype` member. |
| Dashboard.FoldAsWrittenSpec | google-chart-dashboard.js:99-102 | The as-written fold equals the own-property fold when no child's key is an `Object.prototype` member. Otherwise it throws. |
| Dashboard.ConstructorGroupCounterexample | google-chart-dashboard.js:97-112 | One control in group `constructor` makes the written `_createGroups` throw; the own-property lookup groups it. |
| Dashboard.Classify | google-chart-dashboard.js:150-164 | A group with charts and controls is bound. A group with only charts is uncontrolled. A group with only controls is unconnected. |
| Dashboard.BindGroups | google-chart-dashboard.js:145-166 | The walk over the groups makes at most one binding per group. |
| Dashboard.BindGroupsUncontrolled | google-chart-dashboard.js:156-157 | A chart is listed as uncontrolled exactly when it lies in a group without controls. |
| Dashboard.BindGroupsUnconnected | google-chart-dashboard.js:158-163 | A control is marked unconnected exactly when it lies in a group without charts. |
| Dashboard.BindGroupsBound | google-chart-dashboard.js:145-169 | A binding is made exactly for each group with both charts and controls, and it joins that group's controls and charts. |
| Dashboard.BindDashboard | google-chart-dashboard.js:140-171 | Nothing happens until both the dashboard and the groups exist. Then the classification is applied and the element is bound. |
| Dashboard.AssignData | google-chart-dashboard.js:185-187 | The listed charts get the data and every other chart keeps its data. |
| Dashboard.DrawInitialDashboard | google-chart-dashboard.js:180-192 | Nothing happens unless the element is bound and its data is truthy. Otherwise `drawn` goes false, the uncontrolled charts get the data and a Dashboard draw is queued. |
| Dashboard.DashboardDrew | google-chart-dashboard.js:188-191 | The oldest queued draw happens and `drawn` goes true. |
| Dashboard.OnDataChanged | google-chart-dashboard.js:180-202 | A data event's detail becomes the dashboard's data. A write that is no change runs nothing. A change on a bound dashboard with truthy data starts a draw and hands the data to the uncontrolled charts; otherwise only the data is stored. |
| Dashboard.RepeatedDataEventDrawsOnce | google-chart-dashboard.js:180-202 | The same detail delivered twice in a row runs the initial draw at most once: the second event changes nothing. |
| Dashboard.DrawTouchesOwnChartsOnly | google-chart-dashboard.js:180-192 | With the uncontrolled list kept per element, a draw leaves every chart outside the board's groups untouched. |
| Dashboard.SharedUncontrolledLeaks | google-chart-dashboard.js:85-187 | With the list shared through the prototype, drawing one dashboard overwrites another dashboard's uncontrolled chart. |
| ChartControl.SetOption | google-chart-control.js:113-124 | `this.set('options.x', v)` sets the own property exactly when `options` is a plain object (`Obj`), and every other key reads as before. On anything else nothing changes. |
| ChartControl.FilterColumnIndex | google-chart-control.js:114 | A non-negative index is passed on; a negative index becomes undefined (both directions). |
| ChartControl.FilterColumnLabel | google-chart-control.js:123 | A truthy label is passed on; a falsy label becomes undefined. |
| ChartControl.Draw | google-chart-control.js:126-138 | The flag is always cleared. The wrapper draws with the current state and options exactly when the control is drawn, has a wrapper and the flag was clear. |
| ChartControl.FlagSuppressesOnce | google-chart-control.js:126-130 | A set flag suppresses exactly the next draw, and the draw after it happens. |
| ChartControl.IndexChanged | google-chart-control.js:113-115 | The options carry the filter column index. |
| ChartControl.LabelChanged | google-chart-control.js:122-124 | The options carry the filter column label. |
| ChartControl.DefaultsMapToUndefined | google-chart-control.js:66-81 | As constructed, the options carry undefined for both filter column options, because index -1 and label null both map to undefined. The wrapper of the default `range` type is built with those options. |
| ChartControl.StepKeepsFilterInOptions | google-chart-control.js:113-124 | Every step other than replacing the options keeps the options' filter column in step with `index` and `label`. |
| ChartControl.RunKeepsFilterInOptions | google-chart-control.js:66-124 | From any state where they agree, and as long as the options object is not replaced, the options carry exactly the filter column the latest `index` and `label` call for. |
| ChartControl.ComputeWrapper | google-chart-control.js:145-153 | `drawn` goes false. A wrapper of the resolved control type is built with the current options and state. |
| ChartControl.NewWrapperDrawsOnReady | google-chart-control.js:145-162 | A new type builds a wrapper of the resolved control type with the current options. Its `ready` draws it once with the control's new state when that assignment runs its observer, and not at all otherwise. |
| ChartControl.OnReady | google-chart-control.js:154-162 | After `ready`, the control is drawn, holds the wrapper's state and has the flag clear. |
| ChartControl.ReadyListenerRunsOnce | google-chart-control.js:145-162 | The `ready` listener is a one-time listener. The first `ready` of a wrapper moves the styles once and draws at most once, and a later `ready` of the same wrapper changes nothing. A new type builds a wrapper whose first `ready` moves the styles again. |
| ChartControl.OnStateChange | google-chart-control.js:163-167 | After `statechange`, the control holds the wrapper's state. |
| ChartControl.ReadyDrawsOnce | google-chart-control.js:154-162 | On `ready`, the control draws once when the state assignment runs its observer, and not at all when it does not. |
| ChartControl.StateEchoSuppressed | google-chart-control.js:163-167 | The control's own state change is not drawn back. The flag is clear afterwards, so the next options change draws. |
| ChartControl.StepDrawsAtMostOnce | google-chart-control.js:103-138 | No step draws a control twice. |
| ChartControl.Apply | google-chart-control.js:103-167 | A write of the value a property already holds runs no observer and changes nothing. Every property write leaves the property holding the value written. `ready` and `statechange` change nothing without a wrapper, and `ready` changes nothing once the wrapper's listener has run. |
| ChartControl.Run | google-chart-control.js:103-106 | Any sequence of writes of the values already held leaves the control as it was. |
| ChartData.ColumnOpsReadBack | google-chart-data.js:105-107 | The calls built from `cols` add exactly those columns, in order, and no rows. |
| ChartData.ColumnOps | google-chart-data.js:105-107 | One `addColumn` per column, in order. |
| ChartData.AssembleTable | google-chart-data.js:99-112 | Assembly succeeds exactly when `cols` is an array; anything else throws a TypeError. |
| ChartData.AssembleReadsBack | google-chart-data.js:100-108 | The assembled table's columns read back as `cols`. Its one row batch is `rows`, or `[]` when `rows` is falsy, and it is added last. |
| ChartData.ConvertValue | google-chart-data.js:113-128 | A falsy value gives no table. A value with truthy `cols` is constructed as an object-format table; any other value goes through `arrayToDataTable`. |
| ChartData.ConvertAgreesWithLoader | google-chart-data.js:118-124 | On the inputs both accept, the conversion picks the same format as the TypeScript loader's `dataTable`. |
| ChartData.SetData | google-chart-data.js:85-87 | A change event carrying the data fires exactly when the data is not the object already held. |
| ChartData.ComputeData | google-chart-data.js:88-98 | Nothing happens without a table or while the view is undefined. A truthy view makes a new DataView of the table; otherwise the table itself becomes the data. |
| ChartData.SetTable | google-chart-data.js:62-69 | Writing the table already held changes nothing. A new table is stored and `data` recomputed: a view of it when `view` is truthy, the table itself when `view` is defined but falsy, and unchanged while `view` is undefined or the table is null. New data is announced once. |
| ChartData.Fire | google-chart-data.js:99-128 | Firing consumes the pending job; without a job nothing happens. |
| ChartData.SetValue | google-chart-data.js:113-115 | A write that changes `value` schedules its conversion and replaces any pending job. Writing the value already held changes nothing. |
| ChartData.RowsOrColumnsChanged | google-chart-data.js:99-102 | Nothing happens while `rows` or `cols` is undefined. Otherwise the assembly is scheduled and replaces any pending job. |
| ChartData.SetRows | google-chart-data.js:99-102 | A write to `rows` that changes it, with `cols` defined, schedules the assembly. A write with either undefined keeps the pending job, and writing the rows already held changes nothing. |
| ChartData.SetCols | google-chart-data.js:99-102 | A write to `cols` that changes it, with `rows` defined, schedules the assembly. A write with either undefined keeps the pending job, and writing the columns already held changes nothing. |
| ChartData.SetView | google-chart-data.js:88-98 | A view write that changes it recomputes `data`: a DataView for a truthy view, the table itself for a falsy one. The view already held changes nothing, and the table and job are never touched. |
| ChartData.FactoryImpl | google-chart-data.js:76-83 | With truthy rows, the first argument becomes `cols` and the second `rows`. Otherwise the first argument becomes `value`. |
| ChartData.FactoryImplSchedules | google-chart-data.js:76-83 | Construction with rows and defined columns schedules the assembly. Construction with a defined value schedules the conversion. Columns without a definition schedule nothing, and `new GoogleChartData()` leaves the element as it was. |
| ChartData.LastWriteWins | google-chart-data.js:99-128 | The two paths share one debouncer, so the later write that changes something decides which table is built. Writing back the value already held leaves the rows-and-columns job in place. |
| ChartData.FalsyValueKeepsData | google-chart-data.js:113-128 | A new falsy value clears the table but leaves `data` and the announced events as they were. The falsy value already held, written again with no job pending, changes nothing. |
| ChartData.RunKeepsAnnounced | google-chart-data.js:85-98 | Over any run, the last change event carries the current `data`, and there is one as soon as there is data. |
| ChartData.StepKeepsGood | google-chart-data.js:68-128 | Every single step keeps the issued ids below the counter and keeps the last event in step with `data`. |
| ChartData.FreshTableAnnounced | google-chart-data.js:88-128 | A job that builds a table, with the view defined, announces new data. |
| ChartData.Apply | google-chart-data.js:68-72 | A write of the value a property already holds changes nothing. Every property write leaves the property holding the value written. The debouncer consumes the pending job and does nothing without one. |
| ChartData.Run | google-chart-data.js:68-72 | Any sequence of writes of the values already held leaves the element as it was. |

## Left out

- The DOM is not modelled: elements, shadow roots, `querySelector`, CSS classes, `textContent` and event bubbling. `stopPropagation` and `fire` appear only as the values they carry.
- The network is not modelled. A `fetch` is a pending entry whose response is a step of the element's trace, with the parsed body as a parameter. The loader script's `load` and `error` events are inputs of `Loader.LoaderOutcome`. Whether the script ever loads is not modelled.
- `JSON.parse` is an opaque parameter of `ChartElement.DataChanged`, and `JSON.stringify` is compared as a value.
- Promise ordering is not modelled: each promise resolves in the step that stands for it. Only the orders the sources force are kept, such as a load before its visualization and a draw after its debounce.
- Timers are not modelled beyond the debounce flags. `requestAnimationFrame` is folded into the debounce firing. The 5 ms and 0 ms delays are not modelled.
- Polymer's change detection is taken as rules (`Js.Changes`). A property write runs its effects only when the new value is not identical to the old one. Object identity is not modelled, so each write step says whether an object it writes is a newly built one (`isNew`). An effect of several properties waits until all of them are defined. A computed property runs before the observers, and observers run in their declared order. On construction only the configured properties run their effects.
- ChartControl.OnReady and ChartControl.OnStateChange: whether the `state` assignment runs its observer is a parameter (`observed`), because it depends on whether `getState()` returns a new object.
- LegacyChart.Apply: an `actions` write is always a change (the step carries the change record Polymer delivers), and a full replacement always assigns a new array. Assigning the array `actions` already holds, after changing it in place, is outside the model.
- ChartControl.IndexChanged and ChartControl.LabelChanged: the `options.*` path notification is taken to redraw even when the option already held the value.
- ChartElement.ViewChanged: the `_data` write is taken to redraw even when it writes the view already held.
- Charts are modelled by the set of method names their lookup finds (`methods`), inherited ones included. What a method returns, other than `getImageURI` and `getSelection`, is a parameter.
- ChartElement.TypeChanged, LegacyChart.ComputeWrapper and ChartControl.ComputeWrapper: resolve the type with the corrected `ChartTypes.Resolve`, not with the lookup as written. The as-written lookup and where it differs are in the first Findings row.
- Dashboard.DrawInitialDashboard: uses a per-element uncontrolled list, the corrected form of the shared list in the third Findings row.
- ChartControl.Draw: reads the state and options when it is called. The source reads them one animation frame later.
- PackageLoader.MoveStyles: the `@import` text of the new style element is not modelled, only its id. The corrected form appends the element when it is created; filling in its text after the library has loaded does not touch the counts or ids, so it is left out.
- ChartControl.SetOption: an array or function `options` is treated like a primitive, so nothing is set and no redraw follows. Polymer's `set` would add the property to such an object and notify, and `_draw` would run. Options are plain objects in every use the element documents.
- PackageLoader.MoveStylesAsWritten: `styleElement` is modelled as the one page-wide variable the assignment creates in sloppy mode. In strict mode the assignment would throw a ReferenceError instead; the file has no `'use strict'`.
- The errors of the Polymer 1 chart are not modelled: `addError`, `removeError`, `removeAllErrors` and the `error` listener only render messages.
- `_onSelectChanged` of the dashboard is not modelled: it only re-fires a select event with the dashboard's data.
- `localizeGlobalStylesheets` of the TypeScript element is not modelled: it only clones link elements.
- `attached` and the wrapper-changed promises of the dashboard are not modelled.
- Dashboard.BindGroups: treats each group's children as resolved at once. The source binds after all the wrappers resolve. A child whose wrapper never resolves leaves the group unbound there.
- Dashboard.CreateGroups: keeps the groups in first-insertion order. JavaScript enumerates integer-like keys first, so `for...in` in `_bindDashboard` may visit groups in another order. Only the order of the bindings differs.
- Numbers are integers; `NaN`, fractions and infinities are not modelled.
- Js.Get: only `length` is an own property of arrays and strings, and a function has no own properties. Array index keys (`arr["0"]`), `Function.prototype` members (`call`, `bind`, `name`) and the members of `Array.prototype` and `String.prototype` fall back to `Object.prototype`. No modelled path reads such a key.
- ChartData.AssembleTable: any `cols` that is not an array throws. The source would also accept an object with its own `forEach` method.
- `google-chart-query`, `google-chart-editor`, `google-chart-styles` and `charts-loader.js` are not part of this model.
- The library's `ChartWrapper`, `Dashboard`, `ControlWrapper`, `DataTable` and `DataView` are opaque: their internals are not part of this model.

## Findings

| source | as written | input that shows it | evidently intended | confidence | as-written member | corrected member |
|---|---|---|---|---|---|---|
| google-chart.ts:407, google-chart.js:316, google-chart-control.js:149 | `TYPES[type] \|\| type` looks the type up through `Object.prototype` | type `constructor` (also `toString`, `valueOf`, `__proto__`, ...) | an unlisted type passes through as its own name | high, not executed | ChartTypes.ConstructorTypeCounterexample | ChartTypes.AsWrittenAgreesOffPrototype |
| google-chart-dashboard.js:97-103,111-114 | `groups[id]` finds inherited members, so `getGroup` returns e.g. the `Object` function, whose `controls` is undefined | one `google-chart-control` with `group="constructor"` | every group name gets its own bind group | high, not executed | Dashboard.ConstructorGroupCounterexample | Dashboard.CreateGroups |
| google-chart-dashboard.js:85,157,185-187 | `_uncontrolledCharts: []` sits on the shared prototype, so all dashboards push into one list | two dashboards on one page, each with a chart and no control | each dashboard feeds only its own uncontrolled charts | high, not executed | Dashboard.SharedUncontrolledLeaks | Dashboard.DrawTouchesOwnChartsOnly |
| google-chart-loader.js:86-102 | `styleElement` is assigned without a declaration, so every `moveStyles` call on the page shares one variable and each queued callback appends the element of the latest call | two elements whose shadow roots are moved into in the same turn | each call appends the element it created to its own root | medium, not executed | PackageLoader.SharedElementCounterexample | PackageLoader.MoveStylesKeepsInvariant |
| google-chart-loader.js:85-102 | the new `shadow-css-N` element is appended only after the library promise settles, yet the next call expects to find it | two `moveStyles` calls on one shadow root in the same turn | the new style element is in the root as soon as the count is raised | low, not executed | PackageLoader.BackToBackMovesThrow | PackageLoader.MoveStylesKeepsInvariant |

=== FILE: chart_actions.dfy ===
/**
 The tooltip actions of the Polymer 1 chart element (google-chart.js,
 `_changeActions`). The element keeps the actions it last attached; a change of
 the `actions` array either replaces the whole list (every attached action is
 removed from the chart, then every new one added) or arrives as splices (each
 splice removes its removed items and adds the items it inserted).

 The chart's action registry is a map from action id to tooltip text. An action
 is a bare string, which serves as both id and text, or an object with `id` and
 `text`; a null or undefined entry makes the observer throw when it is reached,
 after the actions before it have been handled.
 */
module ChartActions {
  import opened Js

  /**
   `String(a[key] || a)`, the id (`key` is `id`) or the text (`key` is `text`)
   of an action: the property when it is truthy, otherwise the action itself.
   Reading a property of null or undefined throws.
   */
  function ActionField(a: Value, key: string): (r: Result<string>)
    ensures r.Err? <==> Nullish(a)
    ensures r.Ok? && Truthy(Get(a, key)) ==> r.value == ToJsString(Get(a, key))
    ensures r.Ok? && !Truthy(Get(a, key)) ==> r.value == ToJsString(a)
  {
    if Nullish(a) then Err(TypeError("Cannot read properties of " + (if a.Null? then "null" else "undefined") + " (reading '" + key + "')"))
    else Ok(ToJsString(Or(Get(a, key), a)))
  }

  function ActionId(a: Value): Result<string> {
    ActionField(a, "id")
  }

  function ActionText(a: Value): Result<string> {
    ActionField(a, "text")
  }

  /** A bare string is both the id and the text of its action; an object with a truthy id and text supplies them. */
  lemma ActionNormalisation(s: string, id: string, text: string)
    requires id != "" && text != ""
    ensures ActionId(Str(s)) == Ok(s) && ActionText(Str(s)) == Ok(s)
    ensures var o := Obj([Field("id", Str(id)), Field("text", Str(text))]);
      ActionId(o) == Ok(id) && ActionText(o) == Ok(text)
  {
    var o := Obj([Field("id", Str(id)), Field("text", Str(text))]);
    assert OwnLookup(o.fields, "text") == Some(Str(text)) by {
      assert o.fields[1..] == [Field("text", Str(text))];
    }
  }

  /**
   An object whose id is falsy (missing, empty, zero) is registered under the
   id `[object Object]`, whatever its text.
   */
  lemma FalsyIdFallsBackToObject(text: string)
    ensures ActionId(Obj([Field("id", Str("")), Field("text", Str(text))])) == Ok("[object Object]")
    ensures ActionId(Obj([Field("text", Str(text))])) == Ok("[object Object]")
  {
    var o := Obj([Field("text", Str(text))]);
    assert OwnLookup(o.fields, "id") == None by {
      assert o.fields[1..] == [];
    }
  }

  predicate AllPresent(items: seq<Value>) {
    forall i :: 0 <= i < |items| ==> !Nullish(items[i])
  }

  /** The ids of a list of actions. */
  function Ids(items: seq<Value>): set<string>
    requires AllPresent(items)
  {
    set i | 0 <= i < |items| :: ActionId(items[i]).value
  }

  /** No two actions of the list share an id. */
  predicate DistinctIds(items: seq<Value>)
    requires AllPresent(items)
  {
    forall i, j :: 0 <= i < j < |items| ==> ActionId(items[i]).value != ActionId(items[j]).value
  }

  /** The chart's registry while a list is being walked, and what was thrown, if anything. */
  datatype Progress = Progress(registered: map<string, string>, thrown: Option<Error>)

  /** `items.forEach(removeAction)`: stops at the first entry that throws. */
  function RemoveEach(p: Progress, items: seq<Value>): (r: Progress)
    ensures p.thrown.Some? ==> r == p
    ensures p.thrown.None? ==> (r.thrown.None? <==> AllPresent(items))
    ensures r.registered.Keys <= p.registered.Keys
    decreases items
  {
    if p.thrown.Some? || items == [] then p
    else
      match ActionId(items[0])
      case Err(e) => p.(thrown := Some(e))
      case Ok(id) =>
        var rest := RemoveEach(Progress(p.registered - {id}, None), items[1..]);
        assert rest.thrown.None? <==> AllPresent(items[1..]);
        assert AllPresent(items) <==> !Nullish(items[0]) && AllPresent(items[1..]) by {
          if !Nullish(items[0]) && AllPresent(items[1..]) {
            forall i | 0 <= i < |items| ensures !Nullish(items[i]) {
              if i > 0 { assert items[i] == items[1..][i - 1]; }
            }
          }
        }
        rest
  }

  /** `items.forEach(addAction)`: registers each id with its text; stops at the first entry that throws. */
  function AddEach(p: Progress, items: seq<Value>): (r: Progress)
    ensures p.thrown.Some? ==> r == p
    ensures p.thrown.None? ==> (r.thrown.None? <==> AllPresent(items))
    ensures p.registered.Keys <= r.registered.Keys
    decreases items
  {
    if p.thrown.Some? || items == [] then p
    else
      match ActionId(items[0])
      case Err(e) => p.(thrown := Some(e))
      case Ok(id) =>
        var rest := AddEach(Progress(p.registered[id := ActionText(items[0]).value], None), items[1..]);
        assert rest.thrown.None? <==> AllPresent(items[1..]);
        assert AllPresent(items) <==> !Nullish(items[0]) && AllPresent(items[1..]) by {
          if !Nullish(items[0]) && AllPresent(items[1..]) {
            forall i | 0 <= i < |items| ensures !Nullish(items[i]) {
              if i > 0 { assert items[i] == items[1..][i - 1]; }
            }
          }
        }
        rest
  }

  lemma IdsCons(items: seq<Value>)
    requires |items| > 0 && AllPresent(items)
    ensures AllPresent(items[1..])
    ensures Ids(items) == {ActionId(items[0]).value} + Ids(items[1..])
  {
    var tail := items[1..];
    forall id | id in Ids(items) ensures id in {ActionId(items[0]).value} + Ids(tail) {
      var i :| 0 <= i < |items| && ActionId(items[i]).value == id;
      if i > 0 { assert items[i] == tail[i - 1]; }
    }
    forall id | id in Ids(tail) ensures id in Ids(items) {
      var i :| 0 <= i < |tail| && ActionId(tail[i]).value == id;
      assert tail[i] == items[i + 1];
    }
  }

  lemma IdsConcat(a: seq<Value>, b: seq<Value>)
    requires AllPresent(a) && AllPresent(b)
    ensures AllPresent(a + b) && Ids(a + b) == Ids(a) + Ids(b)
  {
    var ab := a + b;
    forall id | id in Ids(ab) ensures id in Ids(a) + Ids(b) {
      var i :| 0 <= i < |ab| && ActionId(ab[i]).value == id;
      if i < |a| { assert ab[i] == a[i]; } else { assert ab[i] == b[i - |a|]; }
    }
    forall id | id in Ids(a) ensures id in Ids(ab) {
      var i :| 0 <= i < |a| && ActionId(a[i]).value == id;
      assert ab[i] == a[i];
    }
    forall id | id in Ids(b) ensures id in Ids(ab) {
      var i :| 0 <= i < |b| && ActionId(b[i]).value == id;
      assert ab[|a| + i] == b[i];
    }
  }

  /** Removing a list of well-formed actions unregisters exactly their ids. */
  lemma {:induction false} RemoveEachRegistry(reg: map<string, string>, items: seq<Value>)
    requires AllPresent(items)
    ensures var r := RemoveEach(Progress(reg, None), items);
      r.thrown.None? && r.registered.Keys == reg.Keys - Ids(items)
    decreases |items|
  {
    if items != [] {
      IdsCons(items);
      var id := ActionId(items[0]).value;
      RemoveEachRegistry(reg - {id}, items[1..]);
    }
  }

  /** Adding a list of well-formed actions registers exactly their ids besides those already there. */
  lemma {:induction false} AddEachRegistry(reg: map<string, string>, items: seq<Value>)
    requires AllPresent(items)
    ensures var r := AddEach(Progress(reg, None), items);
      r.thrown.None? && r.registered.Keys == reg.Keys + Ids(items)
    decreases |items|
  {
    if items != [] {
      IdsCons(items);
      var id := ActionId(items[0]).value;
      AddEachRegistry(reg[id := ActionText(items[0]).value], items[1..]);
    }
  }

  /** `Array.prototype.slice(start, end)`: negative bounds count from the end, all bounds are clamped. */
  function JsSlice(s: seq<Value>, start: int, end: int): (r: seq<Value>)
    ensures 0 <= start <= end <= |s| ==> r == s[start..end]
    ensures |r| <= |s|
  {
    var from := Clamp(if start < 0 then |s| + start else start, |s|);
    var to := Clamp(if end < 0 then |s| + end else end, |s|);
    if from >= to then [] else s[from..to]
  }

  function Clamp(k: int, len: nat): (r: nat)
    ensures r <= len
    ensures 0 <= k <= len ==> r == k
  {
    if k < 0 then 0 else if k > len then len else k
  }

  /** One entry of `indexSplices`: `after` is the array after the change (`object` in the record). */
  datatype Splice = Splice(index: int, removed: seq<Value>, addedCount: int, after: seq<Value>)

  /** The `actions.*` change record the observer receives. */
  datatype Change =
    | Replaced(base: seq<Value>)                       // path `actions`
    | Spliced(base: seq<Value>, splices: seq<Splice>)  // path `actions.splices`
    | OtherPath(base: seq<Value>)                      // a sub-property of an item, `actions.length`, ...

  /** The items a splice inserted: `object.slice(index, index + addedCount)`. */
  function Added(s: Splice): seq<Value> {
    JsSlice(s.after, s.index, s.index + s.addedCount)
  }

  /** No splice carries a null or undefined entry among its removed or inserted items. */
  predicate SplicesPresent(splices: seq<Splice>) {
    forall k :: 0 <= k < |splices| ==> AllPresent(splices[k].removed) && AllPresent(Added(splices[k]))
  }

  /** The registered ids after the splices, each removing its removed ids and then adding its inserted ones. */
  function SpliceKeys(keys: set<string>, splices: seq<Splice>): set<string>
    requires SplicesPresent(splices)
    decreases |splices|
  {
    if splices == [] then keys
    else SpliceKeys(keys - Ids(splices[0].removed) + Ids(Added(splices[0])), splices[1..])
  }

  /**
   The `indexSplices.forEach` of the observer: each splice removes its removed
   items, then adds the inserted ones, in order. It throws exactly when some
   splice carries a null or undefined item; otherwise the registry's ids are
   the old ones with every splice's removed ids taken out and its inserted ids
   put in, in splice order.
   */
  function ApplySplices(p: Progress, splices: seq<Splice>): (r: Progress)
    ensures p.thrown.Some? ==> r == p
    ensures p.thrown.None? ==> (r.thrown.None? <==> SplicesPresent(splices))
    ensures p.thrown.None? && SplicesPresent(splices) ==>
      r.registered.Keys == SpliceKeys(p.registered.Keys, splices)
    decreases splices
  {
    if p.thrown.Some? || splices == [] then p
    else
      var s := splices[0];
      var mid := RemoveEach(p, s.removed);
      var next := AddEach(mid, Added(s));
      var r := ApplySplices(next, splices[1..]);
      assert SplicesPresent(splices) <==>
        AllPresent(s.removed) && AllPresent(Added(s)) && SplicesPresent(splices[1..]) by {
        if AllPresent(s.removed) && AllPresent(Added(s)) && SplicesPresent(splices[1..]) {
          forall k | 0 <= k < |splices|
            ensures AllPresent(splices[k].removed) && AllPresent(Added(splices[k]))
          {
            if k > 0 { assert splices[k] == splices[1..][k - 1]; }
          }
        }
        if SplicesPresent(splices) {
          forall k | 0 <= k < |splices[1..]|
            ensures AllPresent(splices[1..][k].removed) && AllPresent(Added(splices[1..][k]))
          {
            assert splices[1..][k] == splices[k + 1];
          }
        }
      }
      if AllPresent(s.removed) && AllPresent(Added(s)) then
        RemoveEachRegistry(p.registered, s.removed);
        AddEachRegistry(mid.registered, Added(s));
        r
      else r
  }

  /** The chart as the observer sees it: whether it has both action methods, and its registry. */
  datatype ActionChart = ActionChart(hasActionApi: bool, registered: map<string, string>)

  /** The observer's outcome: the chart, the list the element remembers, and what it threw. */
  datatype Update = Update(chart: ActionChart, attached: seq<Value>, thrown: Option<Error>)

  /**
   `_changeActions(chart, change)` for a non-null chart, given `attached`, what
   `_attachedActions` holds as the observer finds it (after an in-place change
   to the very array it refers to, that is already the new contents). A chart
   without `setAction` or `removeAction` is left alone, and so is the
   remembered array; otherwise the remembered array becomes the change's
   array unless an entry threw.
   */
  function ChangeActions(chart: ActionChart, attached: seq<Value>, change: Change): (r: Update)
    ensures !chart.hasActionApi ==> r == Update(chart, attached, None)
    ensures r.chart.hasActionApi == chart.hasActionApi
    ensures chart.hasActionApi && r.thrown.None? ==> r.attached == change.base
    ensures r.thrown.Some? ==> r.attached == attached
    ensures change.OtherPath? ==> r == Update(chart, change.base, None) || !chart.hasActionApi
  {
    if !chart.hasActionApi then Update(chart, attached, None)
    else
      var start := Progress(chart.registered, None);
      var p := match change
        case Replaced(base) => AddEach(RemoveEach(start, attached), base)
        case Spliced(_, splices) => ApplySplices(start, splices)
        case OtherPath(_) => start;
      Update(chart.(registered := p.registered), if p.thrown.None? then change.base else attached, p.thrown)
  }

  /**
   Full replacement: the chart ends up registering the new ids on top of
   whatever it had that was not among the old attached ids; in particular, a
   chart in step with the old list ends in step with the new one.
   */
  lemma ReplaceResyncs(chart: ActionChart, attached: seq<Value>, base: seq<Value>)
    requires chart.hasActionApi && AllPresent(attached) && AllPresent(base)
    ensures var r := ChangeActions(chart, attached, Replaced(base));
      && r.thrown.None? && r.attached == base
      && r.chart.registered.Keys == (chart.registered.Keys - Ids(attached)) + Ids(base)
    ensures chart.registered.Keys == Ids(attached) ==>
      ChangeActions(chart, attached, Replaced(base)).chart.registered.Keys == Ids(base)
  {
    RemoveEachRegistry(chart.registered, attached);
    var mid := RemoveEach(Progress(chart.registered, None), attached);
    AddEachRegistry(mid.registered, base);
  }

  /** A null or undefined entry in the new list makes full replacement throw, and the old list is kept. */
  lemma NullActionThrows(chart: ActionChart, attached: seq<Value>, base: seq<Value>)
    requires chart.hasActionApi && AllPresent(attached) && !AllPresent(base)
    ensures var r := ChangeActions(chart, attached, Replaced(base));
      r.thrown.Some? && r.attached == attached
  {
    RemoveEachRegistry(chart.registered, attached);
  }

  /** The three parts of a list around a splice are well formed when the list is. */
  lemma PartsPresent(s: seq<Value>, i: nat, j: nat)
    requires AllPresent(s) && i <= j <= |s|
    ensures AllPresent(s[..i]) && AllPresent(s[i..j]) && AllPresent(s[j..])
  {
    forall m | 0 <= m < j - i ensures !Nullish(s[i..j][m]) { assert s[i..j][m] == s[i + m]; }
    forall m | 0 <= m < |s| - j ensures !Nullish(s[j..][m]) { assert s[j..][m] == s[j + m]; }
  }

  /** In a list without repeated ids, the ids of a middle part occur nowhere else. */
  lemma DistinctPartsDisjoint(s: seq<Value>, i: nat, j: nat)
    requires AllPresent(s) && DistinctIds(s) && i <= j <= |s|
    ensures AllPresent(s[..i]) && AllPresent(s[i..j]) && AllPresent(s[j..])
    ensures Ids(s[i..j]) !! Ids(s[..i]) + Ids(s[j..])
  {
    PartsPresent(s, i, j);
    forall id | id in Ids(s[i..j]) ensures id !in Ids(s[..i]) && id !in Ids(s[j..]) {
      var m :| 0 <= m < j - i && ActionId(s[i..j][m]).value == id;
      assert s[i..j][m] == s[i + m];
      forall n | 0 <= n < i ensures ActionId(s[..i][n]).value != id {
        assert s[..i][n] == s[n];
      }
      forall n | 0 <= n < |s| - j ensures ActionId(s[j..][n]).value != id {
        assert s[j..][n] == s[j + n];
      }
    }
  }

  /**
   The id arithmetic of a consistent splice: the old ids without the removed
   ones, plus the inserted ones, are the new ids, when the old ids are distinct.
   */
  lemma SpliceIds(attached: seq<Value>, base: seq<Value>, i: nat, k: nat, c: nat)
    requires AllPresent(attached) && AllPresent(base) && DistinctIds(attached)
    requires i + k <= |attached| && i + c <= |base|
    requires base == attached[..i] + base[i..i + c] + attached[i + k..]
    ensures AllPresent(attached[i..i + k]) && AllPresent(base[i..i + c])
    ensures Ids(attached) - Ids(attached[i..i + k]) + Ids(base[i..i + c]) == Ids(base)
  {
    var pre, removed, post := attached[..i], attached[i..i + k], attached[i + k..];
    var added := base[i..i + c];
    assert attached == pre + removed + post;
    DistinctPartsDisjoint(attached, i, i + k);
    PartsPresent(base, i, i + c);
    IdsConcat(pre, removed);
    IdsConcat(pre + removed, post);
    IdsConcat(pre, added);
    IdsConcat(pre + added, post);
  }

  /**
   One splice consistent with the change it describes (`removed` is the slice
   of the old list at `index`, and the new list is the old one with `removed`
   replaced by the inserted items) keeps a chart in step with the list, as
   long as the old list has no repeated id.
   */
  lemma SpliceResyncs(chart: ActionChart, attached: seq<Value>, base: seq<Value>, i: nat, k: nat, c: nat)
    requires chart.hasActionApi && AllPresent(attached) && AllPresent(base) && DistinctIds(attached)
    requires i + k <= |attached| && i + c <= |base|
    requires base == attached[..i] + base[i..i + c] + attached[i + k..]
    requires chart.registered.Keys == Ids(attached)
    ensures var r := ChangeActions(chart, attached, Spliced(base, [Splice(i, attached[i..i + k], c, base)]));
      && r.thrown.None? && r.attached == base
      && r.chart.registered.Keys == Ids(base)
  {
    SpliceIds(attached, base, i, k, c);
    var removed, added := attached[i..i + k], base[i..i + c];
    RemoveEachRegistry(chart.registered, removed);
    var mid := RemoveEach(Progress(chart.registered, None), removed);
    AddEachRegistry(mid.registered, added);
    assert JsSlice(base, i, i + c) == added;
    var splice := Splice(i, removed, c, base);
    assert ApplySplices(Progress(chart.registered, None), [splice])
        == ApplySplices(AddEach(mid, added), []);
  }

  /** `actions.splice(index, removedCount, ...added)` made on the page's array. */
  datatype Edit = Edit(index: nat, removedCount: nat, added: seq<Value>)

  predicate EditFits(list: seq<Value>, e: Edit) {
    e.index + e.removedCount <= |list|
  }

  function Edited(list: seq<Value>, e: Edit): seq<Value>
    requires EditFits(list, e)
  {
    list[..e.index] + e.added + list[e.index + e.removedCount..]
  }

  /** The `actions.splices` record Polymer delivers for the edit. */
  function EditChange(list: seq<Value>, e: Edit): Change
    requires EditFits(list, e)
  {
    var after := Edited(list, e);
    Spliced(after, [Splice(e.index, list[e.index..e.index + e.removedCount], |e.added|, after)])
  }

  /**
   Each edit fits the array it is made on, inserts no null or undefined, and
   finds an array whose ids are all different.
   */
  predicate EditsWellFormed(list: seq<Value>, edits: seq<Edit>)
    decreases |edits|
  {
    edits == [] ||
      (&& EditFits(list, edits[0]) && AllPresent(edits[0].added)
       && AllPresent(list) && DistinctIds(list)
       && EditsWellFormed(Edited(list, edits[0]), edits[1..]))
  }

  /** The chart and the array after the edits, each notified to the observer as it is made. */
  function RunEdits(chart: ActionChart, list: seq<Value>, edits: seq<Edit>): (ActionChart, seq<Value>)
    requires EditsWellFormed(list, edits)
    decreases |edits|
  {
    if edits == [] then (chart, list)
    else
      var u := ChangeActions(chart, list, EditChange(list, edits[0]));
      RunEdits(u.chart, Edited(list, edits[0]), edits[1..])
  }

  /**
   Any number of well-formed edits, each notified as one splice, keep a chart
   in step with the array: its registered ids are exactly the ids the array
   holds after the last edit.
   */
  lemma {:induction false} EditsResync(chart: ActionChart, list: seq<Value>, edits: seq<Edit>)
    requires chart.hasActionApi && AllPresent(list) && EditsWellFormed(list, edits)
    requires chart.registered.Keys == Ids(list)
    ensures AllPresent(RunEdits(chart, list, edits).1)
    ensures RunEdits(chart, list, edits).0.registered.Keys == Ids(RunEdits(chart, list, edits).1)
    decreases |edits|
  {
    if edits != [] {
      var e := edits[0];
      var i, k, c := e.index, e.removedCount, |e.added|;
      var after := Edited(list, e);
      PartsPresent(list, i, i + k);
      IdsConcat(list[..i], e.added);
      IdsConcat(list[..i] + e.added, list[i + k..]);
      assert after[i..i + c] == e.added;
      assert after == list[..i] + after[i..i + c] + list[i + k..];
      SpliceResyncs(chart, list, after, i, k, c);
      var u := ChangeActions(chart, list, EditChange(list, e));
      EditsResync(u.chart, after, edits[1..]);
    }
  }

  /**
   Without distinct ids the splice path falls out of step: with two actions
   named `Foo`, removing one of them unregisters `Foo` although the other is
   still listed.
   */
  lemma DuplicateIdSpliceDrops()
    ensures var foo := Str("Foo");
      var r := ChangeActions(ActionChart(true, map["Foo" := "Foo"]), [foo, foo], Spliced([foo], [Splice(0, [foo], 0, [foo])]));
      r.attached == [foo] && "Foo" !in r.chart.registered && Ids([foo]) == {"Foo"}
  {
    var foo := Str("Foo");
    assert ActionId(foo) == Ok("Foo");
    assert JsSlice([foo], 0, 0) == [];
    assert ActionId([foo][0]).value == "Foo";
    assert Ids([foo]) == {"Foo"};
    var splice := Splice(0, [foo], 0, [foo]);
    assert ApplySplices(Progress(map["Foo" := "Foo"], None), [splice])
        == ApplySplices(AddEach(RemoveEach(Progress(map["Foo" := "Foo"], None), [foo]), []), []);
  }
}

=== FILE: chart_data.dfy ===
/**
 The `google-chart-data` element (google-chart-data.js): a DataTable built
 from either `value` or `rows` and `cols`, behind one shared debounce job, and
 `data` derived from the table and an optional DataView description, with a
 `google-chart-data-change` event for every new `data`.

 Observer dispatch follows the framework's rules as the element relies on
 them: an observer of several properties is skipped while any of them is
 undefined, an observer of one property always runs, and a property observer
 runs only when the new value is not the identical object. Object identity
 of the tables and views the element creates is an `id` drawn from a counter.
 The library's promise is resolved on the spot.
 */
module ChartData {
  import opened Js
  import Loader

  /** One call made on a fresh `new DataTable()`. */
  datatype Op = AddColumn(col: Value) | AddRows(rows: Value)

  datatype Construction =
    | Assembled(ops: seq<Op>)               // new DataTable(), then addColumn / addRows
    | Converted(source: Loader.TableSource) // new DataTable(value) or arrayToDataTable(value)

  datatype Table = Table(id: nat, made: Construction)

  /** `data`: the table itself, or a DataView made from it with `DataView.fromJSON`. */
  datatype Data = Plain(table: Table) | View(id: nat, base: Table, view: Value)

  /** The pending `updateDataTable` job, with the arguments it captured. */
  datatype Job = RowsAndColumns(rows: Value, cols: Value) | FromValue(value: Value)

  datatype Element = Element(
    value: Value,
    cols: Value,
    rows: Value,
    view: Value,
    table: Option<Table>,   // None is `undefined`
    data: Option<Data>,
    job: Option<Job>,
    nextId: nat,
    fired: seq<Data>,       // `google-chart-data-change` events, in order
    thrown: Option<Error>)

  const Initial := Element(Undefined, Undefined, Undefined, Null, None, None, None, 0, [], None)

  /** The calls that build a table from `cols` and `rows`: every column in order, then the rows. */
  function ColumnOps(cols: seq<Value>): (r: seq<Op>)
    ensures |r| == |cols|
    ensures forall i :: 0 <= i < |cols| ==> r[i] == AddColumn(cols[i])
  {
    if cols == [] then [] else [AddColumn(cols[0])] + ColumnOps(cols[1..])
  }

  /** The columns a sequence of calls adds, read back. */
  function ColumnsOf(ops: seq<Op>): seq<Value> {
    if ops == [] then [] else ColumnOf(ops[0]) + ColumnsOf(ops[1..])
  }

  function ColumnOf(op: Op): seq<Value> {
    if op.AddColumn? then [op.col] else []
  }

  /** The row batches a sequence of calls adds, read back. */
  function RowBatchesOf(ops: seq<Op>): seq<Value> {
    if ops == [] then [] else RowBatchOf(ops[0]) + RowBatchesOf(ops[1..])
  }

  function RowBatchOf(op: Op): seq<Value> {
    if op.AddRows? then [op.rows] else []
  }

  lemma {:induction false} ColumnsOfConcat(a: seq<Op>, b: seq<Op>)
    ensures ColumnsOf(a + b) == ColumnsOf(a) + ColumnsOf(b)
    decreases |a|
  {
    if a == [] {
      assert a + b == b;
    } else {
      assert (a + b)[0] == a[0];
      assert (a + b)[1..] == a[1..] + b;
      ColumnsOfConcat(a[1..], b);
      calc {
        ColumnsOf(a + b);
        ColumnOf(a[0]) + ColumnsOf(a[1..] + b);
        ColumnOf(a[0]) + (ColumnsOf(a[1..]) + ColumnsOf(b));
        (ColumnOf(a[0]) + ColumnsOf(a[1..])) + ColumnsOf(b);
      }
    }
  }

  lemma {:induction false} RowBatchesOfConcat(a: seq<Op>, b: seq<Op>)
    ensures RowBatchesOf(a + b) == RowBatchesOf(a) + RowBatchesOf(b)
    decreases |a|
  {
    if a == [] {
      assert a + b == b;
    } else {
      assert (a + b)[0] == a[0];
      assert (a + b)[1..] == a[1..] + b;
      RowBatchesOfConcat(a[1..], b);
      calc {
        RowBatchesOf(a + b);
        RowBatchOf(a[0]) + RowBatchesOf(a[1..] + b);
        RowBatchOf(a[0]) + (RowBatchesOf(a[1..]) + RowBatchesOf(b));
        (RowBatchOf(a[0]) + RowBatchesOf(a[1..])) + RowBatchesOf(b);
      }
    }
  }

  lemma {:induction false} ColumnOpsReadBack(cols: seq<Value>)
    ensures ColumnsOf(ColumnOps(cols)) == cols
    ensures RowBatchesOf(ColumnOps(cols)) == []
    decreases |cols|
  {
    if cols != [] {
      ColumnOpsReadBack(cols[1..]);
      ColumnsOfConcat([AddColumn(cols[0])], ColumnOps(cols[1..]));
      RowBatchesOfConcat([AddColumn(cols[0])], ColumnOps(cols[1..]));
    }
  }

  /**
   The debounced body of `_computeTableFromRowsAndColumns`: `cols.forEach`
   throws a TypeError unless `cols` is an array; otherwise every column is
   added in order, then the rows, with missing rows as an empty array.
   */
  function AssembleTable(rows: Value, cols: Value): (r: Result<Construction>)
    ensures r.Ok? <==> cols.Arr?
    ensures r.Err? ==> r.error.TypeError?
  {
    match cols
    case Arr(items) => Ok(Assembled(ColumnOps(items) + [AddRows(Or(rows, Arr([])))]))
    case _ => Err(TypeError("cols.forEach"))
  }

  /**
   The table built from `cols` and `rows` adds exactly the given columns, in
   their order, then exactly one batch of rows: `rows`, or an empty array
   when `rows` is falsy.
   */
  lemma AssembleReadsBack(rows: Value, items: seq<Value>)
    ensures AssembleTable(rows, Arr(items)).Ok?
    ensures var ops := AssembleTable(rows, Arr(items)).value.ops;
      && ColumnsOf(ops) == items
      && RowBatchesOf(ops) == [if Truthy(rows) then rows else Arr([])]
      && ops[|ops| - 1].AddRows?
  {
    var last := AddRows(Or(rows, Arr([])));
    var ops := ColumnOps(items) + [last];
    assert AssembleTable(rows, Arr(items)) == Ok(Assembled(ops));
    ColumnOpsReadBack(items);
    ColumnsOfConcat(ColumnOps(items), [last]);
    RowBatchesOfConcat(ColumnOps(items), [last]);
    assert ColumnsOf([last]) == [] by {
      assert [last][1..] == [];
    }
    assert RowBatchesOf([last]) == [last.rows] by {
      assert [last][1..] == [];
    }
  }

  /**
   The debounced body of `_computeTableFromValue`: a falsy value leaves the
   table undefined, a value with truthy `cols` goes to `new DataTable(value)`,
   anything else to `arrayToDataTable(value)`.
   */
  function ConvertValue(value: Value): (r: Option<Construction>)
    ensures r.None? <==> !Truthy(value)
    ensures r.Some? ==> r.value.Converted?
    ensures r.Some? ==> (r.value.source.ObjectFormat? <==> Truthy(Get(value, "cols")))
    ensures r.Some? ==> r.value.source.ObjectFormat? || r.value.source.ArrayFormat?
  {
    if !Truthy(value) then None
    else if Truthy(Get(value, "cols")) then Some(Converted(Loader.ObjectFormat(value)))
    else Some(Converted(Loader.ArrayFormat(value)))
  }

  /**
   The element and the loader's `dataTable` agree on every value the element
   converts, apart from an existing DataTable (which the loader passes
   through) and an empty array (which the loader rejects).
   */
  lemma ConvertAgreesWithLoader(value: Value)
    requires Truthy(value)
    requires !Loader.LooksLikeDataTable(value)
    requires Loader.HasColumns(value) || GreaterThanZero(Get(value, "length"))
    ensures Loader.DataTable(value) == Ok(ConvertValue(value).value.source)
  {
  }

  /** A new `data` is announced: the observer fires only when the object is not the one already held. */
  function SetData(el: Element, d: Data): (r: Element)
    ensures r.data == Some(d)
    ensures el.data == Some(d) ==> r == el
    ensures el.data != Some(d) ==> r.fired == el.fired + [d]
  {
    if el.data == Some(d) then el else el.(data := Some(d), fired := el.fired + [d])
  }

  /**
   `_computeData(table, view.*)`: skipped while the table or the view is
   undefined; a truthy view makes a new DataView of the table, any other view
   gives the table itself.
   */
  function ComputeData(el: Element): (r: Element)
    ensures el.table.None? || el.view.Undefined? ==> r == el
    ensures el.table.Some? && Truthy(el.view) ==>
      r.data == Some(View(el.nextId, el.table.value, el.view)) && r.nextId == el.nextId + 1
    ensures el.table.Some? && !el.view.Undefined? && !Truthy(el.view) ==>
      r.data == Some(Plain(el.table.value)) && r.nextId == el.nextId
  {
    if el.table.None? || el.view.Undefined? then el
    else if Truthy(el.view) then SetData(el.(nextId := el.nextId + 1), View(el.nextId, el.table.value, el.view))
    else SetData(el, Plain(el.table.value))
  }

  /** `_setTable(t)`: the `table` observer recomputes `data` only when the table object changes. */
  function SetTable(el: Element, t: Option<Table>): (r: Element)
    ensures r.table == t
    ensures el.table == t ==> r == el
    ensures el.table != t && (t.None? || el.view.Undefined?) ==> r == el.(table := t)
    ensures el.table != t && t.Some? && Truthy(el.view) ==>
      && r.data == Some(View(el.nextId, t.value, el.view)) && r.nextId == el.nextId + 1
      && (el.data != r.data ==> r.fired == el.fired + [r.data.value])
    ensures el.table != t && t.Some? && !el.view.Undefined? && !Truthy(el.view) ==>
      && r.data == Some(Plain(t.value)) && r.nextId == el.nextId
      && (el.data != r.data ==> r.fired == el.fired + [r.data.value])
  {
    if el.table == t then el else ComputeData(el.(table := t))
  }

  /**
   The shared debounce fires: the job that was scheduled last runs. A fresh
   table takes the next id; a TypeError from `cols` is recorded and leaves the
   table as it was.
   */
  function Fire(el: Element): (r: Element)
    ensures r.job.None?
    ensures el.job.None? ==> r == el
  {
    match el.job
    case None => el
    case Some(FromValue(v)) =>
      var e := el.(job := None);
      (match ConvertValue(v)
       case None => SetTable(e, None)
       case Some(c) => SetTable(e.(nextId := e.nextId + 1), Some(Table(e.nextId, c))))
    case Some(RowsAndColumns(rows, cols)) =>
      var e := el.(job := None);
      match AssembleTable(rows, cols)
      case Err(err) => e.(thrown := Some(err))
      case Ok(c) => SetTable(e.(nextId := e.nextId + 1), Some(Table(e.nextId, c)))
  }

  /**
   A write to `value`: when it is a change, its observer schedules the
   conversion, replacing any pending job; writing the value already held runs
   nothing.
   */
  function SetValue(el: Element, v: Value, isNew: bool): (r: Element)
    ensures r.value == v
    ensures Changes(el.value, v, isNew) ==> r.job == Some(FromValue(v))
    ensures !Changes(el.value, v, isNew) ==> r == el
  {
    if !Changes(el.value, v, isNew) then el
    else el.(value := v, job := Some(FromValue(v)))
  }

  /** `rows` or `cols` changes: with both defined, the assembly is scheduled, replacing any pending job. */
  function RowsOrColumnsChanged(el: Element): (r: Element)
    ensures el.rows.Undefined? || el.cols.Undefined? ==> r == el
    ensures !el.rows.Undefined? && !el.cols.Undefined? ==> r.job == Some(RowsAndColumns(el.rows, el.cols))
  {
    if el.rows.Undefined? || el.cols.Undefined? then el
    else el.(job := Some(RowsAndColumns(el.rows, el.cols)))
  }

  /** A write to `rows`: a change runs the rows-and-columns observer, the value already held runs nothing. */
  function SetRows(el: Element, rows: Value, isNew: bool): (r: Element)
    ensures r.rows == rows && r.cols == el.cols && r.value == el.value
    ensures !Changes(el.rows, rows, isNew) ==> r == el
    ensures Changes(el.rows, rows, isNew) && !rows.Undefined? && !el.cols.Undefined? ==>
      r.job == Some(RowsAndColumns(rows, el.cols))
    ensures rows.Undefined? || el.cols.Undefined? ==> r.job == el.job
  {
    if !Changes(el.rows, rows, isNew) then el
    else RowsOrColumnsChanged(el.(rows := rows))
  }

  /** A write to `cols`, under the same rule as `rows`. */
  function SetCols(el: Element, cols: Value, isNew: bool): (r: Element)
    ensures r.cols == cols && r.rows == el.rows && r.value == el.value
    ensures !Changes(el.cols, cols, isNew) ==> r == el
    ensures Changes(el.cols, cols, isNew) && !el.rows.Undefined? && !cols.Undefined? ==>
      r.job == Some(RowsAndColumns(el.rows, cols))
    ensures el.rows.Undefined? || cols.Undefined? ==> r.job == el.job
  {
    if !Changes(el.cols, cols, isNew) then el
    else RowsOrColumnsChanged(el.(cols := cols))
  }

  /** A write to `view`: a change recomputes `data`, the view already held changes nothing. */
  function SetView(el: Element, view: Value, isNew: bool): (r: Element)
    ensures r.view == view && r.table == el.table && r.job == el.job
    ensures !Changes(el.view, view, isNew) ==> r == el
    ensures Changes(el.view, view, isNew) && el.table.Some? && Truthy(view) ==>
      r.data == Some(View(el.nextId, el.table.value, view))
    ensures Changes(el.view, view, isNew) && el.table.Some? && !view.Undefined? && !Truthy(view) ==>
      r.data == Some(Plain(el.table.value))
  {
    if !Changes(el.view, view, isNew) then el
    else ComputeData(el.(view := view))
  }

  /**
   `factoryImpl(valueOrCols, rows)`: a truthy second argument assigns `cols`
   then `rows`; otherwise the first argument is the `value`. `isNew` says
   whether an object argument is a newly built one.
   */
  function FactoryImpl(el: Element, valueOrCols: Value, rows: Value, isNew: bool): (r: Element)
    ensures Truthy(rows) ==> r.cols == valueOrCols && r.rows == rows && r.value == el.value
    ensures !Truthy(rows) ==> r.value == valueOrCols && r.cols == el.cols && r.rows == el.rows
  {
    if Truthy(rows) then SetRows(SetCols(el, valueOrCols, isNew), rows, isNew)
    else SetValue(el, valueOrCols, isNew)
  }

  /**
   Whichever way the constructor is called, the one pending job builds the
   table from what was passed: `cols` and `rows` when both are there, the
   value otherwise. Cols written first do not schedule anything on their own,
   and `new GoogleChartData()` writes undefined over undefined and schedules
   nothing at all.
   */
  lemma FactoryImplSchedules(valueOrCols: Value, rows: Value, isNew: bool)
    ensures Truthy(rows) && !valueOrCols.Undefined? ==>
      FactoryImpl(Initial, valueOrCols, rows, isNew).job == Some(RowsAndColumns(rows, valueOrCols))
    ensures Truthy(rows) && valueOrCols.Undefined? ==> FactoryImpl(Initial, valueOrCols, rows, isNew).job.None?
    ensures !Truthy(rows) && !valueOrCols.Undefined? ==>
      FactoryImpl(Initial, valueOrCols, rows, isNew).job == Some(FromValue(valueOrCols))
    ensures !Truthy(rows) && valueOrCols.Undefined? ==> FactoryImpl(Initial, valueOrCols, rows, isNew) == Initial
  {
  }

  /**
   The shared job name means the last write that changes something wins: a
   new value written after `rows` and `cols` decides the table, and new `rows`
   written after a value decide it in turn. Writing back the value already
   held leaves the rows-and-columns job in place.
   */
  lemma LastWriteWins(el: Element, v: Value, fv: bool, rows: Value, fr: bool)
    requires !el.cols.Undefined? && !rows.Undefined?
    ensures Changes(el.value, v, fv) ==>
      SetValue(SetRows(el, rows, fr), v, fv).job == Some(FromValue(v))
    ensures Changes(el.rows, rows, fr) && !Changes(el.value, v, fv) ==>
      SetValue(SetRows(el, rows, fr), v, fv).job == Some(RowsAndColumns(rows, el.cols))
    ensures Changes(el.rows, rows, fr) ==>
      SetRows(SetValue(el, v, fv), rows, fr).job == Some(RowsAndColumns(rows, el.cols))
  {
  }

  /**
   Setting a new falsy value leaves the table undefined, and since
   `_computeData` is skipped for an undefined table, `data` and the events stay
   as they were. Writing back the falsy value already held, with no job
   pending, changes nothing at all, the table included.
   */
  lemma FalsyValueKeepsData(el: Element, v: Value, isNew: bool)
    requires !Truthy(v)
    ensures Changes(el.value, v, isNew) ==>
      var r := Fire(SetValue(el, v, isNew));
      r.table.None? && r.data == el.data && r.fired == el.fired
    ensures !Changes(el.value, v, isNew) && el.job.None? ==> Fire(SetValue(el, v, isNew)) == el
  {
  }

  datatype Step =
    | WriteValue(v: Value, isNew: bool)
    | WriteRows(rows: Value, isNew: bool)
    | WriteCols(cols: Value, isNew: bool)
    | WriteView(view: Value, isNew: bool)
    | Construct(valueOrCols: Value, rows: Value, isNew: bool)
    | Debounce

  /** The step writes a property the value it already holds, so Polymer runs no observer for it. */
  predicate WritesHeldValue(el: Element, step: Step) {
    match step
    case WriteValue(v, isNew) => !Changes(el.value, v, isNew)
    case WriteRows(rows, isNew) => !Changes(el.rows, rows, isNew)
    case WriteCols(cols, isNew) => !Changes(el.cols, cols, isNew)
    case WriteView(view, isNew) => !Changes(el.view, view, isNew)
    case _ => false
  }

  /** One input: a property write, the constructor, or the debouncer firing the pending job. */
  function Apply(el: Element, step: Step): (r: Element)
    ensures WritesHeldValue(el, step) ==> r == el
    ensures step.WriteValue? ==> r.value == step.v
    ensures step.WriteRows? ==> r.rows == step.rows
    ensures step.WriteCols? ==> r.cols == step.cols
    ensures step.WriteView? ==> r.view == step.view
    ensures step.Debounce? ==> r.job.None?
    ensures step.Debounce? && el.job.None? ==> r == el
  {
    match step
    case WriteValue(v, isNew) => SetValue(el, v, isNew)
    case WriteRows(rows, isNew) => SetRows(el, rows, isNew)
    case WriteCols(cols, isNew) => SetCols(el, cols, isNew)
    case WriteView(view, isNew) => SetView(el, view, isNew)
    case Construct(a, rows, isNew) => FactoryImpl(el, a, rows, isNew)
    case Debounce => Fire(el)
  }

  /** The inputs in order. Writing back the values the element holds, any number of times, changes nothing. */
  function Run(el: Element, steps: seq<Step>): (r: Element)
    ensures (forall i | 0 <= i < |steps| :: WritesHeldValue(el, steps[i])) ==> r == el
    decreases |steps|
  {
    if steps == [] then el else Run(Apply(el, steps[0]), steps[1..])
  }

  /** Every object the element made has an id below the counter. */
  ghost predicate IdsIssued(el: Element) {
    && (el.table.Some? ==> el.table.value.id < el.nextId)
    && (el.data.Some? && el.data.value.Plain? ==> el.data.value.table.id < el.nextId)
    && (el.data.Some? && el.data.value.View? ==> el.data.value.id < el.nextId && el.data.value.base.id < el.nextId)
  }

  /** The last `google-chart-data-change` event carries the current `data`, and there is one as soon as there is data. */
  ghost predicate Announced(el: Element) {
    && (el.data.None? <==> el.fired == [])
    && (el.data.Some? ==> el.fired[|el.fired| - 1] == el.data.value)
  }

  ghost predicate Good(el: Element) {
    IdsIssued(el) && Announced(el)
  }

  lemma {:induction false} ComputeDataKeepsGood(el: Element)
    requires Good(el)
    ensures Good(ComputeData(el))
  {
  }

  lemma {:induction false} SetTableKeepsGood(el: Element, t: Option<Table>)
    requires Good(el)
    requires t.Some? ==> t.value.id < el.nextId
    ensures Good(SetTable(el, t))
  {
    if el.table != t {
      ComputeDataKeepsGood(el.(table := t));
    }
  }

  lemma {:induction false} FireKeepsGood(el: Element)
    requires Good(el)
    ensures Good(Fire(el))
  {
    match el.job {
      case None =>
      case Some(FromValue(v)) =>
        var e := el.(job := None);
        match ConvertValue(v) {
          case None => SetTableKeepsGood(e, None);
          case Some(c) => SetTableKeepsGood(e.(nextId := e.nextId + 1), Some(Table(e.nextId, c)));
        }
      case Some(RowsAndColumns(rows, cols)) =>
        var e := el.(job := None);
        match AssembleTable(rows, cols) {
          case Err(err) =>
          case Ok(c) => SetTableKeepsGood(e.(nextId := e.nextId + 1), Some(Table(e.nextId, c)));
        }
    }
  }

  lemma {:induction false} StepKeepsGood(el: Element, step: Step)
    requires Good(el)
    ensures Good(Apply(el, step))
  {
    match step
    case WriteView(view, isNew) =>
      if Changes(el.view, view, isNew) {
        ComputeDataKeepsGood(el.(view := view));
      }
    case Debounce => FireKeepsGood(el);
    case _ =>
  }

  /** From the element's defaults, every step sequence keeps the events in step with `data`. */
  lemma {:induction false} RunKeepsAnnounced(el: Element, steps: seq<Step>)
    requires Good(el)
    ensures Announced(Run(el, steps))
    ensures IdsIssued(Run(el, steps))
    decreases |steps|
  {
    if steps != [] {
      StepKeepsGood(el, steps[0]);
      RunKeepsAnnounced(Apply(el, steps[0]), steps[1..]);
    }
  }

  lemma InitialGood()
    ensures Good(Initial)
  {
  }

  /**
   On an element whose ids are issued, a job that builds a table always
   announces new data once the view is defined: the fresh table (or a fresh
   view of it) cannot be the object already held.
   */
  lemma {:induction false} FreshTableAnnounced(el: Element)
    requires IdsIssued(el)
    requires el.job.Some? && !el.view.Undefined?
    requires el.job.value.FromValue? ==> Truthy(el.job.value.value)
    requires el.job.value.RowsAndColumns? ==> el.job.value.cols.Arr?
    ensures var r := Fire(el);
      && r.table.Some? && r.table.value.id == el.nextId
      && r.fired == el.fired + [r.data.value]
      && (Truthy(el.view) ==> r.data.value.View? && r.data.value.base == r.table.value)
      && (!Truthy(el.view) ==> r.data.value == Plain(r.table.value))
  {
  }
}

=== FILE: chart_element.dfy ===
/**
 The TypeScript `google-chart` element (google-chart.ts) as a state record and
 one step function per observer or listener.

 The chart wrapper and the chart it draws are library objects: the model keeps
 only what the element reads back from them (the chart's identity, the
 methods it has, its current selection, its image URI) and what the element
 hands them (the chart type, the data, the options, the number of draws). The
 5 ms redraw debounce is a pending flag that `FireDebounce` clears; the event
 listeners the element registers on the wrapper and the chart are recorded as
 relays, each re-dispatching one event name.
 */
module ChartElement {
  import opened Js
  import Loader
  import ChartTypes

  /** The events relayed from the wrapper from construction on. */
  const DefaultEvents: seq<string> := ["ready", "select"]

  /** What the element last handed to the chart as its data (`_data`). */
  datatype Shown =
    | Unset
    | ViewData(view: Value)
    | TableData(source: Loader.TableSource, addedRows: Option<Value>)

  /**
   The chart object `getChart()` returns. `methods` holds every name whose
   lookup on the chart finds a function, inherited ones included.
   */
  datatype ChartObj = ChartObj(id: nat, methods: set<string>, current: Value, imageUri: string)

  predicate HasMethod(c: ChartObj, name: string) {
    name in c.methods
  }

  datatype Wrapper = Wrapper(
    chartType: string,
    table: Shown,
    options: Value,
    chart: Option<ChartObj>,   // `getChart()`: null until the first draw
    draws: nat)

  /** Where a relay listens: the wrapper, or the chart `getChart()` returned (null included). */
  datatype Target = OnWrapper | OnChart(chart: Option<nat>)

  /** A listener that re-dispatches the event `name` as `google-chart-<name>`. */
  datatype Relay = Relay(target: Target, name: string)

  datatype Element = Element(
    typ: string,
    events: seq<string>,
    options: Value,
    rows: Value,
    cols: Value,
    data: Value,
    view: Value,
    selection: Value,
    drawn: bool,
    shown: Shown,
    wrapper: Option<Wrapper>,
    redrawPending: bool,
    relays: seq<Relay>,
    typeListeners: seq<Option<nat>>,  // one-time `ready` listeners, each holding its `lastChart`
    fetches: seq<string>,             // URLs `dataChanged` asked `fetch` for, responses not yet in
    failure: Option<Error>,           // the reason shown in the chart div
    setSelectionCalls: nat)

  /** The element as constructed: type `column`, no events, everything else unset. */
  const Initial := Element("column", [], Undefined, Undefined, Undefined, Undefined, Undefined, Undefined,
                           false, Unset, None, false, [], [], [], None, 0)

  /** The user events attached on a chart change: `events` without `ready` and `select`, in order. */
  function ExtraEvents(events: seq<string>): (r: seq<string>)
    ensures |r| <= |events|
    ensures forall i :: 0 <= i < |r| ==> r[i] !in DefaultEvents
  {
    if events == [] then []
    else if events[0] in DefaultEvents then ExtraEvents(events[1..])
    else [events[0]] + ExtraEvents(events[1..])
  }

  function Occurrences(s: seq<string>, e: string): nat {
    if s == [] then 0 else (if s[0] == e then 1 else 0) + Occurrences(s[1..], e)
  }

  /**
   The filter keeps every other event as often as it is listed and drops every
   occurrence of the default events.
   */
  lemma {:induction false} ExtraEventsCounts(events: seq<string>, e: string)
    ensures e !in DefaultEvents ==> Occurrences(ExtraEvents(events), e) == Occurrences(events, e)
    ensures e in DefaultEvents ==> Occurrences(ExtraEvents(events), e) == 0
  {
    if events != [] {
      ExtraEventsCounts(events[1..], e);
      if events[0] !in DefaultEvents {
        assert ([events[0]] + ExtraEvents(events[1..]))[1..] == ExtraEvents(events[1..]);
      }
    }
  }

  lemma {:induction false} ExtraEventsMembers(events: seq<string>, e: string)
    ensures e in ExtraEvents(events) <==> e in events && e !in DefaultEvents
  {
    if events != [] {
      ExtraEventsMembers(events[1..], e);
      assert e in events <==> e == events[0] || e in events[1..];
    }
  }

  function RelaysOn(target: Target, names: seq<string>): (r: seq<Relay>)
    ensures |r| == |names|
    ensures forall i :: 0 <= i < |r| ==> r[i] == Relay(target, names[i])
  {
    if names == [] then [] else [Relay(target, names[0])] + RelaysOn(target, names[1..])
  }

  /** What `_data` is as a JS value: only its nullishness is read. */
  predicate HasData(shown: Shown) {
    !shown.Unset?
  }

  /**
   `redraw()`: a no-op without a wrapper or data; otherwise the wrapper gets the
   data and `options || {}`, `drawn` goes false and one draw is pending.
   */
  function Redraw(el: Element): (r: Element)
    ensures r.relays == el.relays
    ensures el.wrapper.None? || !HasData(el.shown) ==> r == el
    ensures el.wrapper.Some? && HasData(el.shown) ==>
      && r.redrawPending && !r.drawn
      && r.wrapper == Some(el.wrapper.value.(table := el.shown, options := Or(el.options, Obj([]))))
      && r == el.(wrapper := r.wrapper, drawn := false, redrawPending := true)
  {
    if el.wrapper.None? || !HasData(el.shown) then el
    else
      var w := el.wrapper.value.(table := el.shown, options := Or(el.options, Obj([])));
      el.(wrapper := Some(w), drawn := false, redrawPending := true)
  }

  /** The debounce timer fires: the pending draw happens once, producing `chart`. */
  function FireDebounce(el: Element, chart: ChartObj): (r: Element)
    ensures !r.redrawPending
    ensures r.relays == el.relays && r.shown == el.shown && r.selection == el.selection
  {
    if !el.redrawPending || el.wrapper.None? then el.(redrawPending := false)
    else
      var w := el.wrapper.value;
      el.(wrapper := Some(w.(draws := w.draws + 1, chart := Some(chart))), redrawPending := false)
  }

  function RedrawTimes(el: Element, n: nat): Element {
    if n == 0 then el else Redraw(RedrawTimes(el, n - 1))
  }

  /**
   Any number of redraws inside the debounce window draw exactly once, with
   the data and options of the moment.
   */
  lemma {:induction false} RedrawsCoalesce(el: Element, n: nat, chart: ChartObj)
    requires el.wrapper.Some? && HasData(el.shown) && n >= 1
    ensures var r := FireDebounce(RedrawTimes(el, n), chart);
      && r.wrapper.Some?
      && r.wrapper.value.draws == el.wrapper.value.draws + 1
      && r.wrapper.value.table == el.shown
      && r.wrapper.value.options == Or(el.options, Obj([]))
      && !r.drawn && !r.redrawPending
  {
    RedrawTimesKeeps(el, n);
  }

  lemma {:induction false} RedrawTimesKeeps(el: Element, n: nat)
    requires el.wrapper.Some? && HasData(el.shown) && n >= 1
    ensures var r := RedrawTimes(el, n);
      && r.wrapper == Some(el.wrapper.value.(table := el.shown, options := Or(el.options, Obj([]))))
      && r.redrawPending && !r.drawn && r.shown == el.shown && r.options == el.options
  {
    if n > 1 {
      RedrawTimesKeeps(el, n - 1);
    }
  }

  /**
   `selectionChanged()`: nothing without a wrapper, a chart, or a chart with
   `setSelection`; a timeline chart is also left alone when the serialised
   selection equals the chart's own; otherwise the chart is given the selection.
   */
  function SelectionChanged(el: Element): (r: Element)
    ensures r.relays == el.relays
    ensures r.setSelectionCalls == el.setSelectionCalls + 1 <==>
      && el.wrapper.Some? && el.wrapper.value.chart.Some? && HasMethod(el.wrapper.value.chart.value, "setSelection")
      && !(el.typ == "timeline" && Stringify(el.selection) == Stringify(el.wrapper.value.chart.value.current))
    ensures r.setSelectionCalls != el.setSelectionCalls + 1 ==> r == el
    ensures r.setSelectionCalls == el.setSelectionCalls + 1 ==>
      r.wrapper.Some? && r.wrapper.value.chart == Some(el.wrapper.value.chart.value.(current := el.selection))
  {
    if el.wrapper.None? then el
    else
      var w := el.wrapper.value;
      if w.chart.None? then el
      else if !HasMethod(w.chart.value, "setSelection") then el
      else if el.typ == "timeline" && Stringify(el.selection) == Stringify(w.chart.value.current) then el
      else
        el.(wrapper := Some(w.(chart := Some(w.chart.value.(current := el.selection)))),
            setSelectionCalls := el.setSelectionCalls + 1)
  }

  /**
   The wrapper's `select` listener: the element's selection becomes the
   chart's, and the `selection` observer runs. Without a chart the listener
   throws before assigning anything.
   */
  function OnWrapperSelect(el: Element): Element {
    if el.wrapper.None? || el.wrapper.value.chart.None? then el
    else SelectionChanged(el.(selection := el.wrapper.value.chart.value.current))
  }

  /**
   The timeline workaround: a timeline chart fires `select` on `setSelection`,
   and the element's echo of it stops at once because the serialised
   selections agree. Any other chart type is handed its own selection back.
   */
  lemma SelectEchoSettles(el: Element)
    requires el.wrapper.Some? && el.wrapper.value.chart.Some? && HasMethod(el.wrapper.value.chart.value, "setSelection")
    ensures el.typ == "timeline" ==>
      OnWrapperSelect(el) == el.(selection := el.wrapper.value.chart.value.current)
    ensures el.typ != "timeline" ==>
      OnWrapperSelect(el).setSelectionCalls == el.setSelectionCalls + 1
  {
  }

  /**
   `typeChanged()`: the wrapper gets the resolved type, a one-time `ready`
   listener remembering the chart of the moment, and a redraw, which hands
   the wrapper the data and options when there is data.
   */
  function TypeChanged(el: Element): (r: Element)
    ensures el.wrapper.None? ==> r == el
    ensures el.wrapper.Some? ==>
      && r.wrapper.Some?
      && r.wrapper.value.chartType == ChartTypes.Resolve(ChartTypes.TsChartTypes, el.typ)
      && r.typeListeners == el.typeListeners + [ChartId(el.wrapper.value.chart)]
      && r.relays == el.relays
    ensures el.wrapper.Some? && !HasData(el.shown) ==>
      r == el.(wrapper := r.wrapper, typeListeners := r.typeListeners)
      && r.wrapper.value == el.wrapper.value.(chartType := r.wrapper.value.chartType)
    ensures el.wrapper.Some? && HasData(el.shown) ==>
      && r == el.(wrapper := r.wrapper, typeListeners := r.typeListeners, drawn := false, redrawPending := true)
      && r.wrapper.value == el.wrapper.value.(chartType := r.wrapper.value.chartType, table := el.shown,
                                              options := Or(el.options, Obj([])))
  {
    if el.wrapper.None? then el
    else
      var w := el.wrapper.value;
      var el1 := el.(wrapper := Some(w.(chartType := ChartTypes.Resolve(ChartTypes.TsChartTypes, el.typ))),
                     typeListeners := el.typeListeners + [ChartId(w.chart)]);
      Redraw(el1)
  }

  function ChartId(chart: Option<ChartObj>): Option<nat> {
    match chart case Some(c) => Some(c.id) case None => None
  }

  /**
   The element's `ready()`: once the wrapper exists the type is applied, and
   `ready` and `select` are relayed from the wrapper.
   */
  function Attach(el: Element): (r: Element)
    requires el.wrapper.None?
    ensures r.wrapper.Some? && r.wrapper.value.chart.None? && r.wrapper.value.draws == 0
    ensures r.wrapper.value.chartType == ChartTypes.Resolve(ChartTypes.TsChartTypes, el.typ)
    ensures r.relays == el.relays + RelaysOn(OnWrapper, DefaultEvents)
    ensures r.typeListeners == el.typeListeners + [None]
    ensures r.shown == el.shown && r.events == el.events && r.selection == el.selection && r.typ == el.typ
    ensures r.setSelectionCalls == el.setSelectionCalls
    ensures HasData(el.shown) ==>
      r.redrawPending && !r.drawn && r.wrapper.value.table == el.shown && r.wrapper.value.options == Or(el.options, Obj([]))
    ensures !HasData(el.shown) ==>
      r.redrawPending == el.redrawPending && r.drawn == el.drawn && r.wrapper.value.table == Unset
  {
    var el1 := el.(wrapper := Some(Wrapper("", Unset, Undefined, None, 0)));
    var el2 := TypeChanged(el1);
    el2.(relays := el2.relays + RelaysOn(OnWrapper, DefaultEvents))
  }

  /**
   One pending one-time `ready` listener: if the chart is not the one seen when
   it was registered, the user's extra events are relayed from the new chart;
   a set selection is then re-applied through `selectionChanged()`.
   */
  function RunTypeListener(el: Element, lastChart: Option<nat>): (r: Element)
    requires el.wrapper.Some?
    ensures r.wrapper.Some? && r.typeListeners == el.typeListeners && r.drawn == el.drawn
    ensures ChartId(el.wrapper.value.chart) == lastChart ==> r.relays == el.relays
    ensures ChartId(el.wrapper.value.chart) != lastChart ==>
      r.relays == el.relays + RelaysOn(OnChart(ChartId(el.wrapper.value.chart)), ExtraEvents(el.events))
    ensures !Truthy(el.selection) ==> r == el.(relays := r.relays)
    ensures Truthy(el.selection) ==> r == SelectionChanged(el.(relays := r.relays))
    ensures r == el.(relays := r.relays, wrapper := r.wrapper, setSelectionCalls := r.setSelectionCalls)
    ensures r.wrapper.value == el.wrapper.value.(chart := r.wrapper.value.chart)
    ensures r.wrapper.value.chart.Some? <==> el.wrapper.value.chart.Some?
    ensures el.wrapper.value.chart.Some? ==>
      r.wrapper.value.chart.value == el.wrapper.value.chart.value.(current := r.wrapper.value.chart.value.current)
  {
    var now := ChartId(el.wrapper.value.chart);
    var el1 := if now != lastChart then el.(relays := el.relays + RelaysOn(OnChart(now), ExtraEvents(el.events))) else el;
    if Truthy(el1.selection) then SelectionChanged(el1) else el1
  }

  /** The relays the pending listeners add once the wrapper shows chart `now`. */
  function NewChartRelays(pending: seq<Option<nat>>, now: Option<nat>, names: seq<string>): seq<Relay>
    decreases |pending|
  {
    if pending == [] then []
    else (if pending[0] != now then RelaysOn(OnChart(now), names) else []) + NewChartRelays(pending[1..], now, names)
  }

  /** Whether re-applying the selection calls `setSelection` on the chart. */
  predicate SelectionApplies(el: Element)
    requires el.wrapper.Some? && el.wrapper.value.chart.Some?
  {
    && HasMethod(el.wrapper.value.chart.value, "setSelection")
    && !(el.typ == "timeline" && Stringify(el.selection) == Stringify(el.wrapper.value.chart.value.current))
  }

  /**
   The pending listeners run in registration order against the chart of the
   moment: each relays the extra events when that chart is new to it, and each
   re-applies a set selection. Only the relays, the chart's own selection and
   the count of `setSelection` calls change.
   */
  function RunTypeListeners(el: Element, pending: seq<Option<nat>>): (r: Element)
    requires el.wrapper.Some?
    ensures r.wrapper.Some? && r.typeListeners == el.typeListeners && r.drawn == el.drawn
    decreases |pending|
  {
    if pending == [] then el
    else RunTypeListeners(RunTypeListener(el, pending[0]), pending[1..])
  }

  /** The relays the listeners add are those of the listeners for which the shown chart is new. */
  lemma {:induction false} ListenersRelay(el: Element, pending: seq<Option<nat>>)
    requires el.wrapper.Some?
    ensures RunTypeListeners(el, pending).relays
         == el.relays + NewChartRelays(pending, ChartId(el.wrapper.value.chart), ExtraEvents(el.events))
    decreases |pending|
  {
    if pending != [] {
      var now, names := ChartId(el.wrapper.value.chart), ExtraEvents(el.events);
      var added := if pending[0] != now then RelaysOn(OnChart(now), names) else [];
      var el1 := RunTypeListener(el, pending[0]);
      assert RunTypeListeners(el, pending) == RunTypeListeners(el1, pending[1..]);
      ListenersRelay(el1, pending[1..]);
      assert ChartId(el1.wrapper.value.chart) == now && el1.events == el.events;
      assert el1.relays == el.relays + added;
      assert NewChartRelays(pending, now, names) == added + NewChartRelays(pending[1..], now, names);
      assert el.relays + added + NewChartRelays(pending[1..], now, names)
          == el.relays + NewChartRelays(pending, now, names);
    }
  }

  /** Besides the relays, the listeners change only the chart's own selection and the count of `setSelection` calls. */
  lemma {:induction false} ListenersKeep(el: Element, pending: seq<Option<nat>>)
    requires el.wrapper.Some?
    ensures var r := RunTypeListeners(el, pending);
      && r == el.(relays := r.relays, wrapper := r.wrapper, setSelectionCalls := r.setSelectionCalls)
      && r.wrapper.value == el.wrapper.value.(chart := r.wrapper.value.chart)
      && (r.wrapper.value.chart.Some? <==> el.wrapper.value.chart.Some?)
      && (el.wrapper.value.chart.Some? ==>
            r.wrapper.value.chart.value == el.wrapper.value.chart.value.(current := r.wrapper.value.chart.value.current))
      && (pending == [] || !Truthy(el.selection) || el.wrapper.value.chart.None? ==>
            r.setSelectionCalls == el.setSelectionCalls)
    decreases |pending|
  {
    if pending != [] {
      var el1 := RunTypeListener(el, pending[0]);
      assert RunTypeListeners(el, pending) == RunTypeListeners(el1, pending[1..]);
      ListenersKeep(el1, pending[1..]);
    }
  }

  /**
   With a selection set and a chart shown, the listeners re-apply it: a chart
   with `setSelection` is called once per listener, except that a timeline,
   once given the selection, echoes it and is not called again.
   */
  lemma {:induction false} ListenersReapplySelection(el: Element, pending: seq<Option<nat>>)
    requires el.wrapper.Some? && el.wrapper.value.chart.Some? && Truthy(el.selection) && pending != []
    ensures var r := RunTypeListeners(el, pending);
      r.setSelectionCalls == el.setSelectionCalls +
        (if !SelectionApplies(el) then 0 else if el.typ == "timeline" then 1 else |pending|)
    decreases |pending|
  {
    var el1 := RunTypeListener(el, pending[0]);
    assert RunTypeListeners(el, pending) == RunTypeListeners(el1, pending[1..]);
    assert el1.wrapper.value.chart.Some?;
    if SelectionApplies(el) {
      assert el1.setSelectionCalls == el.setSelectionCalls + 1;
      assert el1.wrapper.value.chart.value.current == el.selection;
      assert el.typ == "timeline" ==> !SelectionApplies(el1);
      assert el.typ != "timeline" ==> SelectionApplies(el1);
    } else {
      assert el1.setSelectionCalls == el.setSelectionCalls;
      assert el1.wrapper.value.chart.value == el.wrapper.value.chart.value;
      assert !SelectionApplies(el1);
    }
    if pending[1..] != [] {
      ListenersReapplySelection(el1, pending[1..]);
    } else {
      ListenersKeep(el1, pending[1..]);
    }
  }

  /**
   The wrapper fires `ready`: `drawn` goes true and every one-time listener
   runs once, against the chart the wrapper now shows, and is then dropped.
   */
  function OnWrapperReady(el: Element): (r: Element)
    ensures el.wrapper.None? ==> r == el
    ensures el.wrapper.Some? ==>
      && r.drawn && r.typeListeners == [] && r.wrapper.Some?
      && r.relays == el.relays + NewChartRelays(el.typeListeners, ChartId(el.wrapper.value.chart), ExtraEvents(el.events))
      && r == el.(drawn := true, typeListeners := [], relays := r.relays, wrapper := r.wrapper,
                  setSelectionCalls := r.setSelectionCalls)
      && r.wrapper.value == el.wrapper.value.(chart := r.wrapper.value.chart)
      && ChartId(r.wrapper.value.chart) == ChartId(el.wrapper.value.chart)
    ensures el.wrapper.Some? && (el.typeListeners == [] || !Truthy(el.selection) || el.wrapper.value.chart.None?) ==>
      r.setSelectionCalls == el.setSelectionCalls
    ensures el.wrapper.Some? && el.typeListeners != [] && Truthy(el.selection) && el.wrapper.value.chart.Some? ==>
      r.setSelectionCalls == el.setSelectionCalls +
        (if !SelectionApplies(el) then 0 else if el.typ == "timeline" then 1 else |el.typeListeners|)
  {
    if el.wrapper.None? then el
    else
      var el1 := RunTypeListeners(el.(drawn := true), el.typeListeners);
      ListenersRelay(el.(drawn := true), el.typeListeners);
      ListenersKeep(el.(drawn := true), el.typeListeners);
      if el.typeListeners != [] && Truthy(el.selection) && el.wrapper.value.chart.Some? then
        ListenersReapplySelection(el.(drawn := true), el.typeListeners);
        el1.(typeListeners := [])
      else el1.(typeListeners := [])
  }

  /** `viewChanged()`: a falsy view is ignored, any other view becomes the data. */
  function ViewChanged(el: Element): (r: Element)
    ensures !Truthy(el.view) ==> r == el
    ensures Truthy(el.view) ==> r == Redraw(el.(shown := ViewData(el.view)))
  {
    if !Truthy(el.view) then el else Redraw(el.(shown := ViewData(el.view)))
  }

  /**
   `rowsOrColumnsChanged()`: only when both `rows` and `cols` are set, a table
   is built from `{cols}` and given the rows; a thrown reason is shown instead.
   */
  function RowsOrColumnsChanged(el: Element): (r: Element)
    ensures !Truthy(el.rows) || !Truthy(el.cols) ==> r == el
    ensures Truthy(el.rows) && Truthy(el.cols) ==>
      r == Redraw(el.(shown := TableData(Loader.ObjectFormat(Obj([Field("cols", el.cols)])), Some(el.rows))))
  {
    if !Truthy(el.rows) || !Truthy(el.cols) then el
    else
      ColumnsObjectFormat(el.cols);
      match Loader.DataTable(Obj([Field("cols", el.cols)]))
      case Ok(source) => Redraw(el.(shown := TableData(source, Some(el.rows))))
      case Err(reason) => el.(failure := Some(reason))
  }

  /** `{cols}` with truthy columns always takes the object format. */
  lemma ColumnsObjectFormat(cols: Value)
    requires Truthy(cols)
    ensures Loader.DataTable(Obj([Field("cols", cols)])) == Ok(Loader.ObjectFormat(Obj([Field("cols", cols)])))
  {
    var o := Obj([Field("cols", cols)]);
    assert OwnLookup(o.fields, "getNumberOfRows") == None by {
      assert o.fields[1..] == [];
    }
    assert Get(o, "getNumberOfRows") == Undefined;
    assert Get(o, "cols") == cols;
  }

  /**
   `dataTable(x)` resolving into `_data`; a rejected promise leaves the element
   as it is.
   */
  function UseTable(el: Element, x: Value): (r: Element)
    ensures r.relays == el.relays
    ensures Loader.DataTable(x).Err? ==> r == el
    ensures Loader.DataTable(x).Ok? ==> r == Redraw(el.(shown := TableData(Loader.DataTable(x).value, None)))
  {
    match Loader.DataTable(x)
    case Ok(source) => Redraw(el.(shown := TableData(source, None)))
    case Err(_) => el
  }

  /**
   `dataChanged()`. `parse` stands for `JSON.parse` applied to the string
   conversion of the data (None when it throws). Falsy data is ignored; data
   that parses is used parsed; a string that does not parse is fetched as a
   URL; anything else that does not parse is used as it is.
   */
  function DataChanged(el: Element, parse: string -> Option<Value>): (r: Element)
    ensures r.relays == el.relays
    ensures !Truthy(el.data) ==> r == el
    ensures Truthy(el.data) && parse(ToJsString(el.data)).Some? ==>
      r == UseTable(el, parse(ToJsString(el.data)).value)
    ensures Truthy(el.data) && parse(ToJsString(el.data)).None? && el.data.Str? ==>
      r == el.(fetches := el.fetches + [el.data.s])
    ensures Truthy(el.data) && parse(ToJsString(el.data)).None? && !el.data.Str? ==>
      r == UseTable(el, el.data)
  {
    if !Truthy(el.data) then el
    else
      match parse(ToJsString(el.data))
      case Some(parsed) => UseTable(el, parsed)
      case None =>
        if el.data.Str? then el.(fetches := el.fetches + [el.data.s])
        else UseTable(el, el.data)
  }

  /**
   The JSON body of the response to pending fetch `i` arrives and goes through
   `dataTable`: that fetch is over, a body `dataTable` accepts becomes the data
   and redraws, and a rejected one changes nothing else. Nothing checks that
   the URL is still the element's `data`: responses land in arrival order.
   */
  function Fetched(el: Element, i: nat, body: Value): (r: Element)
    requires i < |el.fetches|
    ensures r.fetches == el.fetches[..i] + el.fetches[i + 1..] && r.relays == el.relays
    ensures Loader.DataTable(body).Err? ==> r == el.(fetches := r.fetches)
    ensures Loader.DataTable(body).Ok? ==>
      r == Redraw(el.(fetches := r.fetches, shown := TableData(Loader.DataTable(body).value, None)))
  {
    UseTable(el.(fetches := el.fetches[..i] + el.fetches[i + 1..]), body)
  }

  /**
   `imageURI`: null without a wrapper or before the first draw
   (`chart && ...`), else the result of `getImageURI()`, which throws on a
   chart without that method (a table, say).
   */
  function ImageUri(el: Element): (r: Result<Value>)
    ensures el.wrapper.None? || el.wrapper.value.chart.None? ==> r == Ok(Null)
    ensures el.wrapper.Some? && el.wrapper.value.chart.Some? && HasMethod(el.wrapper.value.chart.value, "getImageURI") ==>
      r == Ok(Str(el.wrapper.value.chart.value.imageUri))
    ensures el.wrapper.Some? && el.wrapper.value.chart.Some? && !HasMethod(el.wrapper.value.chart.value, "getImageURI") ==>
      r.Err? && r.error.TypeError?
  {
    if el.wrapper.None? then Ok(Null)
    else match el.wrapper.value.chart
      case None => Ok(Null)
      case Some(c) =>
        if HasMethod(c, "getImageURI") then Ok(Str(c.imageUri))
        else Err(TypeError("chart.getImageURI is not a function"))
  }

  /**
   The inputs an element sees: property writes, the wrapper's creation and the
   library's callbacks. A property write runs its observer only when it is a
   change (`isNew` says whether an object written is a newly built one).
   */
  datatype Step =
    | SetType(t: string)
    | SetEvents(evs: seq<string>)
    | SetOptions(o: Value, isNew: bool)
    | SetRows(v: Value, isNew: bool)
    | SetCols(v: Value, isNew: bool)
    | SetData(v: Value, isNew: bool, parse: string -> Option<Value>)
    | SetView(v: Value, isNew: bool)
    | SetSelection(v: Value, isNew: bool)
    | WrapperCreated
    | DebounceFired(chart: ChartObj)
    | WrapperReady
    | WrapperSelect
    | FetchDone(i: nat, body: Value)

  /**
   The step writes a property the value it already holds. Polymer runs no
   observer for such a write, and `events` has none.
   */
  predicate WritesHeldValue(el: Element, step: Step) {
    match step
    case SetType(t) => t == el.typ
    case SetEvents(evs) => evs == el.events
    case SetOptions(o, isNew) => !Changes(el.options, o, isNew)
    case SetRows(v, isNew) => !Changes(el.rows, v, isNew)
    case SetCols(v, isNew) => !Changes(el.cols, v, isNew)
    case SetData(v, isNew, _) => !Changes(el.data, v, isNew)
    case SetView(v, isNew) => !Changes(el.view, v, isNew)
    case SetSelection(v, isNew) => !Changes(el.selection, v, isNew)
    case _ => false
  }

  /**
   One input: a property write stores the value and runs its observer when it
   is a change; the wrapper's callbacks and the timer run their handlers.
   */
  function Apply(el: Element, step: Step): (r: Element)
    ensures WritesHeldValue(el, step) ==> r == el
    ensures step.SetType? ==> r.typ == step.t
    ensures step.SetEvents? ==> r.events == step.evs
    ensures step.SetOptions? ==> r.options == step.o
    ensures step.SetRows? ==> r.rows == step.v
    ensures step.SetCols? ==> r.cols == step.v
    ensures step.SetData? ==> r.data == step.v
    ensures step.SetView? ==> r.view == step.v
    ensures step.SetSelection? ==> r.selection == step.v
  {
    match step
    case SetType(t) => if t == el.typ then el else TypeChanged(el.(typ := t))
    case SetEvents(evs) => el.(events := evs)
    case SetOptions(o, isNew) => if !Changes(el.options, o, isNew) then el else Redraw(el.(options := o))
    case SetRows(v, isNew) => if !Changes(el.rows, v, isNew) then el else RowsOrColumnsChanged(el.(rows := v))
    case SetCols(v, isNew) => if !Changes(el.cols, v, isNew) then el else RowsOrColumnsChanged(el.(cols := v))
    case SetData(v, isNew, parse) => if !Changes(el.data, v, isNew) then el else DataChanged(el.(data := v), parse)
    case SetView(v, isNew) => if !Changes(el.view, v, isNew) then el else ViewChanged(el.(view := v))
    case SetSelection(v, isNew) =>
      if !Changes(el.selection, v, isNew) then el else SelectionChanged(el.(selection := v))
    case WrapperCreated => if el.wrapper.None? then Attach(el) else el
    case DebounceFired(chart) => FireDebounce(el, chart)
    case WrapperReady => OnWrapperReady(el)
    case WrapperSelect => OnWrapperSelect(el)
    case FetchDone(i, body) => if i < |el.fetches| then Fetched(el, i, body) else el
  }

  /** The inputs in order. Writing back the values the element holds, any number of times, changes nothing. */
  function Run(el: Element, steps: seq<Step>): (r: Element)
    ensures (forall i | 0 <= i < |steps| :: WritesHeldValue(el, steps[i])) ==> r == el
    decreases |steps|
  {
    if steps == [] then el else Run(Apply(el, steps[0]), steps[1..])
  }

  lemma RunTwo(el: Element, a: Step, b: Step)
    ensures Run(el, [a, b]) == Apply(Apply(el, a), b)
  {
    assert [a, b][1..] == [b];
    assert Run(Apply(el, a), [b]) == Run(Apply(Apply(el, a), b), []);
  }

  lemma RunThree(el: Element, a: Step, b: Step, c: Step)
    ensures Run(el, [a, b, c]) == Apply(Apply(Apply(el, a), b), c)
  {
    assert [a, b, c][1..] == [b, c];
    RunTwo(Apply(el, a), b, c);
  }

  /** The wrapper draws, and holds `table` and `options || {}` when it does. */
  ghost predicate DrewWith(before: Element, after: Element, table: Shown) {
    && before.wrapper.Some? && after.wrapper.Some?
    && after.wrapper.value.draws == before.wrapper.value.draws + 1
    && after.wrapper.value.table == table
    && after.wrapper.value.options == Or(before.options, Obj([]))
    && after.shown == table
  }

  /**
   Data written as a value (or as JSON text) that `dataTable` accepts reaches
   the chart: once the redraw timer fires, the wrapper has drawn exactly once
   with the converted table and the element's options.
   */
  lemma InlineDataDrawn(el: Element, v: Value, isNew: bool, parse: string -> Option<Value>, chart: ChartObj)
    requires el.wrapper.Some? && Truthy(v) && Changes(el.data, v, isNew)
    requires var x := if parse(ToJsString(v)).Some? then parse(ToJsString(v)).value else v;
      (parse(ToJsString(v)).Some? || !v.Str?) && Loader.DataTable(x).Ok?
    ensures var x := if parse(ToJsString(v)).Some? then parse(ToJsString(v)).value else v;
      DrewWith(el, Run(el, [SetData(v, isNew, parse), DebounceFired(chart)]),
               TableData(Loader.DataTable(x).value, None))
  {
    var e1 := Apply(el, SetData(v, isNew, parse));
    assert Run(el, [SetData(v, isNew, parse), DebounceFired(chart)]) == Run(e1, [DebounceFired(chart)]);
    assert Run(e1, [DebounceFired(chart)]) == Apply(e1, DebounceFired(chart));
  }

  /**
   A string that does not parse is a URL: writing it starts a fetch and draws
   nothing yet; when the fetch brings a body `dataTable` accepts, the next
   timer draws the chart once with that table.
   */
  lemma FetchedDataDrawn(el: Element, url: string, isNew: bool, parse: string -> Option<Value>,
                         body: Value, chart: ChartObj)
    requires el.wrapper.Some? && url != "" && Changes(el.data, Str(url), isNew)
    requires parse(url).None? && Loader.DataTable(body).Ok?
    ensures var e1 := Apply(el, SetData(Str(url), isNew, parse));
      e1.fetches == el.fetches + [url] && e1.wrapper == el.wrapper && e1.shown == el.shown
    ensures var r := Run(el, [SetData(Str(url), isNew, parse), FetchDone(|el.fetches|, body), DebounceFired(chart)]);
      DrewWith(el, r, TableData(Loader.DataTable(body).value, None)) && r.fetches == el.fetches
  {
    var n := |el.fetches|;
    UrlWriteStartsFetch(el, url, isNew, parse);
    var e1 := Apply(el, SetData(Str(url), isNew, parse));
    assert e1.fetches[..n] + e1.fetches[n + 1..] == el.fetches;
    var e2 := Apply(e1, FetchDone(n, body));
    assert e2 == Redraw(e1.(fetches := el.fetches, shown := TableData(Loader.DataTable(body).value, None)));
    RunThree(el, SetData(Str(url), isNew, parse), FetchDone(n, body), DebounceFired(chart));
  }

  /**
   Two URLs written one after the other both go to `fetch`, and each response
   is used when it lands. When the second URL's response arrives first, the
   first URL's late response replaces it: the element ends up showing the
   table of a URL that is no longer its `data`.
   */
  lemma LateResponseWins(el: Element, u1: string, u2: string, isNew: bool, parse: string -> Option<Value>,
                         b1: Value, b2: Value)
    requires u1 != "" && u2 != "" && u1 != u2 && el.data != Str(u1)
    requires parse(u1).None? && parse(u2).None? && Loader.DataTable(b1).Ok?
    ensures var e2 := Run(el, [SetData(Str(u1), isNew, parse), SetData(Str(u2), isNew, parse)]);
      e2.fetches == el.fetches + [u1, u2]
    ensures var r := Run(el, [SetData(Str(u1), isNew, parse), SetData(Str(u2), isNew, parse),
                              FetchDone(|el.fetches| + 1, b2), FetchDone(|el.fetches|, b1)]);
      && r.data == Str(u2)
      && r.fetches == el.fetches
      && r.shown == TableData(Loader.DataTable(b1).value, None)
  {
    var n := |el.fetches|;
    var w1, w2 := SetData(Str(u1), isNew, parse), SetData(Str(u2), isNew, parse);
    var f2, f1 := FetchDone(n + 1, b2), FetchDone(n, b1);
    TwoUrlWrites(el, u1, u2, isNew, parse);
    var e2 := Run(el, [w1, w2]);
    OlderResponseLast(e2, n, b1, b2);
    RunConcat(el, [w1, w2], [f2, f1]);
    assert [w1, w2] + [f2, f1] == [w1, w2, f2, f1];
  }

  lemma TwoUrlWrites(el: Element, u1: string, u2: string, isNew: bool, parse: string -> Option<Value>)
    requires u1 != "" && u2 != "" && u1 != u2 && el.data != Str(u1)
    requires parse(u1).None? && parse(u2).None?
    ensures Run(el, [SetData(Str(u1), isNew, parse), SetData(Str(u2), isNew, parse)])
         == el.(data := Str(u2), fetches := el.fetches + [u1, u2])
  {
    var w1, w2 := SetData(Str(u1), isNew, parse), SetData(Str(u2), isNew, parse);
    UrlWriteStartsFetch(el, u1, isNew, parse);
    var e1 := Apply(el, w1);
    UrlWriteStartsFetch(e1, u2, isNew, parse);
    assert Run(e1, [w2]) == Apply(e1, w2);
    assert [w1, w2][1..] == [w2];
  }

  /** The last two pending fetches answered newest first: the older body is what stays shown. */
  lemma OlderResponseLast(el: Element, n: nat, b1: Value, b2: Value)
    requires |el.fetches| == n + 2 && Loader.DataTable(b1).Ok?
    ensures var r := Run(el, [FetchDone(n + 1, b2), FetchDone(n, b1)]);
      && r.data == el.data
      && r.fetches == el.fetches[..n]
      && r.shown == TableData(Loader.DataTable(b1).value, None)
  {
    var f2, f1 := FetchDone(n + 1, b2), FetchDone(n, b1);
    FetchLands(el, n + 1, b2);
    var e3 := Apply(el, f2);
    assert el.fetches[..n + 1] + el.fetches[n + 2..] == el.fetches[..n + 1];
    FetchLands(e3, n, b1);
    assert e3.fetches[..n] + e3.fetches[n + 1..] == el.fetches[..n];
    assert Run(e3, [f1]) == Apply(e3, f1);
    assert [f2, f1][1..] == [f1];
  }

  /** A response landing removes its fetch and touches neither `data` nor anything but what it shows. */
  lemma FetchLands(el: Element, i: nat, body: Value)
    requires i < |el.fetches|
    ensures var r := Apply(el, FetchDone(i, body));
      && r.data == el.data
      && r.fetches == el.fetches[..i] + el.fetches[i + 1..]
      && (Loader.DataTable(body).Ok? ==> r.shown == TableData(Loader.DataTable(body).value, None))
  {
  }

  /** Running two step lists one after the other is running their concatenation. */
  lemma {:induction false} RunConcat(el: Element, a: seq<Step>, b: seq<Step>)
    ensures Run(el, a + b) == Run(Run(el, a), b)
    decreases |a|
  {
    if a == [] {
      assert a + b == b;
    } else {
      assert (a + b)[0] == a[0] && (a + b)[1..] == a[1..] + b;
      RunConcat(Apply(el, a[0]), a[1..], b);
    }
  }

  /** A URL that does not parse, written as a change, only joins the pending fetches. */
  lemma UrlWriteStartsFetch(el: Element, u: string, isNew: bool, parse: string -> Option<Value>)
    requires u != "" && Changes(el.data, Str(u), isNew) && parse(u).None?
    ensures Apply(el, SetData(Str(u), isNew, parse)) == el.(data := Str(u), fetches := el.fetches + [u])
  {
  }

  /**
   A new type reaches the chart: the next timer draws once with the resolved
   type, the data and the options; the `ready` that follows relays the user's
   extra events from the new chart, and re-applies a set selection when the
   chart takes it.
   */
  lemma TypeChangeRedrawsAndRelays(el: Element, t: string, chart: ChartObj)
    requires el.wrapper.Some? && t != el.typ && HasData(el.shown) && el.typeListeners == []
    requires ChartId(el.wrapper.value.chart) != Some(chart.id)
    ensures var r := Run(el, [SetType(t), DebounceFired(chart), WrapperReady]);
      && r.wrapper.Some?
      && r.wrapper.value.chartType == ChartTypes.Resolve(ChartTypes.TsChartTypes, t)
      && DrewWith(el, r, el.shown)
      && r.drawn && r.typeListeners == []
      && r.relays == el.relays + RelaysOn(OnChart(Some(chart.id)), ExtraEvents(el.events))
      && r.setSelectionCalls == el.setSelectionCalls +
           (if Truthy(el.selection) && HasMethod(chart, "setSelection")
               && !(t == "timeline" && Stringify(el.selection) == Stringify(chart.current)) then 1 else 0)
  {
    var e1 := Apply(el, SetType(t));
    var w1 := el.wrapper.value.(chartType := ChartTypes.Resolve(ChartTypes.TsChartTypes, t), table := el.shown,
                                options := Or(el.options, Obj([])));
    assert e1 == el.(typ := t, wrapper := Some(w1), typeListeners := [ChartId(el.wrapper.value.chart)],
                     drawn := false, redrawPending := true);
    var e2 := Apply(e1, DebounceFired(chart));
    assert e2 == e1.(wrapper := Some(w1.(draws := w1.draws + 1, chart := Some(chart))), redrawPending := false);
    var e3 := Apply(e2, WrapperReady);
    var names := ExtraEvents(el.events);
    assert NewChartRelays(e2.typeListeners, Some(chart.id), names) == RelaysOn(OnChart(Some(chart.id)), names) + [];
    RunThree(el, SetType(t), DebounceFired(chart), WrapperReady);
  }

  /**
   Once the wrapper exists the first draw happens on the next timer, and its
   `ready` relays the user's extra events from the chart drawn, after the
   wrapper's own `ready` and `select`.
   */
  lemma FirstReadyRelaysChartEvents(el: Element, chart: ChartObj)
    requires el.wrapper.None? && HasData(el.shown) && el.typeListeners == []
    ensures var r := Run(el, [WrapperCreated, DebounceFired(chart), WrapperReady]);
      && r.wrapper.Some? && r.wrapper.value.draws == 1 && ChartId(r.wrapper.value.chart) == Some(chart.id)
      && r.wrapper.value.chartType == ChartTypes.Resolve(ChartTypes.TsChartTypes, el.typ)
      && r.wrapper.value.table == el.shown
      && r.drawn && r.typeListeners == []
      && r.relays == el.relays + RelaysOn(OnWrapper, DefaultEvents) + RelaysOn(OnChart(Some(chart.id)), ExtraEvents(el.events))
  {
    var e1 := Apply(el, WrapperCreated);
    assert e1.redrawPending && e1.wrapper.value.draws == 0 && e1.wrapper.value.chart.None?;
    var e2 := Apply(e1, DebounceFired(chart));
    assert e2 == e1.(wrapper := Some(e1.wrapper.value.(draws := 1, chart := Some(chart))), redrawPending := false);
    var e3 := Apply(e2, WrapperReady);
    var names := ExtraEvents(el.events);
    assert NewChartRelays(e2.typeListeners, Some(chart.id), names) == RelaysOn(OnChart(Some(chart.id)), names) + [];
    RunThree(el, WrapperCreated, DebounceFired(chart), WrapperReady);
  }

  /**
   A truthy view written to the element is what the chart draws: the next
   timer draws it once. A falsy view leaves the data and the wrapper alone.
   */
  lemma ViewDrawn(el: Element, view: Value, isNew: bool, chart: ChartObj)
    requires el.wrapper.Some? && Changes(el.view, view, isNew)
    ensures Truthy(view) ==> DrewWith(el, Run(el, [SetView(view, isNew), DebounceFired(chart)]), ViewData(view))
    ensures !Truthy(view) ==>
      var r := Apply(el, SetView(view, isNew));
      r.shown == el.shown && r.wrapper == el.wrapper && r.redrawPending == el.redrawPending
  {
    var e1 := Apply(el, SetView(view, isNew));
    assert Run(el, [SetView(view, isNew), DebounceFired(chart)]) == Run(e1, [DebounceFired(chart)]);
    assert Run(e1, [DebounceFired(chart)]) == Apply(e1, DebounceFired(chart));
  }

  /**
   Once the chart exists, `imageURI` answers from that chart: the URI when it
   has `getImageURI`, a TypeError otherwise; before the first draw it is
   null whatever the data.
   */
  lemma ImageUriAfterDraw(el: Element, chart: ChartObj)
    requires el.wrapper.Some? && el.redrawPending
    ensures ImageUri(Apply(el, DebounceFired(chart))) ==
      if HasMethod(chart, "getImageURI") then Ok(Str(chart.imageUri))
      else Err(TypeError("chart.getImageURI is not a function"))
    ensures el.wrapper.value.chart.None? ==> ImageUri(el) == Ok(Null)
  {
  }

  /**
   Relays stay where the element puts them: the wrapper relays exactly the
   default events, a chart never relays `ready` or `select`.
   */
  ghost predicate RelaysSorted(el: Element) {
    forall i :: 0 <= i < |el.relays| ==>
      (el.relays[i].target.OnWrapper? <==> el.relays[i].name in DefaultEvents)
  }

  lemma {:induction false} RunTypeListenersSorted(el: Element, pending: seq<Option<nat>>)
    requires el.wrapper.Some? && RelaysSorted(el)
    ensures RelaysSorted(RunTypeListeners(el, pending))
    decreases pending
  {
    if pending != [] {
      var el1 := RunTypeListener(el, pending[0]);
      var now := ChartId(el.wrapper.value.chart);
      if now != pending[0] {
        var added := RelaysOn(OnChart(now), ExtraEvents(el.events));
        forall i | 0 <= i < |el1.relays|
          ensures el1.relays[i].target.OnWrapper? <==> el1.relays[i].name in DefaultEvents
        {
          if i >= |el.relays| {
            assert el1.relays[i] == added[i - |el.relays|];
          }
        }
      }
      RunTypeListenersSorted(el1, pending[1..]);
    }
  }

  lemma StepKeepsRelaysSorted(el: Element, step: Step)
    requires RelaysSorted(el)
    ensures RelaysSorted(Apply(el, step))
  {
    match step
    case WrapperReady =>
      if el.wrapper.Some? {
        RunTypeListenersSorted(el.(drawn := true), el.typeListeners);
      }
    case WrapperCreated =>
      if el.wrapper.None? {
        var r := Attach(el);
        forall i | 0 <= i < |r.relays|
          ensures r.relays[i].target.OnWrapper? <==> r.relays[i].name in DefaultEvents
        {
          if i >= |el.relays| {
            assert r.relays[i] == RelaysOn(OnWrapper, DefaultEvents)[i - |el.relays|];
          }
        }
      }
    case _ => StepKeepsRelays(el, step);
  }

  /** Only the wrapper's creation and its `ready` add relays. */
  lemma StepKeepsRelays(el: Element, step: Step)
    requires !step.WrapperReady? && !step.WrapperCreated?
    ensures Apply(el, step).relays == el.relays
  {
  }

  /**
   Over any run from construction, the wrapper relays only `ready` and
   `select` and the charts relay only the user's other events.
   */
  lemma {:induction false} RunKeepsRelaysSorted(el: Element, steps: seq<Step>)
    requires RelaysSorted(el)
    ensures RelaysSorted(Run(el, steps))
    decreases |steps|
  {
    if steps != [] {
      StepKeepsRelaysSorted(el, steps[0]);
      RunKeepsRelaysSorted(Apply(el, steps[0]), steps[1..]);
    }
  }

  lemma InitialRelaysSorted()
    ensures RelaysSorted(Initial)
  {
  }
}

=== FILE: chart_types.dfy ===
/**
 Chart and control type resolution. Each element maps a short type name to the
 constructor name `ChartWrapper`/`ControlWrapper` expects through an object
 literal, `TABLE[type] || type`, so an unknown name passes through unchanged.

 Three tables exist: `CHART_TYPES` of the TypeScript element, `ChartTypes` of
 the Polymer 1 element (with different keys for the material and stepped
 charts, and with `gantt` instead of `calendar`) and `ControlTypes`.

 The lookup as written reads inherited properties too: a type named after a
 member of `Object.prototype` (`constructor`, `toString`, ...) resolves to that
 member, a function, instead of passing through. `ResolveAsWritten` models the
 code as written; `Resolve` is the own-property lookup the tables evidently
 intend, and the element models use it.
 */
module ChartTypes {
  import opened Js

  /**
   A lookup table written as an object literal, given by its own properties:
   the constructor name listed for a key, if any.
   */
  type TypeTable = string -> Option<string>

  /** `CHART_TYPES` of the TypeScript element. */
  function TsChartTypes(key: string): Option<string> {
    match key
    case "area" => Some("AreaChart")
    case "bar" => Some("BarChart")
    case "md-bar" => Some("google.charts.Bar")
    case "bubble" => Some("BubbleChart")
    case "calendar" => Some("Calendar")
    case "candlestick" => Some("CandlestickChart")
    case "column" => Some("ColumnChart")
    case "combo" => Some("ComboChart")
    case "gauge" => Some("Gauge")
    case "geo" => Some("GeoChart")
    case "histogram" => Some("Histogram")
    case "line" => Some("LineChart")
    case "md-line" => Some("google.charts.Line")
    case "org" => Some("OrgChart")
    case "pie" => Some("PieChart")
    case "sankey" => Some("Sankey")
    case "scatter" => Some("ScatterChart")
    case "md-scatter" => Some("google.charts.Scatter")
    case "stepped-area" => Some("SteppedAreaChart")
    case "table" => Some("Table")
    case "timeline" => Some("Timeline")
    case "treemap" => Some("TreeMap")
    case "wordtree" => Some("WordTree")
    case _ => None
  }

  /** `ChartTypes` of the Polymer 1 element. */
  function LegacyChartTypes(key: string): Option<string> {
    match key
    case "area" => Some("AreaChart")
    case "area-stepped" => Some("SteppedAreaChart")
    case "bar" => Some("BarChart")
    case "bar-md" => Some("google.charts.Bar")
    case "bubble" => Some("BubbleChart")
    case "candlestick" => Some("CandlestickChart")
    case "column" => Some("ColumnChart")
    case "combo" => Some("ComboChart")
    case "gantt" => Some("Gantt")
    case "gauge" => Some("Gauge")
    case "geo" => Some("GeoChart")
    case "histogram" => Some("Histogram")
    case "line" => Some("LineChart")
    case "line-md" => Some("google.charts.Line")
    case "org" => Some("OrgChart")
    case "pie" => Some("PieChart")
    case "sankey" => Some("Sankey")
    case "scatter" => Some("ScatterChart")
    case "scatter-md" => Some("google.charts.Scatter")
    case "table" => Some("Table")
    case "timeline" => Some("Timeline")
    case "treemap" => Some("TreeMap")
    case "wordtree" => Some("WordTree")
    case _ => None
  }

  /** `ControlTypes` of the control element. */
  function ControlTypes(key: string): Option<string> {
    match key
    case "category" => Some("CategoryFilter")
    case "filter" => Some("StringFilter")
    case "range" => Some("NumberRangeFilter")
    case "range-chart" => Some("ChartRangeFilter")
    case "range-date" => Some("DateRangeFilter")
    case _ => None
  }

  /** The default `type` of the chart elements and of the control element. */
  const DefaultChartType := "column"
  const DefaultControlType := "range"

  /** Every constructor name is non-empty, so a listed key never falls through the `||`. */
  ghost predicate WellFormed(table: TypeTable) {
    forall key :: table(key).Some? ==> table(key).value != ""
  }

  /**
   `TABLE[type] || type`, as written: the property lookup finds the own entry
   first and otherwise whatever the object inherits from `Object.prototype`.
   */
  function ResolveAsWritten(table: TypeTable, typ: string): Value {
    var found := match table(typ) case Some(name) => Str(name) case None => Inherited(typ);
    Or(found, Str(typ))
  }

  /**
   The resolution the tables intend: a listed short name maps to its
   constructor name, every other name passes through unchanged.
   */
  function Resolve(table: TypeTable, typ: string): (r: string)
    ensures table(typ).Some? ==> r == table(typ).value
    ensures table(typ).None? ==> r == typ
  {
    match table(typ)
    case Some(name) => name
    case None => typ
  }

  /**
   As written and as intended agree on every listed name and on every name
   that is not a member of `Object.prototype`.
   */
  lemma AsWrittenAgreesOffPrototype(table: TypeTable, typ: string)
    requires WellFormed(table)
    requires table(typ).Some? || typ !in ObjectPrototypeMembers
    ensures ResolveAsWritten(table, typ) == Str(Resolve(table, typ))
  {
  }

  /**
   The discrepancy, for any table: a name that is not listed but is a member of
   `Object.prototype` resolves, as written, to the inherited member instead of
   passing through as the intended resolution does.
   */
  lemma PrototypeNameMisresolves(table: TypeTable, name: string)
    requires name in ObjectPrototypeMembers && table(name).None?
    ensures Resolve(table, name) == name
    ensures ResolveAsWritten(table, name) == Inherited(name)
    ensures ResolveAsWritten(table, name) != Str(Resolve(table, name))
  {
  }

  /**
   The concrete input: with `type` set to `constructor` the TypeScript element
   hands the chart wrapper `Object.prototype.constructor`, a function, where
   the intended resolution passes the name `constructor` through.
   */
  lemma ConstructorTypeCounterexample()
    ensures ResolveAsWritten(TsChartTypes, "constructor") == Func("constructor")
    ensures Resolve(TsChartTypes, "constructor") == "constructor"
  {
  }

  /**
   For each table of the source, the written lookup goes wrong on exactly the
   names of `Object.prototype` members: no table lists one, every listed
   constructor name is non-empty, so on every other name the `||` agrees with
   the intended resolution.
   */
  lemma SourceTablesMisresolveExactlyPrototypeNames(typ: string)
    ensures ResolveAsWritten(TsChartTypes, typ) != Str(Resolve(TsChartTypes, typ)) <==> typ in ObjectPrototypeMembers
    ensures ResolveAsWritten(LegacyChartTypes, typ) != Str(Resolve(LegacyChartTypes, typ)) <==> typ in ObjectPrototypeMembers
    ensures ResolveAsWritten(ControlTypes, typ) != Str(Resolve(ControlTypes, typ)) <==> typ in ObjectPrototypeMembers
  {
    if typ in ObjectPrototypeMembers {
      PrototypeNameMisresolves(TsChartTypes, typ);
      PrototypeNameMisresolves(LegacyChartTypes, typ);
      PrototypeNameMisresolves(ControlTypes, typ);
    } else {
      AsWrittenAgreesOffPrototype(TsChartTypes, typ);
      AsWrittenAgreesOffPrototype(LegacyChartTypes, typ);
      AsWrittenAgreesOffPrototype(ControlTypes, typ);
    }
  }

  /**
   The two chart tables: a name both list resolves alike, and they differ in
   which names they list on exactly the material and stepped spellings
   (`md-bar` against `bar-md`, and so on), `calendar` and `gantt`.
   */
  lemma ChartTablesCompare(typ: string)
    ensures TsChartTypes(typ).Some? && LegacyChartTypes(typ).Some? ==> TsChartTypes(typ) == LegacyChartTypes(typ)
    ensures TsChartTypes(typ).Some? != LegacyChartTypes(typ).Some? <==>
      typ in {"md-bar", "md-line", "md-scatter", "stepped-area", "calendar",
              "bar-md", "line-md", "scatter-md", "area-stepped", "gantt"}
  {
  }
}

=== FILE: control.dfy ===
/**
 The `google-chart-control` element (google-chart-control.js): a control
 wrapper computed from the type, the filter column mapped into the options
 from `index` or `label`, and a redraw on every options or state change,
 suppressed once by the `_dontReact` flag when the change is the control's own
 state coming back.

 Whether assigning `this.state` runs the `state.*` observer depends on the
 framework's change detection for the object the control returns; it is a
 parameter of the steps that assign it.
 */
module ChartControl {
  import opened Js
  import ChartTypes

  datatype CWrapper = CWrapper(
    controlType: string,
    options: Value,
    state: Value,
    draws: nat,
    readied: bool)  // the one-time `ready` listener has run

  datatype Control = Control(
    typ: string,
    options: Value,
    state: Value,
    drawn: bool,
    columnLabel: Value,  // `label`
    index: int,
    wrapper: Option<CWrapper>,
    dontReact: bool,      // `_dontReact`
    stylesMoved: nat)

  /** The property defaults, before any observer has run. */
  const Defaults := Control(ChartTypes.DefaultControlType, Obj([]), Undefined, false, Null, -1, None, false, 0)

  /**
   The control as constructed: the `label` and `index` observers run on their
   defaults, and the wrapper is computed from the default type once the
   library has loaded, reading the options as they are by then.
   */
  const Initial := ComputeWrapper(IndexChanged(LabelChanged(Defaults)))

  /** Assigning an own property: the first field with the key is replaced, or the field is appended. */
  function SetField(fields: seq<Field>, key: string, v: Value): (r: seq<Field>)
    ensures OwnLookup(r, key) == Some(v)
    ensures forall k :: k != key ==> OwnLookup(r, k) == OwnLookup(fields, k)
  {
    if fields == [] then [Field(key, v)]
    else if fields[0].key == key then [Field(key, v)] + fields[1..]
    else [fields[0]] + SetField(fields[1..], key, v)
  }

  /**
   `this.set('options.<key>', v)`: sets the property when `options` is an
   object and reports whether the path was set; on anything else nothing
   happens.
   */
  function SetOption(options: Value, key: string, v: Value): (r: (Value, bool))
    ensures r.1 <==> options.Obj?
    ensures r.1 ==> r.0.Obj? && OwnLookup(r.0.fields, key) == Some(v)
    ensures r.1 ==> forall k :: k != key ==> OwnLookup(r.0.fields, k) == OwnLookup(options.fields, k)
    ensures !r.1 ==> r.0 == options
  {
    match options
    case Obj(fields) => (Obj(SetField(fields, key, v)), true)
    case _ => (options, false)
  }

  /** The filter column index handed to the options: the index when it is not negative. */
  function FilterColumnIndex(index: int): (r: Value)
    ensures index >= 0 <==> r == Num(index)
    ensures index < 0 <==> r == Undefined
  {
    if index >= 0 then Num(index) else Undefined
  }

  /** The filter column label handed to the options: the label when it is truthy. */
  function FilterColumnLabel(l: Value): (r: Value)
    ensures Truthy(l) ==> r == l
    ensures !Truthy(l) ==> r == Undefined
  {
    Or(l, Undefined)
  }

  /**
   `_draw()`: without being drawn, without a wrapper, or with the flag set, the
   flag is cleared and nothing is drawn; otherwise the wrapper gets the state
   and the options and draws.
   */
  function Draw(c: Control): (r: Control)
    ensures !r.dontReact
    ensures r.wrapper.Some? <==> c.wrapper.Some?
    ensures !c.drawn || c.wrapper.None? || c.dontReact ==> r == c.(dontReact := false)
    ensures c.drawn && c.wrapper.Some? && !c.dontReact ==>
      r.wrapper == Some(CWrapper(c.wrapper.value.controlType, c.options, c.state, c.wrapper.value.draws + 1,
                                 c.wrapper.value.readied))
  {
    if !c.drawn || c.wrapper.None? || c.dontReact then c.(dontReact := false)
    else
      var w := c.wrapper.value;
      c.(wrapper := Some(w.(state := c.state, options := c.options, draws := w.draws + 1)))
  }

  function Draws(c: Control): nat {
    if c.wrapper.None? then 0 else c.wrapper.value.draws
  }

  /** Setting the flag suppresses exactly one reaction: the next `_draw` is skipped, the one after is not. */
  lemma FlagSuppressesOnce(c: Control)
    requires c.drawn && c.wrapper.Some?
    ensures Draws(Draw(c.(dontReact := true))) == Draws(c)
    ensures Draws(Draw(Draw(c.(dontReact := true)))) == Draws(c) + 1
  {
  }

  /** `_indexChanged(index)`: the options get the filter column index, and a set path redraws. */
  function IndexChanged(c: Control): (r: Control)
    ensures c.options.Obj? ==> r.options.Obj? && OwnLookup(r.options.fields, "filterColumnIndex") == Some(FilterColumnIndex(c.index))
    ensures !c.options.Obj? ==> r == c
  {
    var (o, isSet) := SetOption(c.options, "filterColumnIndex", FilterColumnIndex(c.index));
    if isSet then Draw(c.(options := o)) else c
  }

  /** `_labelChanged(label)`. */
  function LabelChanged(c: Control): (r: Control)
    ensures c.options.Obj? ==> r.options.Obj? && OwnLookup(r.options.fields, "filterColumnLabel") == Some(FilterColumnLabel(c.columnLabel))
    ensures !c.options.Obj? ==> r == c
  {
    var (o, isSet) := SetOption(c.options, "filterColumnLabel", FilterColumnLabel(c.columnLabel));
    if isSet then Draw(c.(options := o)) else c
  }

  /**
   The filter column the options carry agrees with `index` and `label`: when
   the options are an object, their `filterColumnIndex` and
   `filterColumnLabel` are the ones the two observers compute.
   */
  ghost predicate FilterInOptions(c: Control) {
    c.options.Obj? ==>
      && OwnLookup(c.options.fields, "filterColumnIndex") == Some(FilterColumnIndex(c.index))
      && OwnLookup(c.options.fields, "filterColumnLabel") == Some(FilterColumnLabel(c.columnLabel))
  }

  /**
   As constructed, the options are an object carrying no filter column: index
   -1 and label null both map to undefined, and the wrapper of the default
   type is built with those options.
   */
  lemma DefaultsMapToUndefined()
    ensures Initial.options.Obj? && FilterInOptions(Initial)
    ensures OwnLookup(Initial.options.fields, "filterColumnIndex") == Some(Undefined)
    ensures OwnLookup(Initial.options.fields, "filterColumnLabel") == Some(Undefined)
    ensures Initial.wrapper == Some(CWrapper(ChartTypes.Resolve(ChartTypes.ControlTypes, "range"), Initial.options, Undefined, 0, false))
  {
    var c1 := LabelChanged(Defaults);
    assert OwnLookup(c1.options.fields, "filterColumnLabel") == Some(Undefined);
    var c2 := IndexChanged(c1);
    assert OwnLookup(c2.options.fields, "filterColumnLabel") == Some(Undefined);
  }

  /** `_computeWrapper(type)`: `drawn` goes false and a wrapper of the resolved control type is built. */
  function ComputeWrapper(c: Control): (r: Control)
    ensures !r.drawn && r.wrapper.Some?
    ensures r.wrapper.value == CWrapper(ChartTypes.Resolve(ChartTypes.ControlTypes, c.typ), c.options, c.state, 0, false)
  {
    c.(drawn := false, wrapper := Some(CWrapper(ChartTypes.Resolve(ChartTypes.ControlTypes, c.typ), c.options, c.state, 0, false)))
  }

  /**
   The wrapper's one-time `ready` listener: the flag is set, the styles move,
   `drawn` goes true, the control's state is assigned (running the `state.*`
   observer when `observed`), and `_draw` is called once more.
   */
  function OnReady(c: Control, controlState: Value, observed: bool): (r: Control)
    ensures !r.dontReact && r.drawn && r.state == controlState
    ensures r.stylesMoved == c.stylesMoved + 1 && r.options == c.options && r.typ == c.typ
    ensures r.wrapper.Some? <==> c.wrapper.Some?
    ensures c.wrapper.Some? ==> r.wrapper.value.readied == c.wrapper.value.readied
  {
    var c1 := c.(dontReact := true, stylesMoved := c.stylesMoved + 1, drawn := true, state := controlState);
    var c2 := if observed then Draw(c1) else c1;
    Draw(c2)
  }

  /**
   When the state assignment runs its observer, the observer consumes the
   flag and the explicit `_draw` draws: one draw in all. When it does not, the
   explicit `_draw` consumes the flag and nothing is drawn.
   */
  lemma ReadyDrawsOnce(c: Control, controlState: Value)
    requires c.wrapper.Some?
    ensures Draws(OnReady(c, controlState, true)) == Draws(c) + 1
    ensures Draws(OnReady(c, controlState, false)) == Draws(c)
  {
  }

  /** The wrapper's `statechange` listener: the flag is set before the state is assigned. */
  function OnStateChange(c: Control, controlState: Value, observed: bool): (r: Control)
    ensures r.state == controlState
  {
    var c1 := c.(dontReact := true, state := controlState);
    if observed then Draw(c1) else c1
  }

  /**
   The control's own state change is not drawn back: the observer it runs is
   the one reaction the flag suppresses, and the flag is clear afterwards, so
   the next options change draws.
   */
  lemma StateEchoSuppressed(c: Control, controlState: Value, options: Value)
    requires c.drawn && c.wrapper.Some?
    ensures var r := OnStateChange(c, controlState, true);
      Draws(r) == Draws(c) && !r.dontReact
    ensures Draws(Draw(OnStateChange(c, controlState, true).(options := options))) == Draws(c) + 1
  {
  }

  /**
   The inputs a control sees. A property write runs its observer only when it
   is a change (`isNew` says whether an object written is a newly built one).
   */
  datatype Step =
    | SetType(t: string)
    | SetOptions(o: Value, isNew: bool)
    | SetState(s: Value, isNew: bool)
    | SetIndex(i: int)
    | SetLabel(l: Value, isNew: bool)
    | Ready(controlState: Value, observed: bool)
    | StateChange(controlState: Value, observed: bool)

  /** The step writes a property the value it already holds, so Polymer runs no observer for it. */
  predicate WritesHeldValue(c: Control, step: Step) {
    match step
    case SetType(t) => t == c.typ
    case SetOptions(o, isNew) => !Changes(c.options, o, isNew)
    case SetState(s, isNew) => !Changes(c.state, s, isNew)
    case SetIndex(i) => i == c.index
    case SetLabel(l, isNew) => !Changes(c.columnLabel, l, isNew)
    case _ => false
  }

  /**
   One input. A property write stores the value and runs its observer when it
   is a change. The `ready` listener is a one-time listener of the current
   wrapper, and `statechange` reaches only a control with a wrapper.
   */
  function Apply(c: Control, step: Step): (r: Control)
    ensures WritesHeldValue(c, step) ==> r == c
    ensures step.SetType? ==> r.typ == step.t
    ensures step.SetOptions? ==> r.options == step.o
    ensures step.SetState? ==> r.state == step.s
    ensures step.SetIndex? ==> r.index == step.i
    ensures step.SetLabel? ==> r.columnLabel == step.l
    ensures step.Ready? && (c.wrapper.None? || c.wrapper.value.readied) ==> r == c
    ensures (step.Ready? || step.StateChange?) && c.wrapper.None? ==> r == c
  {
    match step
    case SetType(t) => if t == c.typ then c else ComputeWrapper(c.(typ := t))
    case SetOptions(o, isNew) => if !Changes(c.options, o, isNew) then c else Draw(c.(options := o))
    case SetState(s, isNew) => if !Changes(c.state, s, isNew) then c else Draw(c.(state := s))
    case SetIndex(i) => if i == c.index then c else IndexChanged(c.(index := i))
    case SetLabel(l, isNew) => if !Changes(c.columnLabel, l, isNew) then c else LabelChanged(c.(columnLabel := l))
    case Ready(s, observed) =>
      if c.wrapper.Some? && !c.wrapper.value.readied then OnReady(c.(wrapper := Some(c.wrapper.value.(readied := true))), s, observed)
      else c
    case StateChange(s, observed) => if c.wrapper.Some? then OnStateChange(c, s, observed) else c
  }

  /** The inputs in order. Writing back the values the control holds, any number of times, changes nothing. */
  function Run(c: Control, steps: seq<Step>): (r: Control)
    ensures (forall i | 0 <= i < |steps| :: WritesHeldValue(c, steps[i])) ==> r == c
    decreases |steps|
  {
    if steps == [] then c else Run(Apply(c, steps[0]), steps[1..])
  }

  /** Draws and the wrapper's callbacks leave the options alone. */
  lemma DrawKeepsOptions(c: Control)
    ensures Draw(c).options == c.options && Draw(c).index == c.index && Draw(c).columnLabel == c.columnLabel
  {
  }

  /**
   Every step but an options write keeps the filter column in the options in
   step with `index` and `label`: the two observers re-map a changed index or
   label, and nothing else touches the options.
   */
  lemma StepKeepsFilterInOptions(c: Control, step: Step)
    requires FilterInOptions(c) && !step.SetOptions?
    ensures FilterInOptions(Apply(c, step))
  {
    match step
    case SetIndex(i) =>
      if i != c.index && c.options.Obj? {
        var (o, _) := SetOption(c.options, "filterColumnIndex", FilterColumnIndex(i));
        assert OwnLookup(o.fields, "filterColumnLabel") == OwnLookup(c.options.fields, "filterColumnLabel");
        DrawKeepsOptions(c.(index := i, options := o));
      }
    case SetLabel(l, isNew) =>
      if Changes(c.columnLabel, l, isNew) && c.options.Obj? {
        var (o, _) := SetOption(c.options, "filterColumnLabel", FilterColumnLabel(l));
        assert OwnLookup(o.fields, "filterColumnIndex") == OwnLookup(c.options.fields, "filterColumnIndex");
        DrawKeepsOptions(c.(columnLabel := l, options := o));
      }
    case SetState(s, isNew) =>
      DrawKeepsOptions(c.(state := s));
    case SetType(t) =>
    case Ready(s, observed) =>
    case StateChange(s, observed) =>
  }

  /**
   From construction, as long as the options object is not replaced, the
   options carry exactly the filter column that the latest `index` and
   `label` call for, however those were written.
   */
  lemma {:induction false} RunKeepsFilterInOptions(c: Control, steps: seq<Step>)
    requires FilterInOptions(c)
    requires forall k :: 0 <= k < |steps| ==> !steps[k].SetOptions?
    ensures FilterInOptions(Run(c, steps))
    decreases |steps|
  {
    if steps != [] {
      StepKeepsFilterInOptions(c, steps[0]);
      RunKeepsFilterInOptions(Apply(c, steps[0]), steps[1..]);
    }
  }

  /**
   A new type builds a fresh wrapper of the resolved control type, holding the
   options of the moment; its `ready` then draws it once with the control's
   own state when the state assignment is observed, and not at all otherwise.
   */
  lemma NewWrapperDrawsOnReady(c: Control, t: string, controlState: Value)
    requires t != c.typ
    ensures var w := Apply(c, SetType(t));
      && !w.drawn
      && w.wrapper == Some(CWrapper(ChartTypes.Resolve(ChartTypes.ControlTypes, t), c.options, c.state, 0, false))
    ensures var r := Apply(Apply(c, SetType(t)), Ready(controlState, true));
      && r.drawn && !r.dontReact
      && r.wrapper == Some(CWrapper(ChartTypes.Resolve(ChartTypes.ControlTypes, t), c.options, controlState, 1, true))
    ensures var r := Apply(Apply(c, SetType(t)), Ready(controlState, false));
      && r.drawn && !r.dontReact
      && r.wrapper == Some(CWrapper(ChartTypes.Resolve(ChartTypes.ControlTypes, t), c.options, c.state, 0, true))
  {
  }

  /**
   The `ready` listener is a one-time listener: only the first `ready` of a
   wrapper runs it (moving the styles once and drawing at most once), and every
   later `ready` of the same wrapper, after each of its draws, changes nothing.
   A new type builds a new wrapper whose first `ready` runs it again.
   */
  lemma ReadyListenerRunsOnce(c: Control, s1: Value, o1: bool, s2: Value, o2: bool, t: string)
    requires c.wrapper.Some? && !c.wrapper.value.readied
    ensures var r1 := Apply(c, Ready(s1, o1));
      && r1.stylesMoved == c.stylesMoved + 1 && Draws(r1) <= Draws(c) + 1
      && Apply(r1, Ready(s2, o2)) == r1
    ensures var r1 := Apply(c, Ready(s1, o1));
      t != r1.typ ==> Apply(Apply(r1, SetType(t)), Ready(s2, o2)).stylesMoved == c.stylesMoved + 2
  {
    var r1 := Apply(c, Ready(s1, o1));
    assert r1.wrapper.Some? && r1.wrapper.value.readied;
  }

  /** A control draws at most once per step. */
  lemma StepDrawsAtMostOnce(c: Control, step: Step)
    ensures Apply(c, step).wrapper.Some? && c.wrapper.Some? && !step.SetType? ==>
      Apply(c, step).wrapper.value.draws <= c.wrapper.value.draws + 1
  {
  }
}

=== FILE: dashboard.dfy ===
/**
 The `google-chart-dashboard` element (google-chart-dashboard.js): the chart
 and control children are partitioned into bind groups by their `group`
 property, each group is classified (bound, uncontrolled charts, unconnected
 controls), and the initial draw hands the data to the uncontrolled charts and
 to the library's Dashboard.

 Children are identified by a number; their wrappers and the library's
 `Dashboard.bind` are opaque, so a binding only records which controls and
 charts it joins. The promises of the source resolve in the order written.

 Two places of the source behave otherwise than evidently intended, and both
 are modelled as written beside the corrected form the rest uses:
 - `getGroup` looks a key up with `groups[id]`, which finds the members of
   `Object.prototype`: a child whose group is `constructor`, `toString`,
   `__proto__`, ... makes `_createGroups` throw.
 - `_uncontrolledCharts` is declared on the element's prototype, so every
   dashboard of the page pushes into, and later draws, one shared list.
 */
module Dashboard {
  import opened Js

  const DefaultGroup := "__DEFAULT"

  /** A `google-chart-control` or `google-chart` child: its identity and its `group` property. */
  datatype Child = Child(id: nat, group: Value)

  datatype Group = Group(key: string, controls: seq<nat>, charts: seq<nat>)

  /** `id || '__DEFAULT'`, as the property key it is used as. */
  function GroupKey(group: Value): (k: string)
    ensures !Truthy(group) ==> k == DefaultGroup
    ensures group.Str? && group.s != "" ==> k == group.s
  {
    ToJsString(Or(group, Str(DefaultGroup)))
  }

  function Push(g: Group, id: nat, control: bool): Group {
    if control then g.(controls := g.controls + [id]) else g.(charts := g.charts + [id])
  }

  /** The group stored under `key`, or an empty one if there is none yet. */
  function Lookup(gs: seq<Group>, key: string): (g: Group)
    ensures g.key == key
    ensures forall j :: 0 <= j < |gs| && gs[j].key == key && (forall i :: 0 <= i < j ==> gs[i].key != key) ==>
      g == gs[j]
    ensures (forall j :: 0 <= j < |gs| ==> gs[j].key != key) ==> g == Group(key, [], [])
  {
    if gs == [] then Group(key, [], [])
    else if gs[0].key == key then gs[0]
    else Lookup(gs[1..], key)
  }

  function KeyList(gs: seq<Group>): seq<string> {
    if gs == [] then [] else [gs[0].key] + KeyList(gs[1..])
  }

  /** `getGroup(key).controls.push(id)` (or `.charts`), with an own-property lookup. */
  function AddTo(gs: seq<Group>, key: string, id: nat, control: bool): seq<Group> {
    if gs == [] then [Push(Group(key, [], []), id, control)]
    else if gs[0].key == key then [Push(gs[0], id, control)] + gs[1..]
    else [gs[0]] + AddTo(gs[1..], key, id, control)
  }

  /** Children folded into the groups in document order. */
  function Fold(gs: seq<Group>, children: seq<Child>, control: bool): seq<Group>
    decreases |children|
  {
    if children == [] then gs
    else
      var last := children[|children| - 1];
      AddTo(Fold(gs, children[..|children| - 1], control), GroupKey(last.group), last.id, control)
  }

  /** The groups `_createGroups` builds: controls first, then charts. */
  function Grouping(controls: seq<Child>, charts: seq<Child>): seq<Group> {
    Fold(Fold([], controls, true), charts, false)
  }

  /** The reference: the identities of the children whose key is `key`, in document order. */
  function Members(children: seq<Child>, key: string): seq<nat>
    decreases |children|
  {
    if children == [] then []
    else
      var last := children[|children| - 1];
      Members(children[..|children| - 1], key) + (if GroupKey(last.group) == key then [last.id] else [])
  }

  /** Distinct keys, and no group without a member. */
  ghost predicate Wf(gs: seq<Group>) {
    DistinctKeys(gs) && Populated(gs)
  }

  ghost predicate DistinctKeys(gs: seq<Group>) {
    forall i, j :: 0 <= i < j < |gs| ==> gs[i].key != gs[j].key
  }

  ghost predicate Populated(gs: seq<Group>) {
    forall i :: 0 <= i < |gs| ==> gs[i].controls != [] || gs[i].charts != []
  }

  /**
   `_createGroups()` with an own-property lookup: one pass over the controls,
   one over the charts, each child pushed onto the group of its key.
   */
  method CreateGroups(controls: seq<Child>, charts: seq<Child>) returns (gs: seq<Group>)
    ensures gs == Grouping(controls, charts)
    ensures forall k :: Lookup(gs, k) == Group(k, Members(controls, k), Members(charts, k))
  {
    gs := [];
    var i := 0;
    while i < |controls|
      invariant 0 <= i <= |controls|
      invariant gs == Fold([], controls[..i], true)
    {
      assert controls[..i + 1][..i] == controls[..i];
      gs := AddTo(gs, GroupKey(controls[i].group), controls[i].id, true);
      i := i + 1;
    }
    assert controls[..|controls|] == controls;
    var j := 0;
    while j < |charts|
      invariant 0 <= j <= |charts|
      invariant gs == Fold(Fold([], controls, true), charts[..j], false)
    {
      assert charts[..j + 1][..j] == charts[..j];
      gs := AddTo(gs, GroupKey(charts[j].group), charts[j].id, false);
      j := j + 1;
    }
    assert charts[..|charts|] == charts;
    forall k ensures Lookup(gs, k) == Group(k, Members(controls, k), Members(charts, k)) {
      GroupingLookup(controls, charts, k);
    }
  }

  lemma {:induction false} AddToLookup(gs: seq<Group>, key: string, id: nat, control: bool, k: string)
    ensures Lookup(AddTo(gs, key, id, control), k) ==
      (if k == key then Push(Lookup(gs, k), id, control) else Lookup(gs, k))
  {
    if gs != [] && gs[0].key != key {
      AddToLookup(gs[1..], key, id, control, k);
      assert ([gs[0]] + AddTo(gs[1..], key, id, control))[1..] == AddTo(gs[1..], key, id, control);
    } else if gs != [] {
      assert ([Push(gs[0], id, control)] + gs[1..])[1..] == gs[1..];
    }
  }

  lemma {:induction false} FoldLookup(gs: seq<Group>, children: seq<Child>, control: bool, k: string)
    ensures var g := Lookup(gs, k);
      Lookup(Fold(gs, children, control), k) ==
        (if control then g.(controls := g.controls + Members(children, k))
         else g.(charts := g.charts + Members(children, k)))
    decreases |children|
  {
    if children != [] {
      var init := children[..|children| - 1];
      var last := children[|children| - 1];
      FoldLookup(gs, init, control, k);
      AddToLookup(Fold(gs, init, control), GroupKey(last.group), last.id, control, k);
      var g := Lookup(gs, k);
      if control {
        assert g.controls + Members(children, k) ==
          g.controls + Members(init, k) + (if GroupKey(last.group) == k then [last.id] else []);
      } else {
        assert g.charts + Members(children, k) ==
          g.charts + Members(init, k) + (if GroupKey(last.group) == k then [last.id] else []);
      }
    }
  }

  /** Every group holds exactly the controls and the charts whose key is its own, in document order. */
  lemma GroupingLookup(controls: seq<Child>, charts: seq<Child>, k: string)
    ensures Lookup(Grouping(controls, charts), k) == Group(k, Members(controls, k), Members(charts, k))
  {
    FoldLookup([], controls, true, k);
    FoldLookup(Fold([], controls, true), charts, false, k);
  }

  /** A child whose key is `k` is among the members of `k`. */
  lemma {:induction false} MembersHas(children: seq<Child>, k: string, i: nat)
    requires i < |children| && GroupKey(children[i].group) == k
    ensures children[i].id in Members(children, k)
    decreases |children|
  {
    var init := children[..|children| - 1];
    if i < |init| {
      MembersHas(init, k, i);
      assert init[i] == children[i];
    }
  }

  /** A member of `k` is the identity of some child whose key is `k`. */
  lemma {:induction false} MembersWitness(children: seq<Child>, k: string, id: nat) returns (i: nat)
    requires id in Members(children, k)
    ensures i < |children| && children[i].id == id && GroupKey(children[i].group) == k
    decreases |children|
  {
    var init := children[..|children| - 1];
    var last := children[|children| - 1];
    if GroupKey(last.group) == k && last.id == id {
      i := |children| - 1;
    } else {
      i := MembersWitness(init, k, id);
      assert init[i] == children[i];
    }
  }

  lemma MembersSpec(children: seq<Child>, k: string, id: nat)
    ensures id in Members(children, k) <==>
      exists i :: 0 <= i < |children| && children[i].id == id && GroupKey(children[i].group) == k
  {
    if id in Members(children, k) {
      var i := MembersWitness(children, k, id);
    }
    forall i | 0 <= i < |children| && children[i].id == id && GroupKey(children[i].group) == k
      ensures id in Members(children, k)
    {
      MembersHas(children, k, i);
    }
  }

  /**
   With distinct identities a control lands in exactly one group, the one of
   its key; likewise a chart.
   */
  lemma ChildInExactlyOneGroup(controls: seq<Child>, charts: seq<Child>, i: nat, k: string)
    requires i < |controls|
    requires forall a, b :: 0 <= a < b < |controls| ==> controls[a].id != controls[b].id
    ensures controls[i].id in Lookup(Grouping(controls, charts), k).controls <==> k == GroupKey(controls[i].group)
  {
    GroupingLookup(controls, charts, k);
    MembersSpec(controls, k, controls[i].id);
  }

  lemma {:induction false} AddToKeys(gs: seq<Group>, key: string, id: nat, control: bool)
    ensures KeyList(AddTo(gs, key, id, control)) == (if key in KeyList(gs) then KeyList(gs) else KeyList(gs) + [key])
  {
    if gs != [] && gs[0].key != key {
      AddToKeys(gs[1..], key, id, control);
      assert ([gs[0]] + AddTo(gs[1..], key, id, control))[1..] == AddTo(gs[1..], key, id, control);
      assert key in KeyList(gs) <==> key in KeyList(gs[1..]);
    } else if gs != [] {
      assert ([Push(gs[0], id, control)] + gs[1..])[1..] == gs[1..];
    }
  }

  lemma {:induction false} KeyListAt(gs: seq<Group>)
    ensures |KeyList(gs)| == |gs|
    ensures forall i :: 0 <= i < |gs| ==> KeyList(gs)[i] == gs[i].key
  {
    if gs != [] {
      KeyListAt(gs[1..]);
    }
  }

  lemma AddToKeepsWf(gs: seq<Group>, key: string, id: nat, control: bool)
    requires Wf(gs)
    ensures Wf(AddTo(gs, key, id, control))
  {
    AddToKeepsDistinct(gs, key, id, control);
    AddToKeepsPopulated(gs, key, id, control);
  }

  lemma {:induction false} AddToKeepsPopulated(gs: seq<Group>, key: string, id: nat, control: bool)
    requires Populated(gs)
    ensures Populated(AddTo(gs, key, id, control))
  {
    if gs != [] {
      var tail := gs[1..];
      assert Populated(tail) by {
        forall m | 0 <= m < |tail| ensures tail[m].controls != [] || tail[m].charts != [] { assert tail[m] == gs[m + 1]; }
      }
      if gs[0].key != key {
        AddToKeepsPopulated(tail, key, id, control);
        var rest := AddTo(tail, key, id, control);
        var r := [gs[0]] + rest;
        forall a | 0 <= a < |r| ensures r[a].controls != [] || r[a].charts != [] {
          if a > 0 { assert r[a] == rest[a - 1]; }
        }
      } else {
        var r := [Push(gs[0], id, control)] + tail;
        forall a | 0 <= a < |r| ensures r[a].controls != [] || r[a].charts != [] {
          if a > 0 { assert r[a] == gs[a]; }
        }
      }
    }
  }

  lemma {:induction false} AddToKeepsDistinct(gs: seq<Group>, key: string, id: nat, control: bool)
    requires DistinctKeys(gs)
    ensures DistinctKeys(AddTo(gs, key, id, control))
  {
    if gs != [] {
      var tail := gs[1..];
      assert DistinctKeys(tail) by {
        forall a, b | 0 <= a < b < |tail| ensures tail[a].key != tail[b].key {
          assert tail[a] == gs[a + 1] && tail[b] == gs[b + 1];
        }
      }
      if gs[0].key != key {
        AddToKeepsDistinct(tail, key, id, control);
        AddToPastHeadDistinct(gs, key, id, control);
      } else {
        var r := [Push(gs[0], id, control)] + tail;
        forall a, b | 0 <= a < b < |r| ensures r[a].key != r[b].key {
          assert r[b] == gs[b];
          if a > 0 { assert r[a] == gs[a]; }
        }
      }
    }
  }

  /** Inserting past the first group: the first key is not among the keys of the rest. */
  lemma AddToPastHeadDistinct(gs: seq<Group>, key: string, id: nat, control: bool)
    requires DistinctKeys(gs) && gs != [] && gs[0].key != key
    requires DistinctKeys(AddTo(gs[1..], key, id, control))
    ensures DistinctKeys(AddTo(gs, key, id, control))
  {
    var rest := AddTo(gs[1..], key, id, control);
    HeadKeyNotInserted(gs, key, id, control);
    var r := [gs[0]] + rest;
    forall a, b | 0 <= a < b < |r| ensures r[a].key != r[b].key {
      assert r[b] == rest[b - 1];
      if a > 0 { assert r[a] == rest[a - 1]; }
    }
  }

  lemma HeadKeyNotInserted(gs: seq<Group>, key: string, id: nat, control: bool)
    requires DistinctKeys(gs) && gs != [] && gs[0].key != key
    ensures forall m :: 0 <= m < |AddTo(gs[1..], key, id, control)| ==> AddTo(gs[1..], key, id, control)[m].key != gs[0].key
  {
    var tail := gs[1..];
    var rest := AddTo(tail, key, id, control);
    AddToKeys(tail, key, id, control);
    KeyListAt(tail);
    KeyListAt(rest);
    assert gs[0].key !in KeyList(tail) by {
      forall m | 0 <= m < |tail| ensures KeyList(tail)[m] != gs[0].key { assert tail[m] == gs[m + 1]; }
    }
    assert gs[0].key !in KeyList(rest);
    forall m | 0 <= m < |rest| ensures rest[m].key != gs[0].key {
      assert KeyList(rest)[m] == rest[m].key;
    }
  }

  lemma {:induction false} FoldKeepsWf(gs: seq<Group>, children: seq<Child>, control: bool)
    requires Wf(gs)
    ensures Wf(Fold(gs, children, control))
    decreases |children|
  {
    if children != [] {
      var last := children[|children| - 1];
      FoldKeepsWf(gs, children[..|children| - 1], control);
      AddToKeepsWf(Fold(gs, children[..|children| - 1], control), GroupKey(last.group), last.id, control);
    }
  }

  /** In well-formed groups a key is listed exactly when its group has a member. */
  lemma {:induction false} WfKeys(gs: seq<Group>, k: string)
    requires Wf(gs)
    ensures k in KeyList(gs) <==> Lookup(gs, k).controls != [] || Lookup(gs, k).charts != []
  {
    if gs != [] {
      assert Wf(gs[1..]);
      WfKeys(gs[1..], k);
    }
  }

  /**
   The groups have distinct keys, and a key has a group exactly when some
   control or chart carries it: groups are created on first insertion only.
   */
  lemma GroupingKeys(controls: seq<Child>, charts: seq<Child>, k: string)
    ensures Wf(Grouping(controls, charts))
    ensures k in KeyList(Grouping(controls, charts)) <==> Members(controls, k) != [] || Members(charts, k) != []
  {
    FoldKeepsWf([], controls, true);
    FoldKeepsWf(Fold([], controls, true), charts, false);
    WfKeys(Grouping(controls, charts), k);
    GroupingLookup(controls, charts, k);
  }

  /** The error `getGroup(key).controls.push` throws when `groups[key]` is inherited. */
  const PushOnInherited := TypeError("Cannot read properties of undefined (reading 'push')")

  /**
   `getGroup` as written: `groups[id]` also finds what `groups` inherits, and
   the inherited value has no `controls` or `charts` to push onto.
   */
  function AddAsWritten(gs: Result<seq<Group>>, key: string, id: nat, control: bool): Result<seq<Group>> {
    if gs.Err? then gs
    else if key !in KeyList(gs.value) && Truthy(Inherited(key)) then Err(PushOnInherited)
    else Ok(AddTo(gs.value, key, id, control))
  }

  function FoldAsWritten(gs: Result<seq<Group>>, children: seq<Child>, control: bool): Result<seq<Group>>
    decreases |children|
  {
    if children == [] then gs
    else
      var last := children[|children| - 1];
      AddAsWritten(FoldAsWritten(gs, children[..|children| - 1], control), GroupKey(last.group), last.id, control)
  }

  /** `_createGroups()` as written. */
  function GroupingAsWritten(controls: seq<Child>, charts: seq<Child>): Result<seq<Group>> {
    FoldAsWritten(FoldAsWritten(Ok([]), controls, true), charts, false)
  }

  predicate NoPrototypeKeys(children: seq<Child>) {
    forall i :: 0 <= i < |children| ==> GroupKey(children[i].group) !in ObjectPrototypeMembers
  }

  lemma InheritedTruthy(key: string)
    ensures Truthy(Inherited(key)) <==> key in ObjectPrototypeMembers
  {
  }

  lemma {:induction false} FoldAsWrittenSpec(gs: seq<Group>, children: seq<Child>, control: bool)
    requires forall m :: 0 <= m < |KeyList(gs)| ==> KeyList(gs)[m] !in ObjectPrototypeMembers
    ensures FoldAsWritten(Ok(gs), children, control) ==
      (if NoPrototypeKeys(children) then Ok(Fold(gs, children, control)) else Err(PushOnInherited))
    ensures NoPrototypeKeys(children) ==>
      forall m :: 0 <= m < |KeyList(Fold(gs, children, control))| ==> KeyList(Fold(gs, children, control))[m] !in ObjectPrototypeMembers
    decreases |children|
  {
    if children != [] {
      var init := children[..|children| - 1];
      var last := children[|children| - 1];
      var key := GroupKey(last.group);
      FoldAsWrittenSpec(gs, init, control);
      InheritedTruthy(key);
      assert NoPrototypeKeys(children) <==> NoPrototypeKeys(init) && key !in ObjectPrototypeMembers by {
        if NoPrototypeKeys(init) && key !in ObjectPrototypeMembers {
          forall i | 0 <= i < |children| ensures GroupKey(children[i].group) !in ObjectPrototypeMembers {
            if i < |init| { assert children[i] == init[i]; }
          }
        }
        if NoPrototypeKeys(children) {
          forall i | 0 <= i < |init| ensures GroupKey(init[i].group) !in ObjectPrototypeMembers {
            assert init[i] == children[i];
          }
        }
      }
      if NoPrototypeKeys(children) {
        var before := Fold(gs, init, control);
        AddToKeys(before, key, last.id, control);
      } else if NoPrototypeKeys(init) {
        var before := Fold(gs, init, control);
        assert key !in KeyList(before);
      }
    }
  }

  /**
   As written and as intended agree exactly when no child's key is a member of
   `Object.prototype`; otherwise the written code throws.
   */
  lemma AsWrittenAgreesOffPrototype(controls: seq<Child>, charts: seq<Child>)
    ensures GroupingAsWritten(controls, charts) ==
      (if NoPrototypeKeys(controls) && NoPrototypeKeys(charts) then Ok(Grouping(controls, charts))
       else Err(PushOnInherited))
  {
    FoldAsWrittenSpec([], controls, true);
    if NoPrototypeKeys(controls) {
      FoldAsWrittenSpec(Fold([], controls, true), charts, false);
    } else {
      FoldAsWrittenKeepsError(PushOnInherited, charts, false);
    }
  }

  lemma {:induction false} FoldAsWrittenKeepsError(e: Error, children: seq<Child>, control: bool)
    ensures FoldAsWritten(Err(e), children, control) == Err(e)
    decreases |children|
  {
    if children != [] {
      FoldAsWrittenKeepsError(e, children[..|children| - 1], control);
    }
  }

  /** The concrete input: one control in the group `constructor`. */
  lemma ConstructorGroupCounterexample()
    ensures GroupingAsWritten([Child(0, Str("constructor"))], []) == Err(PushOnInherited)
    ensures Grouping([Child(0, Str("constructor"))], []) == [Group("constructor", [0], [])]
  {
    var cs := [Child(0, Str("constructor"))];
    assert cs[..0] == [];
    assert GroupKey(Str("constructor")) == "constructor";
    assert Fold([], cs[..0], true) == [];
    assert Fold([], cs, true) == AddTo([], "constructor", 0, true);
    assert Push(Group("constructor", [], []), 0, true) == Group("constructor", [] + [0], []);
    assert [] + [0] == [0];
    assert AddTo([], "constructor", 0, true) == [Group("constructor", [0], [])];
    assert Grouping(cs, []) == Fold([], cs, true);
  }

  /** How `_bindDashboard` treats a group. */
  datatype Kind = BoundGroup | UncontrolledGroup | UnconnectedGroup | EmptyGroup

  function Classify(g: Group): (k: Kind)
    ensures k == BoundGroup <==> g.charts != [] && g.controls != []
    ensures k == UncontrolledGroup <==> g.charts != [] && g.controls == []
    ensures k == UnconnectedGroup <==> g.charts == [] && g.controls != []
  {
    if g.charts != [] && g.controls != [] then BoundGroup
    else if g.charts != [] then UncontrolledGroup
    else if g.controls != [] then UnconnectedGroup
    else EmptyGroup
  }

  /** A `Dashboard.bind(controls, charts)` call. */
  datatype Binding = Binding(controls: seq<nat>, charts: seq<nat>)

  datatype BindOutcome = BindOutcome(bindings: seq<Binding>, uncontrolled: seq<nat>, unconnected: seq<nat>)

  /** The per-group classification over all groups, in order. */
  function BindGroups(gs: seq<Group>): (r: BindOutcome)
    ensures |r.bindings| <= |gs|
  {
    if gs == [] then BindOutcome([], [], [])
    else
      var rest := BindGroups(gs[1..]);
      var g := gs[0];
      match Classify(g)
      case BoundGroup => rest.(bindings := [Binding(g.controls, g.charts)] + rest.bindings)
      case UncontrolledGroup => rest.(uncontrolled := g.charts + rest.uncontrolled)
      case UnconnectedGroup => rest.(unconnected := g.controls + rest.unconnected)
      case EmptyGroup => rest
  }

  /** Every chart of an uncontrolled group, and nothing else, is listed as uncontrolled. */
  lemma {:induction false} BindGroupsUncontrolled(gs: seq<Group>, id: nat)
    ensures id in BindGroups(gs).uncontrolled <==>
      exists i :: 0 <= i < |gs| && Classify(gs[i]) == UncontrolledGroup && id in gs[i].charts
  {
    if gs != [] {
      var tail := gs[1..];
      BindGroupsUncontrolled(tail, id);
      if exists i :: 0 <= i < |gs| && Classify(gs[i]) == UncontrolledGroup && id in gs[i].charts {
        var i :| 0 <= i < |gs| && Classify(gs[i]) == UncontrolledGroup && id in gs[i].charts;
        if i > 0 { assert tail[i - 1] == gs[i]; }
      }
      if exists i :: 0 <= i < |tail| && Classify(tail[i]) == UncontrolledGroup && id in tail[i].charts {
        var i :| 0 <= i < |tail| && Classify(tail[i]) == UncontrolledGroup && id in tail[i].charts;
        assert gs[i + 1] == tail[i];
      }
    }
  }

  /** Every control of an unconnected group, and nothing else, is marked unconnected. */
  lemma {:induction false} BindGroupsUnconnected(gs: seq<Group>, id: nat)
    ensures id in BindGroups(gs).unconnected <==>
      exists i :: 0 <= i < |gs| && Classify(gs[i]) == UnconnectedGroup && id in gs[i].controls
  {
    if gs != [] {
      var tail := gs[1..];
      BindGroupsUnconnected(tail, id);
      if exists i :: 0 <= i < |gs| && Classify(gs[i]) == UnconnectedGroup && id in gs[i].controls {
        var i :| 0 <= i < |gs| && Classify(gs[i]) == UnconnectedGroup && id in gs[i].controls;
        if i > 0 { assert tail[i - 1] == gs[i]; }
      }
      if exists i :: 0 <= i < |tail| && Classify(tail[i]) == UnconnectedGroup && id in tail[i].controls {
        var i :| 0 <= i < |tail| && Classify(tail[i]) == UnconnectedGroup && id in tail[i].controls;
        assert gs[i + 1] == tail[i];
      }
    }
  }

  /** Exactly the groups with both charts and controls are bound, each once, in order. */
  lemma {:induction false} BindGroupsBound(gs: seq<Group>, bd: Binding)
    ensures bd in BindGroups(gs).bindings <==>
      exists i :: 0 <= i < |gs| && Classify(gs[i]) == BoundGroup && bd == Binding(gs[i].controls, gs[i].charts)
  {
    if gs != [] {
      var tail := gs[1..];
      BindGroupsBound(tail, bd);
      if exists i :: 0 <= i < |gs| && Classify(gs[i]) == BoundGroup && bd == Binding(gs[i].controls, gs[i].charts) {
        var i :| 0 <= i < |gs| && Classify(gs[i]) == BoundGroup && bd == Binding(gs[i].controls, gs[i].charts);
        if i > 0 { assert tail[i - 1] == gs[i]; }
      }
      if exists i :: 0 <= i < |tail| && Classify(tail[i]) == BoundGroup && bd == Binding(tail[i].controls, tail[i].charts) {
        var i :| 0 <= i < |tail| && Classify(tail[i]) == BoundGroup && bd == Binding(tail[i].controls, tail[i].charts);
        assert gs[i + 1] == tail[i];
      }
    }
  }

  /** The dashboard element's own state. */
  datatype Board = Board(
    data: Value,
    bound: bool,
    drawn: bool,
    hasDashboard: bool,
    groups: Option<seq<Group>>,
    bindings: seq<Binding>,
    uncontrolled: seq<nat>,
    unconnected: seq<nat>,
    pendingDraws: seq<Value>,   // `d.draw(data)` calls waiting for the Dashboard promise
    draws: seq<Value>)

  /**
   `_bindDashboard(dashboard, groups)`: nothing until both exist; then the
   groups are classified and the element is bound.
   */
  function BindDashboard(b: Board): (r: Board)
    ensures !b.hasDashboard || b.groups.None? ==> r == b
    ensures b.hasDashboard && b.groups.Some? ==>
      && r.bound
      && r.bindings == b.bindings + BindGroups(b.groups.value).bindings
      && r.uncontrolled == b.uncontrolled + BindGroups(b.groups.value).uncontrolled
      && r.unconnected == b.unconnected + BindGroups(b.groups.value).unconnected
  {
    if !b.hasDashboard || b.groups.None? then b
    else
      var o := BindGroups(b.groups.value);
      b.(bindings := b.bindings + o.bindings, uncontrolled := b.uncontrolled + o.uncontrolled,
         unconnected := b.unconnected + o.unconnected, bound := true)
  }

  /** `c.data = data` for every chart of `charts`. */
  function AssignData(chartData: map<nat, Value>, charts: seq<nat>, data: Value): (r: map<nat, Value>)
    ensures forall c :: c in charts ==> c in r && r[c] == data
    ensures forall c :: c !in charts && c in chartData ==> c in r && r[c] == chartData[c]
    ensures forall c :: c in r ==> c in chartData || c in charts
    decreases charts
  {
    if charts == [] then chartData else AssignData(chartData[charts[0] := data], charts[1..], data)
  }

  /**
   `_drawInitialDashboard(bound, data)`: nothing unless bound with truthy
   data; otherwise `drawn` goes false, the uncontrolled charts get the data and
   the Dashboard is asked to draw it.
   */
  function DrawInitialDashboard(b: Board, chartData: map<nat, Value>): (r: (Board, map<nat, Value>))
    ensures !b.bound || !Truthy(b.data) ==> r == (b, chartData)
    ensures b.bound && Truthy(b.data) ==>
      && !r.0.drawn && r.0.pendingDraws == b.pendingDraws + [b.data]
      && (forall c :: c in b.uncontrolled ==> c in r.1 && r.1[c] == b.data)
      && (forall c :: c !in b.uncontrolled && c in chartData ==> c in r.1 && r.1[c] == chartData[c])
  {
    if !b.bound || !Truthy(b.data) then (b, chartData)
    else (b.(drawn := false, pendingDraws := b.pendingDraws + [b.data]), AssignData(chartData, b.uncontrolled, b.data))
  }

  /** The Dashboard promise resolves for the oldest pending draw: it draws, and `drawn` goes true. */
  function DashboardDrew(b: Board): (r: Board)
    ensures b.pendingDraws != [] ==> r.drawn && r.draws == b.draws + [b.pendingDraws[0]]
    ensures b.pendingDraws == [] ==> r == b
  {
    if b.pendingDraws == [] then b
    else b.(drawn := true, draws := b.draws + [b.pendingDraws[0]], pendingDraws := b.pendingDraws[1..])
  }

  /**
   `_onDataChanged(evt)`: the event's detail becomes the dashboard's data.
   Only a change runs the `data` observer, which draws the dashboard again;
   the object already held runs nothing (`isNew` says whether an object
   detail is a newly built one).
   */
  function OnDataChanged(b: Board, chartData: map<nat, Value>, detail: Value, isNew: bool): (r: (Board, map<nat, Value>))
    ensures r.0.data == detail
    ensures !Changes(b.data, detail, isNew) ==> r == (b, chartData)
    ensures Changes(b.data, detail, isNew) && b.bound && Truthy(detail) ==>
      && !r.0.drawn && r.0.pendingDraws == b.pendingDraws + [detail]
      && (forall c :: c in b.uncontrolled ==> c in r.1 && r.1[c] == detail)
    ensures Changes(b.data, detail, isNew) && (!b.bound || !Truthy(detail)) ==>
      r == (b.(data := detail), chartData)
  {
    if !Changes(b.data, detail, isNew) then (b, chartData)
    else DrawInitialDashboard(b.(data := detail), chartData)
  }

  /**
   A data event is drawn at most once: the same detail object delivered
   again queues no second draw and assigns no chart again, and one event
   queues at most one draw.
   */
  lemma RepeatedDataEventDrawsOnce(b: Board, chartData: map<nat, Value>, detail: Value, isNew: bool)
    ensures var (b1, cd1) := OnDataChanged(b, chartData, detail, isNew);
      && OnDataChanged(b1, cd1, detail, false) == (b1, cd1)
      && |b1.pendingDraws| <= |b.pendingDraws| + 1
      && b1.draws == b.draws
  {
  }

  /** The charts a board's groups hold. */
  ghost predicate OwnsChart(b: Board, c: nat) {
    b.groups.Some? && exists i :: 0 <= i < |b.groups.value| && c in b.groups.value[i].charts
  }

  /** With the list kept per element, a draw only ever touches the board's own charts. */
  lemma DrawTouchesOwnChartsOnly(b: Board, chartData: map<nat, Value>, c: nat)
    requires b.hasDashboard && b.groups.Some? && b.uncontrolled == []
    requires c in chartData && !OwnsChart(b, c)
    ensures var r := DrawInitialDashboard(BindDashboard(b), chartData);
      c in r.1 && r.1[c] == chartData[c]
  {
    BindGroupsUncontrolled(b.groups.value, c);
  }

  /**
   As written, the list of uncontrolled charts is one for the whole page:
   binding appends each board's uncontrolled charts to it, and drawing any
   board hands its data to all of them.
   */
  function BindShared(shared: seq<nat>, b: Board): seq<nat> {
    if !b.hasDashboard || b.groups.None? then shared else shared + BindGroups(b.groups.value).uncontrolled
  }

  function DrawShared(shared: seq<nat>, b: Board, chartData: map<nat, Value>): map<nat, Value> {
    if !b.bound || !Truthy(b.data) then chartData else AssignData(chartData, shared, b.data)
  }

  /**
   The concrete input: two dashboards, each with one chart and no control.
   Drawing the second one as written overwrites the first one's chart with the
   second one's data; with the list per element it does not.
   */
  lemma SharedUncontrolledLeaks(dataA: Value, dataB: Value)
    requires Truthy(dataA) && Truthy(dataB) && dataA != dataB
    ensures var a := Board(dataA, true, false, true, Some([Group(DefaultGroup, [], [1])]), [], [], [], [], []);
      var b := Board(dataB, true, false, true, Some([Group(DefaultGroup, [], [2])]), [], [], [], [], []);
      var shared := BindShared(BindShared([], a), b);
      && DrawShared(shared, b, map[1 := dataA])[1] == dataB
      && DrawInitialDashboard(BindDashboard(b), map[1 := dataA]).1[1] == dataA
  {
    var a := Board(dataA, true, false, true, Some([Group(DefaultGroup, [], [1])]), [], [], [], [], []);
    var b := Board(dataB, true, false, true, Some([Group(DefaultGroup, [], [2])]), [], [], [], [], []);
    assert BindGroups([Group(DefaultGroup, [], [1])]).uncontrolled == [1];
    assert BindGroups([Group(DefaultGroup, [], [2])]).uncontrolled == [2];
    assert BindShared(BindShared([], a), b) == [1, 2];
  }
}

=== FILE: js.dfy ===
/**
 A model of the few JavaScript value semantics the chart elements rely on:
 truthiness, the `||` operator, property lookup (own properties first, then the
 members every object inherits from `Object.prototype`), `String(v)` and
 `JSON.stringify(v)`.

 Numbers are modelled as integers; NaN, infinities and fractions are outside
 the model. Objects keep their own properties in insertion order, as JS does
 for non-index keys.
 */
module Js {

  datatype Option<+T> = None | Some(value: T)

  /** What a JS operation can throw. */
  datatype Error =
    | TypeError(what: string)     // e.g. reading a property of null
    | Thrown(message: string)     // an `Error` raised with an explicit message
    | ReferenceError(what: string) // reading a name nothing declares

  datatype Result<+T> = Ok(value: T) | Err(error: Error) {
    predicate IsFailure() { Err? }
    function PropagateFailure<U>(): Result<U>
      requires Err?
    {
      Err(error)
    }
    function Extract(): T
      requires Ok?
    {
      value
    }
  }

  datatype Value =
    | Undefined
    | Null
    | Bool(b: bool)
    | Num(n: int)
    | Str(s: string)
    | Arr(items: seq<Value>)
    | Obj(fields: seq<Field>)   // a plain object; own properties in insertion order
    | Func(name: string)        // a function value (a method of a host object, say)

  datatype Field = Field(key: string, val: Value)

  /** `v == null` in JS: true exactly for null and undefined. */
  predicate Nullish(v: Value) {
    v.Undefined? || v.Null?
  }

  /** ToBoolean: the falsy values are undefined, null, false, 0 and "". */
  predicate Truthy(v: Value) {
    match v
    case Undefined => false
    case Null => false
    case Bool(b) => b
    case Num(n) => n != 0
    case Str(s) => s != ""
    case _ => true
  }

  /** `a || b`: the first operand when it is truthy, else the second. */
  function Or(a: Value, b: Value): Value {
    if Truthy(a) then a else b
  }

  /** Arrays, plain objects and functions: the values JS compares by identity. */
  predicate IsObject(v: Value) {
    v.Arr? || v.Obj? || v.Func?
  }

  /**
   Whether writing `v` over `prev` counts as a change for Polymer's property
   setter, which compares with `!==`. A primitive changes exactly when it
   differs. An object changes when it differs, or when `isNew` says it is a
   newly built object: model values carry no identity of their own.
   */
  predicate Changes(prev: Value, v: Value, isNew: bool) {
    prev != v || (isNew && IsObject(v))
  }

  /** The names every object inherits from `Object.prototype`. */
  const ObjectPrototypeMembers: set<string> := {
    "constructor", "hasOwnProperty", "isPrototypeOf", "propertyIsEnumerable",
    "toLocaleString", "toString", "valueOf", "__proto__",
    "__defineGetter__", "__defineSetter__", "__lookupGetter__", "__lookupSetter__"
  }

  /** The value an inherited lookup of `key` finds on `Object.prototype`. */
  function Inherited(key: string): (r: Value)
    ensures r != Undefined <==> key in ObjectPrototypeMembers
  {
    match key
    case "__proto__" => Obj([])   // stands for Object.prototype itself
    case "constructor" => Func(key)
    case "hasOwnProperty" => Func(key)
    case "isPrototypeOf" => Func(key)
    case "propertyIsEnumerable" => Func(key)
    case "toLocaleString" => Func(key)
    case "toString" => Func(key)
    case "valueOf" => Func(key)
    case "__defineGetter__" => Func(key)
    case "__defineSetter__" => Func(key)
    case "__lookupGetter__" => Func(key)
    case "__lookupSetter__" => Func(key)
    case _ => Undefined
  }

  /** The first own property named `key`, if any. */
  function OwnLookup(fields: seq<Field>, key: string): Option<Value> {
    if fields == [] then None
    else if fields[0].key == key then Some(fields[0].val)
    else OwnLookup(fields[1..], key)
  }

  /**
   `v[key]` for a value that is not null or undefined. Arrays and strings own a
   `length`; everything falls back to `Object.prototype`. Members inherited from
   the other built-in prototypes (Array.prototype.map and the like) are not
   modelled: the elements never read such a key.
   */
  function Get(v: Value, key: string): Value
    requires !Nullish(v)
  {
    match v
    case Obj(fields) =>
      (match OwnLookup(fields, key)
       case Some(x) => x
       case None => Inherited(key))
    case Arr(items) => if key == "length" then Num(|items|) else Inherited(key)
    case Str(s) => if key == "length" then Num(|s|) else Inherited(key)
    case _ => Inherited(key)
  }

  /** `v[key]` for any value: reading a property of null or undefined throws. */
  function Member(v: Value, key: string): (r: Result<Value>)
    ensures r.Err? <==> Nullish(v)
  {
    if Nullish(v) then Err(TypeError("Cannot read properties of " + (if v.Null? then "null" else "undefined")))
    else Ok(Get(v, key))
  }

  /**
   ToNumber, None standing for NaN. Strings convert when they are empty (0) or
   made of decimal digits only; signs, fractions, exponents, hexadecimal and
   surrounding white space are outside the model and read as NaN. An array
   converts through its string, a plain object or function is NaN.
   */
  function ToNumber(v: Value): Option<int> {
    match v
    case Undefined => None
    case Null => Some(0)
    case Bool(b) => Some(if b then 1 else 0)
    case Num(n) => Some(n)
    case Str(s) => StringToNumber(s)
    case Arr(_) => StringToNumber(ToJsString(v))
    case Obj(_) => None
    case Func(_) => None
  }

  function StringToNumber(s: string): Option<int> {
    if s == "" then Some(0)
    else if forall i :: 0 <= i < |s| ==> '0' <= s[i] <= '9' then Some(DigitsValue(s))
    else None
  }

  function DigitsValue(s: string): nat
    requires forall i :: 0 <= i < |s| ==> '0' <= s[i] <= '9'
  {
    if s == [] then 0
    else DigitsValue(s[..|s| - 1]) * 10 + ((s[|s| - 1] as int) - ('0' as int))
  }

  /** `v > 0`: false whenever `v` converts to NaN. */
  predicate GreaterThanZero(v: Value) {
    match ToNumber(v)
    case Some(n) => n > 0
    case None => false
  }

  /** Decimal digits of a natural number, most significant first. */
  function NatToString(n: nat): (r: string)
    ensures |r| >= 1
    ensures forall i :: 0 <= i < |r| ==> '0' <= r[i] <= '9'
  {
    if n < 10 then [DigitChar(n)]
    else NatToString(n / 10) + [DigitChar(n % 10)]
  }

  function DigitChar(d: nat): (c: char)
    requires d < 10
    ensures '0' <= c <= '9'
  {
    "0123456789"[d]
  }

  /** `String(n)` for an integer `n`. */
  function IntToString(n: int): string {
    if n < 0 then "-" + NatToString(-n) else NatToString(n)
  }

  /**
   `String(v)`. A plain object prints as `[object Object]`; an array joins its
   elements' strings with commas, null and undefined elements printing as
   nothing. A function prints an implementation-defined text, modelled from
   its name.
   */
  function ToJsString(v: Value): string
    decreases v
  {
    match v
    case Undefined => "undefined"
    case Null => "null"
    case Bool(b) => if b then "true" else "false"
    case Num(n) => IntToString(n)
    case Str(s) => s
    case Arr(items) => JoinElements(items)
    case Obj(_) => "[object Object]"
    case Func(name) => "function " + name + "() { [native code] }"
  }

  function JoinElements(items: seq<Value>): string
    decreases items
  {
    if items == [] then ""
    else
      var head := if Nullish(items[0]) then "" else ToJsString(items[0]);
      if |items| == 1 then head else head + "," + JoinElements(items[1..])
  }

  /**
   `JSON.stringify(v)`: None stands for the `undefined` it returns for
   undefined and functions. Inside arrays such values print as `null`; inside
   objects their properties are skipped.
   */
  function Stringify(v: Value): Option<string>
    decreases v
  {
    match v
    case Undefined => None
    case Func(_) => None
    case Null => Some("null")
    case Bool(b) => Some(if b then "true" else "false")
    case Num(n) => Some(IntToString(n))
    case Str(s) => Some(Quote(s))
    case Arr(items) => Some("[" + StringifyElements(items) + "]")
    case Obj(fields) => Some("{" + StringifyFields(fields, true) + "}")
  }

  function StringifyElements(items: seq<Value>): string
    decreases items
  {
    if items == [] then ""
    else
      var head := match Stringify(items[0]) case Some(t) => t case None => "null";
      if |items| == 1 then head else head + "," + StringifyElements(items[1..])
  }

  /** The serialised properties; `first` says no comma is owed before the next one. */
  function StringifyFields(fields: seq<Field>, first: bool): string
    decreases fields
  {
    if fields == [] then ""
    else
      match Stringify(fields[0].val)
      case None => StringifyFields(fields[1..], first)
      case Some(t) =>
        (if first then "" else ",") + Quote(fields[0].key) + ":" + t
        + StringifyFields(fields[1..], false)
  }

  /** A JSON string literal: quotes, backslashes and control characters escaped. */
  function Quote(s: string): string {
    "\"" + EscapeAll(s) + "\""
  }

  function EscapeAll(s: string): string {
    if s == [] then "" else EscapeChar(s[0]) + EscapeAll(s[1..])
  }

  function EscapeChar(c: char): string {
    if c == '"' then "\\\""
    else if c == '\\' then "\\\\"
    else if c as int == 8 then "\\b"
    else if c as int == 12 then "\\f"
    else if c == '\n' then "\\n"
    else if c == '\r' then "\\r"
    else if c == '\t' then "\\t"
    else if (c as int) < 0x20 then "\\u00" + [HexDigit((c as int) / 16), HexDigit((c as int) % 16)]
    else [c]
  }

  function HexDigit(d: nat): char
    requires d < 16
  {
    "0123456789abcdef"[d]
  }
}

=== FILE: legacy_chart.dfy ===
/**
 The Polymer 1 `google-chart` element (google-chart.js) as a state record and
 step functions. The element computes a chart wrapper from its type and
 options, forwards data, view, options and data source changes to it, draws
 through a debounce, reflects its selection into the chart unless the change
 came from the chart itself, and keeps the chart's tooltip actions in step
 with its `actions` list.

 The wrapper is a promise in the source; here it resolves at once. The
 debounced draw is a pending flag, and `requestAnimationFrame` is folded into
 the debounce firing.
 */
module LegacyChart {
  import opened Js
  import ChartTypes
  import ChartActions

  /**
   The chart object `getChart()` returns. `methods` holds every name whose
   lookup on the chart finds a function, inherited ones included.
   */
  datatype LChart = LChart(
    id: nat,
    methods: set<string>,
    selection: Value,
    actions: ChartActions.ActionChart,
    imageUri: string)

  predicate HasMethod(c: LChart, name: string) {
    name in c.methods
  }

  datatype LWrapper = LWrapper(
    chartType: string,
    dataTable: Value,
    sourceUrl: Value,
    query: Value,
    options: Value,
    view: Value,
    draws: nat,
    readied: bool)                      // the one-time `ready` listener has run

  datatype Element = Element(
    typ: string,
    data: Value,
    options: Value,
    selection: Value,
    src: Value,
    query: Value,
    view: Value,
    events: seq<string>,
    drawn: bool,
    wrapper: Option<LWrapper>,
    chart: Option<LChart>,
    noReact: bool,                      // `_noReact`: the next selection change came from the chart
    attachedActions: seq<Value>,
    attachedIsActions: bool,            // `_attachedActions` is the very array `actions` holds
    actions: seq<Value>,
    drawPending: bool,
    relays: seq<(nat, string)>,         // (chart id, event) relayed as `google-chart-<event>`
    stylesMoved: nat,
    thrown: Option<Error>)

  /** The property values an element starts from: its defaults, or what the page configured. */
  datatype Attributes = Attributes(
    typ: string,
    data: Value,
    options: Value,
    selection: Value,
    src: Value,
    query: Value,
    view: Value,
    events: seq<string>,
    actions: seq<Value>)

  /** The declared defaults: type `column`, empty options, selection, events and actions. */
  const DefaultAttributes := Attributes("column", Undefined, Obj([]), Arr([]), Undefined, Undefined, Undefined, [], [])

  /** `draw()`: without a wrapper nothing happens; otherwise one debounced draw is pending. */
  function Draw(el: Element): (r: Element)
    ensures el.wrapper.None? ==> r == el
    ensures el.wrapper.Some? ==> r == el.(drawPending := true)
  {
    if el.wrapper.None? then el else el.(drawPending := true)
  }

  /**
   The debounce fires: the wrapper draws only when it holds a data table or a
   data source URL.
   */
  function FireDraw(el: Element): (r: Element)
    ensures !r.drawPending
    ensures r.wrapper.Some? <==> el.wrapper.Some?
    ensures el.wrapper.Some? ==>
      (r.wrapper.value.draws == el.wrapper.value.draws + 1 <==>
        el.drawPending && (Truthy(el.wrapper.value.dataTable) || Truthy(el.wrapper.value.sourceUrl)))
    ensures el.wrapper.Some? ==> r.wrapper.value.draws <= el.wrapper.value.draws + 1
  {
    if !el.drawPending || el.wrapper.None? then el.(drawPending := false)
    else
      var w := el.wrapper.value;
      if Truthy(w.dataTable) || Truthy(w.sourceUrl) then
        el.(wrapper := Some(w.(draws := w.draws + 1)), drawPending := false)
      else el.(drawPending := false)
  }

  /**
   `execute(command, ...args)`: null while the chart is not drawn; otherwise
   `this.chart[command]` is called and its `result` returned. Reading a
   property of a missing chart, or calling a command the chart lacks, throws
   a TypeError.
   */
  function Execute(el: Element, command: string, result: Value): (r: Result<Value>)
    ensures !el.drawn ==> r == Ok(Null)
    ensures el.drawn && el.chart.Some? && HasMethod(el.chart.value, command) ==> r == Ok(result)
    ensures el.drawn && (el.chart.None? || !HasMethod(el.chart.value, command)) ==> r.Err? && r.error.TypeError?
  {
    if !el.drawn then Ok(Null)
    else match el.chart
      case None => Err(TypeError("Cannot read properties of undefined"))
      case Some(c) =>
        if HasMethod(c, command) then Ok(result)
        else Err(TypeError("this.chart[command].apply is not a function"))
  }

  /**
   `imageURI`: null while the chart is not drawn, otherwise the result of
   `getImageURI()`, which throws on a missing chart or a chart without that
   method (a table, say).
   */
  function ImageUri(el: Element): (r: Result<Value>)
    ensures !el.drawn ==> r == Ok(Null)
    ensures el.drawn && el.chart.Some? && HasMethod(el.chart.value, "getImageURI") ==>
      r == Ok(Str(el.chart.value.imageUri))
    ensures el.drawn && (el.chart.None? || !HasMethod(el.chart.value, "getImageURI")) ==>
      r.Err? && r.error.TypeError?
  {
    if !el.drawn then Ok(Null)
    else match el.chart
      case None => Err(TypeError("Cannot read properties of undefined (reading 'getImageURI')"))
      case Some(c) =>
        if HasMethod(c, "getImageURI") then Ok(Str(c.imageUri))
        else Err(TypeError("this.chart.getImageURI is not a function"))
  }

  /**
   `_computeWrapper(type, options)`: `drawn` goes false and a new wrapper is
   built with the resolved type and the element's current data, source,
   options, query and view.
   */
  function ComputeWrapper(el: Element): (r: Element)
    ensures !r.drawn && r.wrapper.Some?
    ensures r.wrapper.value.chartType == ChartTypes.Resolve(ChartTypes.LegacyChartTypes, el.typ)
    ensures r.wrapper.value.dataTable == el.data && r.wrapper.value.sourceUrl == el.src
    ensures r.wrapper.value.query == el.query && r.wrapper.value.options == el.options && r.wrapper.value.view == el.view
    ensures r.wrapper.value.draws == 0 && !r.wrapper.value.readied
    ensures r == el.(drawn := false, wrapper := r.wrapper)
  {
    var w := LWrapper(ChartTypes.Resolve(ChartTypes.LegacyChartTypes, el.typ), el.data, el.src, el.query,
                      el.options, el.view, 0, false);
    el.(drawn := false, wrapper := Some(w))
  }

  /** The computed `wrapper` waits, like every effect of several properties, until `options` is defined. */
  function WrapperChanged(el: Element): (r: Element)
    ensures el.options.Undefined? ==> r == el
    ensures !el.options.Undefined? ==> r == ComputeWrapper(el)
  {
    if el.options.Undefined? then el else ComputeWrapper(el)
  }

  /**
   `_changeSelection(chart, selection.*)`: nothing without a chart or with an
   undefined selection; a pending echo flag is cleared instead of reflecting;
   otherwise a chart with `setSelection` is given the selection.
   */
  function ChangeSelection(el: Element): (r: Element)
    ensures el.chart.None? || el.selection.Undefined? ==> r == el
    ensures el.chart.Some? && !el.selection.Undefined? && el.noReact ==> r == el.(noReact := false)
    ensures el.chart.Some? && !el.selection.Undefined? && !el.noReact && HasMethod(el.chart.value, "setSelection") ==>
      r == el.(chart := Some(el.chart.value.(selection := el.selection)))
    ensures el.chart.Some? && !el.noReact && !HasMethod(el.chart.value, "setSelection") ==> r == el
    ensures el.chart.Some? && !el.selection.Undefined? ==> !r.noReact
  {
    if el.selection.Undefined? then el
    else match el.chart
      case None => el
      case Some(c) =>
        if el.noReact then el.(noReact := false)
        else if HasMethod(c, "setSelection") then el.(chart := Some(c.(selection := el.selection)))
        else el
  }

  /**
   What `_attachedActions` holds when the observer runs. It keeps the array
   the last completed observer stored, so while that is the very array
   `actions` holds, a change made in place (`newArray` false: a splice, an item
   write, or the observer re-run for a new chart) is already in it.
   */
  function Remembered(el: Element, newArray: bool): seq<Value> {
    if el.attachedIsActions && !newArray then el.actions else el.attachedActions
  }

  /**
   `_changeActions(chart, actions.*)`, with `actions` already holding the
   change's array: nothing is registered without a chart; otherwise the
   chart's registry, the remembered contents and any error are those
   `ChartActions.ChangeActions` computes from what `_attachedActions` holds.
   Only an observer that reaches its end stores `actions` as the remembered
   array; one that returns early or throws leaves the old reference, which
   still sees in-place changes.
   */
  function ChangeActions(el: Element, change: ChartActions.Change, newArray: bool): (r: Element)
    ensures el.chart.None? ==>
      r == el.(attachedActions := Remembered(el, newArray), attachedIsActions := el.attachedIsActions && !newArray)
    ensures el.chart.Some? ==>
      var u := ChartActions.ChangeActions(el.chart.value.actions, Remembered(el, newArray), change);
      && r.chart == Some(el.chart.value.(actions := u.chart))
      && r.attachedActions == u.attached
      && r.attachedIsActions == ((el.chart.value.actions.hasActionApi && u.thrown.None?) || (el.attachedIsActions && !newArray))
      && r.thrown == (if u.thrown.Some? then u.thrown else el.thrown)
      && r == el.(chart := r.chart, attachedActions := r.attachedActions, attachedIsActions := r.attachedIsActions,
                  thrown := r.thrown)
  {
    var seen := Remembered(el, newArray);
    match el.chart
    case None => el.(attachedActions := seen, attachedIsActions := el.attachedIsActions && !newArray)
    case Some(c) =>
      var u := ChartActions.ChangeActions(c.actions, seen, change);
      el.(chart := Some(c.(actions := u.chart)), attachedActions := u.attached,
          attachedIsActions := (c.actions.hasActionApi && u.thrown.None?) || (el.attachedIsActions && !newArray),
          thrown := if u.thrown.Some? then u.thrown else el.thrown)
  }

  /**
   A chart object new to the element: it is recorded and `drawn` goes true,
   then the `selection` and `actions` observers run against it, the latter as
   a full replacement of the array `actions` already holds.
   */
  function TakeOver(el: Element, chart: LChart): (r: Element)
    ensures r.drawn && r.chart.Some? && r.chart.value.id == chart.id
    ensures r.wrapper == el.wrapper && r.relays == el.relays && r.stylesMoved == el.stylesMoved
    ensures r.typ == el.typ && r.events == el.events && r.actions == el.actions && r.selection == el.selection
    ensures var u := ChartActions.ChangeActions(chart.actions, Remembered(el, false), ChartActions.Replaced(el.actions));
      && r.chart.value.actions == u.chart
      && r.attachedActions == u.attached
      && r.attachedIsActions == ((chart.actions.hasActionApi && u.thrown.None?) || el.attachedIsActions)
      && r.thrown == (if u.thrown.Some? then u.thrown else el.thrown)
  {
    var el2 := ChangeSelection(el.(chart := Some(chart), drawn := true));
    assert el2.actions == el.actions && el2.attachedActions == el.attachedActions;
    assert el2.attachedIsActions == el.attachedIsActions && el2.chart.value.actions == chart.actions;
    ChangeActions(el2, ChartActions.Replaced(el2.actions), false)
  }

  /** While `_attachedActions` is the array `actions` holds, the two read the same. */
  ghost predicate AttachedInStep(el: Element) {
    el.attachedIsActions ==> el.attachedActions == el.actions
  }

  /**
   Every step keeps the remembered list in step with an aliased `actions`:
   a completed observer stores the array itself, and an in-place change is
   seen through the shared reference.
   */
  lemma StepKeepsAttachedInStep(el: Element, step: Step)
    requires AttachedInStep(el)
    ensures AttachedInStep(Apply(el, step))
  {
    match step
    case SetActions(change) => ActionsChangeKeepsAttachedInStep(el, change);
    case Ready(chart) =>
    case _ => OtherStepKeepsActions(el, step);
  }

  lemma ActionsChangeKeepsAttachedInStep(el: Element, change: ChartActions.Change)
    requires AttachedInStep(el)
    ensures AttachedInStep(Apply(el, SetActions(change)))
  {
    var e1 := el.(actions := change.base);
    if e1.chart.Some? {
      var u := ChartActions.ChangeActions(e1.chart.value.actions, Remembered(e1, change.Replaced?), change);
      assert e1.chart.value.actions.hasActionApi && u.thrown.None? ==> u.attached == change.base;
    }
  }

  /** Only an `actions` write and a `ready` touch the actions or the remembered array. */
  lemma OtherStepKeepsActions(el: Element, step: Step)
    requires !step.SetActions? && !step.Ready?
    ensures var r := Apply(el, step);
      r.actions == el.actions && r.attachedActions == el.attachedActions && r.attachedIsActions == el.attachedIsActions
  {
    if step.SetType? || step.SetOptions? || step.SetData? {
      ConfigStepKeepsActions(el, step);
    } else if step.SetSrc? || step.SetQuery? || step.SetView? {
      SourceStepKeepsActions(el, step);
    } else {
      EventStepKeepsActions(el, step);
    }
  }

  lemma ConfigStepKeepsActions(el: Element, step: Step)
    requires step.SetType? || step.SetOptions? || step.SetData?
    ensures var r := Apply(el, step);
      r.actions == el.actions && r.attachedActions == el.attachedActions && r.attachedIsActions == el.attachedIsActions
  {
  }

  lemma SourceStepKeepsActions(el: Element, step: Step)
    requires step.SetSrc? || step.SetQuery? || step.SetView?
    ensures var r := Apply(el, step);
      r.actions == el.actions && r.attachedActions == el.attachedActions && r.attachedIsActions == el.attachedIsActions
  {
  }

  lemma EventStepKeepsActions(el: Element, step: Step)
    requires step.SetSelection? || step.DataEvent? || step.DrawFired? || step.Select?
    ensures var r := Apply(el, step);
      r.actions == el.actions && r.attachedActions == el.attachedActions && r.attachedIsActions == el.attachedIsActions
  {
  }



  /**
   A null pushed onto the actions in place makes the observer throw after the
   remembered array, being that same array, already holds it; replacing the
   actions afterwards then throws on the null while removing the old entries,
   so the new action is never registered.
   */
  lemma NullPushBlocksReplacement(el: Element, c: LChart)
    requires el.chart == Some(c) && c.actions.hasActionApi && c.actions.registered.Keys == {"a"}
    requires el.attachedIsActions && el.actions == [Str("a")] && el.attachedActions == [Str("a")]
    ensures var pushed := [Str("a"), Null];
      var e1 := Apply(el, SetActions(ChartActions.Spliced(pushed, [ChartActions.Splice(1, [], 1, pushed)])));
      && e1.thrown.Some? && e1.attachedActions == pushed && e1.attachedIsActions
      && e1.chart.value.actions.registered.Keys == {"a"}
    ensures var pushed := [Str("a"), Null];
      var e1 := Apply(el, SetActions(ChartActions.Spliced(pushed, [ChartActions.Splice(1, [], 1, pushed)])));
      var e2 := Apply(e1, SetActions(ChartActions.Replaced([Str("b")])));
      && e2.thrown.Some? && e2.attachedActions == pushed && !e2.attachedIsActions
      && e2.chart.value.actions.registered.Keys == {}
  {
    var pushed := [Str("a"), Null];
    var splice := ChartActions.Splice(1, [], 1, pushed);
    assert ChartActions.Added(splice) == [Null];
    assert ChartActions.ActionId(Str("a")) == Ok("a");
    var start := ChartActions.Progress(c.actions.registered, None);
    assert ChartActions.RemoveEach(start, []) == start;
    assert ChartActions.AddEach(start, [Null]).thrown.Some?;
    assert ChartActions.AddEach(start, [Null]).registered == c.actions.registered;
    var e1 := Apply(el, SetActions(ChartActions.Spliced(pushed, [splice])));
    var reg1 := e1.chart.value.actions.registered;
    var mid := ChartActions.RemoveEach(ChartActions.Progress(reg1, None), pushed);
    assert mid.thrown.Some? && mid.registered == reg1 - {"a"};
  }


  /**
   The wrapper's `select` listener: the echo flag is set, then the selection
   is read back from the chart. `getSelection()` returns a new array, so the
   write is a change and the `selection` observer runs.
   */
  function OnSelect(el: Element): Element {
    match el.chart
    case None => el
    case Some(c) =>
      var el1 := el.(noReact := true);
      if Changes(el.selection, c.selection, true) then ChangeSelection(el1.(selection := c.selection)) else el1
  }

  /**
   A selection made in the chart is not echoed back: the element takes the
   chart's selection, leaves the chart alone and ends with the flag clear, so
   the next change made by the page is reflected again.
   */
  lemma SelectionEchoSuppressed(el: Element)
    requires el.chart.Some? && el.chart.value.selection.Arr?
    ensures var r := OnSelect(el);
      && r.chart == el.chart && r.selection == el.chart.value.selection && !r.noReact
    ensures var r := OnSelect(el);
      HasMethod(el.chart.value, "setSelection") && !el.selection.Undefined? ==>
        ChangeSelection(r.(selection := el.selection)).chart.value.selection == el.selection
  {
  }

  /** The relays the one-time listener adds: every user event, from the chart `id`. */
  function RelaysFrom(id: nat, events: seq<string>): (r: seq<(nat, string)>)
    ensures |r| == |events|
    ensures forall i :: 0 <= i < |events| ==> r[i] == (id, events[i])
  {
    seq(|events|, i requires 0 <= i < |events| => (id, events[i]))
  }

  /**
   The wrapper fires `ready` for `chart`: the permanent listener stores the
   chart and sets `drawn`; storing a different chart object runs the selection
   and action observers against it. On the wrapper's first `ready` the
   one-time listener relays the user's events from the chart and moves the
   styles unless the type is `column`.
   */
  function OnReady(el: Element, chart: LChart): (r: Element)
    requires el.wrapper.Some?
    ensures r.drawn && r.chart.Some? && r.chart.value.id == chart.id
    ensures r.wrapper.Some? && r.wrapper.value.readied
    ensures el.wrapper.value.readied ==> r.relays == el.relays && r.stylesMoved == el.stylesMoved
    ensures !el.wrapper.value.readied ==>
      && r.relays == el.relays + RelaysFrom(chart.id, el.events)
      && r.stylesMoved == el.stylesMoved + (if el.typ != "column" then 1 else 0)
    ensures el.chart.Some? && el.chart.value.id == chart.id ==>
      r.chart == el.chart && r.selection == el.selection && r.attachedActions == el.attachedActions
  {
    var el3 :=
      if el.chart.Some? && el.chart.value.id == chart.id then el.(drawn := true)
      else TakeOver(el, chart);
    var w := el3.wrapper.value;
    if w.readied then el3
    else
      el3.(wrapper := Some(w.(readied := true)),
           relays := el3.relays + RelaysFrom(chart.id, el.events),
           stylesMoved := if el.typ != "column" then el3.stylesMoved + 1 else el3.stylesMoved)
  }

  /**
   The user's events are relayed from the chart of the wrapper's first `ready`
   only: later `ready` events of the same wrapper relay nothing more.
   */
  lemma ReadyRelaysOncePerWrapper(el: Element, first: LChart, later: LChart)
    requires el.wrapper.Some? && !el.wrapper.value.readied
    ensures var r := OnReady(OnReady(el, first), later);
      r.relays == el.relays + RelaysFrom(first.id, el.events)
  {
  }

  /**
   A new chart object takes over the element's actions: its registry drops
   the ids of the list attached before and registers exactly the ids of the
   current list, which becomes the attached one. A fresh chart with an empty
   registry thus registers the ids of `actions` and nothing else.
   */
  lemma ReadyRegistersActions(el: Element, chart: LChart)
    requires el.wrapper.Some? && (el.chart.None? || el.chart.value.id != chart.id)
    requires chart.actions.hasActionApi
    requires ChartActions.AllPresent(Remembered(el, false)) && ChartActions.AllPresent(el.actions)
    ensures var r := OnReady(el, chart);
      && r.chart.value.actions.registered.Keys
         == (chart.actions.registered.Keys - ChartActions.Ids(Remembered(el, false))) + ChartActions.Ids(el.actions)
      && r.attachedActions == el.actions && r.attachedIsActions && r.thrown == el.thrown
    ensures chart.actions.registered == map[] ==>
      OnReady(el, chart).chart.value.actions.registered.Keys == ChartActions.Ids(el.actions)
  {
    ChartActions.ReplaceResyncs(chart.actions, Remembered(el, false), el.actions);
  }

  /** `_changeData(data)`: the wrapper gets the data and a draw is requested. */
  function ChangeData(el: Element): (r: Element)
    ensures el.wrapper.None? ==> r == el
    ensures el.wrapper.Some? ==> r == el.(wrapper := Some(el.wrapper.value.(dataTable := el.data)), drawPending := true)
  {
    if el.wrapper.None? then el
    else Draw(el.(wrapper := Some(el.wrapper.value.(dataTable := el.data))))
  }

  /** `_changeOptions(options.*)`. */
  function ChangeOptions(el: Element): (r: Element)
    ensures el.wrapper.None? ==> r == el
    ensures el.wrapper.Some? ==> r == el.(wrapper := Some(el.wrapper.value.(options := el.options)), drawPending := true)
  {
    if el.wrapper.None? then el
    else Draw(el.(wrapper := Some(el.wrapper.value.(options := el.options))))
  }

  /** `_changeView(view.*)`. */
  function ChangeView(el: Element): (r: Element)
    ensures el.wrapper.None? ==> r == el
    ensures el.wrapper.Some? ==> r == el.(wrapper := Some(el.wrapper.value.(view := el.view)), drawPending := true)
  {
    if el.wrapper.None? then el
    else Draw(el.(wrapper := Some(el.wrapper.value.(view := el.view))))
  }

  /**
   `_changeSrc(src, query)`: the data table is cleared, the source URL set, and
   the query replaced only by a truthy one; a draw is requested.
   */
  function ChangeSrc(el: Element): (r: Element)
    ensures el.wrapper.None? ==> r == el
    ensures el.wrapper.Some? ==>
      && r.drawPending && r.wrapper.Some?
      && r.wrapper.value.dataTable == Undefined && r.wrapper.value.sourceUrl == el.src
      && r.wrapper.value.query == (if Truthy(el.query) then el.query else el.wrapper.value.query)
  {
    if el.wrapper.None? then el
    else
      var w := el.wrapper.value.(dataTable := Undefined, sourceUrl := el.src);
      var w' := if Truthy(el.query) then w.(query := el.query) else w;
      Draw(el.(wrapper := Some(w')))
  }

  /** The `_changeSrc(src, query)` observer waits until both `src` and `query` are defined. */
  function SrcOrQueryChanged(el: Element): (r: Element)
    ensures el.src.Undefined? || el.query.Undefined? ==> r == el
    ensures !el.src.Undefined? && !el.query.Undefined? ==> r == ChangeSrc(el)
  {
    if el.src.Undefined? || el.query.Undefined? then el else ChangeSrc(el)
  }

  /** `_onDataChanged(evt)`: the event's detail becomes the data, running `_changeData` when it is a change. */
  function OnDataChanged(el: Element, detail: Value, isNew: bool): (r: Element)
    ensures r.data == detail
    ensures !Changes(el.data, detail, isNew) ==> r == el
    ensures Changes(el.data, detail, isNew) && el.wrapper.Some? ==>
      r.drawPending && r.wrapper.Some? && r.wrapper.value.dataTable == detail
  {
    if !Changes(el.data, detail, isNew) then el else ChangeData(el.(data := detail))
  }

  /**
   The element as constructed from `a`: the property values, then the
   effects of every configured one, computed `wrapper` first and then the
   observers in their declared order. An effect of several properties is
   skipped while one of them is undefined.
   */
  function Constructed(a: Attributes): (r: Element)
    ensures r.wrapper.Some? <==> !a.options.Undefined?
    ensures r.wrapper.Some? ==>
      && r.drawPending
      && r.wrapper.value.chartType == ChartTypes.Resolve(ChartTypes.LegacyChartTypes, a.typ)
      && r.wrapper.value.options == a.options && r.wrapper.value.view == a.view
      && r.wrapper.value.sourceUrl == a.src && r.wrapper.value.query == a.query
      && r.wrapper.value.draws == 0 && !r.wrapper.value.readied
    ensures r.wrapper.Some? && (a.src.Undefined? || a.query.Undefined?) ==> r.wrapper.value.dataTable == a.data
    ensures r.wrapper.Some? && !a.src.Undefined? && !a.query.Undefined? ==> r.wrapper.value.dataTable == Undefined
    ensures r.wrapper.None? ==> !r.drawPending
    ensures !r.drawn && r.chart.None? && r.relays == [] && r.attachedActions == [] && !r.attachedIsActions && r.thrown.None?
    ensures r.typ == a.typ && r.data == a.data && r.options == a.options && r.src == a.src && r.query == a.query
    ensures r.view == a.view && r.selection == a.selection && r.events == a.events && r.actions == a.actions
  {
    var el := Element(a.typ, a.data, a.options, a.selection, a.src, a.query, a.view, a.events,
                      false, None, None, false, [], false, a.actions, false, [], 0, None);
    var e0 := WrapperChanged(el);
    var e1 := if a.data.Undefined? then e0 else ChangeData(e0);
    var e2 := if a.options.Undefined? then e1 else ChangeOptions(e1);
    var e3 := SrcOrQueryChanged(e2);
    if a.view.Undefined? then e3 else ChangeView(e3)
  }

  /** The element as constructed from its defaults: a `column` wrapper with `{}` options and a draw pending. */
  const Initial := Constructed(DefaultAttributes)

  /** The inputs an element sees. A property write runs its effects only when it is a change. */
  datatype Step =
    | SetType(t: string)
    | SetOptions(o: Value, isNew: bool)
    | SetData(v: Value, isNew: bool)
    | SetSrc(s: Value, isNew: bool)
    | SetQuery(q: Value, isNew: bool)
    | SetView(v: Value, isNew: bool)
    | SetSelection(v: Value, isNew: bool)
    | SetActions(change: ChartActions.Change)
    | DataEvent(detail: Value, isNew: bool)
    | DrawFired
    | Ready(chart: LChart)
    | Select

  /** The step writes a property the value it already holds, so Polymer runs none of its effects. */
  predicate WritesHeldValue(el: Element, step: Step) {
    match step
    case SetType(t) => t == el.typ
    case SetOptions(o, isNew) => !Changes(el.options, o, isNew)
    case SetData(v, isNew) => !Changes(el.data, v, isNew)
    case SetSrc(s, isNew) => !Changes(el.src, s, isNew)
    case SetQuery(q, isNew) => !Changes(el.query, q, isNew)
    case SetView(v, isNew) => !Changes(el.view, v, isNew)
    case SetSelection(v, isNew) => !Changes(el.selection, v, isNew)
    case _ => false
  }

  /** The effects each property write runs: the computed `wrapper` first, then the observers in declared order. */
  function Apply(el: Element, step: Step): (r: Element)
    ensures WritesHeldValue(el, step) ==> r == el
    ensures step.SetType? ==> r.typ == step.t
    ensures step.SetOptions? ==> r.options == step.o
    ensures step.SetData? ==> r.data == step.v
    ensures step.SetSrc? ==> r.src == step.s
    ensures step.SetQuery? ==> r.query == step.q
    ensures step.SetView? ==> r.view == step.v
    ensures step.SetSelection? ==> r.selection == step.v
    ensures step.SetActions? ==> r.actions == step.change.base
    ensures step.Ready? && el.wrapper.None? ==> r == el
  {
    match step
    case SetType(t) => if t == el.typ then el else WrapperChanged(el.(typ := t))
    case SetOptions(o, isNew) =>
      if !Changes(el.options, o, isNew) then el else ChangeOptions(WrapperChanged(el.(options := o)))
    case SetData(v, isNew) => if !Changes(el.data, v, isNew) then el else ChangeData(el.(data := v))
    case SetSrc(s, isNew) => if !Changes(el.src, s, isNew) then el else SrcOrQueryChanged(el.(src := s))
    case SetQuery(q, isNew) => if !Changes(el.query, q, isNew) then el else SrcOrQueryChanged(el.(query := q))
    case SetView(v, isNew) => if !Changes(el.view, v, isNew) then el else ChangeView(el.(view := v))
    case SetSelection(v, isNew) =>
      if !Changes(el.selection, v, isNew) then el else ChangeSelection(el.(selection := v))
    case SetActions(change) => ChangeActions(el.(actions := change.base), change, change.Replaced?)
    case DataEvent(detail, isNew) => OnDataChanged(el, detail, isNew)
    case DrawFired => FireDraw(el)
    case Ready(chart) => if el.wrapper.Some? then OnReady(el, chart) else el
    case Select => OnSelect(el)
  }

  /** The inputs in order. Writing back the values the element holds, any number of times, changes nothing. */
  function Run(el: Element, steps: seq<Step>): (r: Element)
    ensures (forall i | 0 <= i < |steps| :: WritesHeldValue(el, steps[i])) ==> r == el
    decreases |steps|
  {
    if steps == [] then el else Run(Apply(el, steps[0]), steps[1..])
  }

  /**
   A chart configured with a data source URL draws from it: the wrapper is
   built with `src` and the pending draw goes ahead although no table is set.
   Since `_changeSrc(src, query)` waits for both properties, a later `src`
   reaches the wrapper only when `query` is defined too; otherwise the
   wrapper keeps the URL it was built with.
   */
  lemma SourceUrlDraws(a: Attributes, s: Value, isNew: bool)
    requires !a.options.Undefined? && Truthy(a.src)
    ensures var r := FireDraw(Constructed(a));
      r.wrapper.value.draws == 1 && r.wrapper.value.sourceUrl == a.src
    ensures a.query.Undefined? ==> Apply(Constructed(a), SetSrc(s, isNew)).wrapper.value.sourceUrl == a.src
    ensures !a.query.Undefined? && !s.Undefined? && Changes(a.src, s, isNew) ==>
      var r := Apply(Constructed(a), SetSrc(s, isNew));
      r.wrapper.value.sourceUrl == s && r.wrapper.value.dataTable == Undefined && r.drawPending
  {
    SourceUrlFirstDraw(a);
    SourceWrite(a, s, isNew);
  }

  lemma SourceUrlFirstDraw(a: Attributes)
    requires !a.options.Undefined? && Truthy(a.src)
    ensures var r := FireDraw(Constructed(a));
      r.wrapper.value.draws == 1 && r.wrapper.value.sourceUrl == a.src
  {
  }

  lemma SourceWrite(a: Attributes, s: Value, isNew: bool)
    requires !a.options.Undefined? && Truthy(a.src)
    ensures a.query.Undefined? ==> Apply(Constructed(a), SetSrc(s, isNew)).wrapper.value.sourceUrl == a.src
    ensures !a.query.Undefined? && !s.Undefined? && Changes(a.src, s, isNew) ==>
      var r := Apply(Constructed(a), SetSrc(s, isNew));
      r.wrapper.value.sourceUrl == s && r.wrapper.value.dataTable == Undefined && r.drawPending
  {
    var c := Constructed(a);
    if Changes(a.src, s, isNew) {
      assert Apply(c, SetSrc(s, isNew)) == SrcOrQueryChanged(c.(src := s));
    }
  }

  /**
   Data and view writes coalesce into one draw: however many of them land
   before the debounce fires, the wrapper ends up holding the latest data and
   view, a pending draw stays pending, and the chart is drawn at most once,
   exactly when a draw is pending and there is a table or a URL to draw.
   */
  lemma {:induction false} DataWritesCoalesce(el: Element, steps: seq<Step>)
    requires el.wrapper.Some? && el.wrapper.value.dataTable == el.data && el.wrapper.value.view == el.view
    requires forall k :: 0 <= k < |steps| ==> steps[k].SetData? || steps[k].SetView?
    ensures var r := Run(el, steps);
      && r.wrapper == Some(el.wrapper.value.(dataTable := r.data, view := r.view))
      && (el.drawPending ==> r.drawPending)
    ensures var r := FireDraw(Run(el, steps));
      && r.wrapper.value.draws <= el.wrapper.value.draws + 1
      && (r.wrapper.value.draws == el.wrapper.value.draws + 1 <==>
            Run(el, steps).drawPending && (Truthy(Run(el, steps).data) || Truthy(el.wrapper.value.sourceUrl)))
    decreases |steps|
  {
    if steps != [] {
      var e1 := Apply(el, steps[0]);
      assert e1.wrapper == Some(el.wrapper.value.(dataTable := e1.data, view := e1.view));
      assert forall k :: 0 <= k < |steps[1..]| ==> steps[1..][k] == steps[k + 1];
      DataWritesCoalesce(e1, steps[1..]);
    }
  }

  /** Whenever the element says it is drawn, it has the chart `execute` and `imageURI` read. */
  predicate DrawnHasChart(el: Element) {
    el.drawn ==> el.chart.Some?
  }

  lemma StepKeepsDrawnHasChart(el: Element, step: Step)
    requires DrawnHasChart(el)
    ensures DrawnHasChart(Apply(el, step))
  {
  }

  /**
   Over any run from a state where `drawn` implies a chart, `execute` and
   `imageURI` never read a missing chart: the only way they throw is a chart
   that lacks the method asked for.
   */
  lemma {:induction false} RunKeepsDrawnHasChart(el: Element, steps: seq<Step>, command: string, result: Value)
    requires DrawnHasChart(el)
    ensures DrawnHasChart(Run(el, steps))
    ensures var r := Run(el, steps);
      Execute(r, command, result).Err? ==> r.chart.Some? && !HasMethod(r.chart.value, command)
    ensures var r := Run(el, steps);
      ImageUri(r).Err? ==> r.chart.Some? && !HasMethod(r.chart.value, "getImageURI")
    decreases |steps|
  {
    if steps != [] {
      StepKeepsDrawnHasChart(el, steps[0]);
      RunKeepsDrawnHasChart(Apply(el, steps[0]), steps[1..], command, result);
    }
  }

  /**
   From construction on, `execute(command)` answers null until the chart is
   drawn, and afterwards throws exactly when the drawn chart lacks `command`;
   `imageURI` likewise throws exactly for a drawn chart without `getImageURI`.
   */
  lemma OnlyMissingMethodsThrow(steps: seq<Step>, command: string, result: Value)
    ensures var r := Run(Initial, steps);
      && (!r.drawn ==> Execute(r, command, result) == Ok(Null) && ImageUri(r) == Ok(Null))
      && (Execute(r, command, result).Err? <==> r.drawn && r.chart.Some? && !HasMethod(r.chart.value, command))
      && (ImageUri(r).Err? <==> r.drawn && r.chart.Some? && !HasMethod(r.chart.value, "getImageURI"))
  {
    RunKeepsDrawnHasChart(Initial, steps, command, result);
  }
}

=== FILE: loader.dfy ===
/**
 The ES-module loader used by the TypeScript element (src/loader.ts). The files
 loader.ts and loader.js hold the same three pieces of logic line for line, so
 one model stands for all three copies:

 - the loader-script decision taken once when the module is evaluated;
 - `load(settings)`, which fills in default settings before calling
   `google.charts.load`;
 - `dataTable(data)`, a priority-ordered dispatch on the shape of its argument.

 The library objects the dispatch produces are opaque: a `TableSource` only
 records which constructor is chosen and with what argument.
 */
module Loader {
  import opened Js

  const LoaderUrl := "https://www.gstatic.com/charts/loader.js"

  const DataWasEmpty := "Data was empty."
  const FormatNotRecognized := "Data format was not recognized."

  /** Which library call builds the DataTable. */
  datatype TableSource =
    | NewEmptyTable               // new DataTable()
    | ExistingTable(table: Value) // the argument itself
    | ObjectFormat(spec: Value)   // new DataTable(data)
    | ArrayFormat(rows: Value)    // arrayToDataTable(data)

  /** An existing DataTable is recognised by a truthy `getNumberOfRows`. */
  predicate LooksLikeDataTable(data: Value)
    requires !Nullish(data)
  {
    Truthy(Get(data, "getNumberOfRows"))
  }

  /** The object format carries a truthy `cols`; `rows` is optional. */
  predicate HasColumns(data: Value)
    requires !Nullish(data)
  {
    Truthy(Get(data, "cols"))
  }

  /**
   `dataTable(data)`: null or undefined gives an empty table; an existing
   DataTable is returned unchanged, ahead of the `cols` test; an object with
   `cols` goes to the object format; anything whose `length` exceeds 0 goes to
   the 2D-array conversion; a `length` of exactly 0 throws "Data was empty.";
   every other argument throws "Data format was not recognized.".
   */
  function DataTable(data: Value): (r: Result<TableSource>)
    ensures r == Ok(NewEmptyTable) <==> Nullish(data)
    ensures r == Ok(ExistingTable(data)) <==> !Nullish(data) && LooksLikeDataTable(data)
    ensures r == Ok(ObjectFormat(data)) <==>
      !Nullish(data) && !LooksLikeDataTable(data) && HasColumns(data)
    ensures r == Ok(ArrayFormat(data)) <==>
      !Nullish(data) && !LooksLikeDataTable(data) && !HasColumns(data)
      && GreaterThanZero(Get(data, "length"))
    ensures r == Err(Thrown(DataWasEmpty)) <==>
      !Nullish(data) && !LooksLikeDataTable(data) && !HasColumns(data)
      && !GreaterThanZero(Get(data, "length")) && Get(data, "length") == Num(0)
    ensures r.Ok? || r == Err(Thrown(DataWasEmpty)) || r == Err(Thrown(FormatNotRecognized))
  {
    if Nullish(data) then Ok(NewEmptyTable)
    else if Truthy(Get(data, "getNumberOfRows")) then Ok(ExistingTable(data))
    else if Truthy(Get(data, "cols")) then Ok(ObjectFormat(data))
    else if GreaterThanZero(Get(data, "length")) then Ok(ArrayFormat(data))
    else if Get(data, "length") == Num(0) then Err(Thrown(DataWasEmpty))
    else Err(Thrown(FormatNotRecognized))
  }

  /**
   An object whose `getNumberOfRows` reads truthy, own or inherited, is
   returned as it is, whatever else it carries: the DataTable test has
   priority over the `cols` and `length` tests.
   */
  lemma ExistingTableWinsOverColumns(fields: seq<Field>)
    requires Truthy(Get(Obj(fields), "getNumberOfRows"))
    ensures DataTable(Obj(fields)) == Ok(ExistingTable(Obj(fields)))
    ensures Truthy(Get(Obj(fields), "cols")) ==> DataTable(Obj(fields)) != Ok(ObjectFormat(Obj(fields)))
  {
  }

  /**
   Plain objects, the shape JSON data takes: an object that does not own
   `getNumberOfRows` is recognised only by an own `cols` array (its `rows`
   are optional and never looked at); one owning neither `cols` nor `length`
   is not recognised at all.
   */
  lemma JsonShapes(fields: seq<Field>)
    requires OwnLookup(fields, "getNumberOfRows").None?
    ensures (exists cols :: OwnLookup(fields, "cols") == Some(Arr(cols))) ==>
      DataTable(Obj(fields)) == Ok(ObjectFormat(Obj(fields)))
    ensures OwnLookup(fields, "cols").None? && OwnLookup(fields, "length").None? ==>
      DataTable(Obj(fields)) == Err(Thrown(FormatNotRecognized))
  {
  }

  /**
   Every value that is not a plain object is judged by its `length` alone:
   an array or a string goes to `arrayToDataTable` exactly when it is
   non-empty and is "empty" otherwise, and numbers and booleans, which have no
   `length`, are never recognised.
   */
  lemma ScalarShapes(v: Value)
    ensures v.Arr? ==> (DataTable(v) == Ok(ArrayFormat(v)) <==> |v.items| > 0)
    ensures v.Arr? ==> (DataTable(v) == Err(Thrown(DataWasEmpty)) <==> |v.items| == 0)
    ensures v.Str? ==> (DataTable(v) == Ok(ArrayFormat(v)) <==> |v.s| > 0)
    ensures v.Str? ==> (DataTable(v) == Err(Thrown(DataWasEmpty)) <==> |v.s| == 0)
    ensures v.Num? || v.Bool? ==> DataTable(v) == Err(Thrown(FormatNotRecognized))
  {
  }

  /** What `google.charts.load` receives from `load(settings)`. */
  datatype LoadCall = LoadCall(version: Value, packages: Value, language: Value, mapsApiKey: Value)

  /** A destructuring default: it applies only when the property is undefined. */
  function Default(v: Value, fallback: Value): (r: Value)
    ensures v != Undefined ==> r == v
    ensures v == Undefined ==> r == fallback
  {
    if v.Undefined? then fallback else v
  }

  /**
   `load(settings = {})`: a missing argument stands for `{}`; destructuring
   null throws. Each setting left undefined takes its default — `current`,
   `['corechart']`, the document's `lang` or else `en` — and every supplied
   setting, `mapsApiKey` included, is passed through as given.
   */
  function LoadSettings(settings: Value, documentLang: string): (r: Result<LoadCall>)
    ensures r.Err? <==> settings.Null?
    ensures settings.Undefined? ==>
      r == Ok(LoadCall(Str("current"), Arr([Str("corechart")]),
                       Str(if documentLang != "" then documentLang else "en"), Undefined))
    ensures !Nullish(settings) ==>
      && r.Ok?
      && (Get(settings, "version") != Undefined ==> r.value.version == Get(settings, "version"))
      && (Get(settings, "version") == Undefined ==> r.value.version == Str("current"))
      && (Get(settings, "packages") != Undefined ==> r.value.packages == Get(settings, "packages"))
      && (Get(settings, "packages") == Undefined ==> r.value.packages == Arr([Str("corechart")]))
      && (Get(settings, "language") != Undefined ==> r.value.language == Get(settings, "language"))
      && (Get(settings, "language") == Undefined ==>
            r.value.language == Str(if documentLang != "" then documentLang else "en"))
      && r.value.mapsApiKey == Get(settings, "mapsApiKey")
  {
    if settings.Null? then Err(TypeError("Cannot destructure 'settings' as it is null."))
    else
      var s := if settings.Undefined? then Obj([]) else settings;
      Ok(LoadCall(
        Default(Get(s, "version"), Str("current")),
        Default(Get(s, "packages"), Arr([Str("corechart")])),
        Default(Get(s, "language"), Or(Str(documentLang), Str("en"))),
        Get(s, "mapsApiKey")))
  }

  /**
   Unset settings read their defaults even when other settings are given, and
   a setting given as null is passed on as null rather than defaulted.
   */
  lemma LoadDefaultsOnlyForUndefined(version: Value, documentLang: string)
    requires version != Undefined
    ensures var r := LoadSettings(Obj([Field("version", version)]), documentLang);
      && r.Ok?
      && r.value.version == version
      && r.value.packages == Arr([Str("corechart")])
      && r.value.language == Str(if documentLang != "" then documentLang else "en")
      && r.value.mapsApiKey == Undefined
  {
    var fields := [Field("version", version)];
    assert fields[1..] == [];
    assert OwnLookup(fields, "packages") == None;
    assert OwnLookup(fields, "language") == None;
    assert OwnLookup(fields, "mapsApiKey") == None;
  }

  /** The page as the loader sees it: the `google` global and the `src` of every script element. */
  datatype Page = Page(google: Value, scripts: seq<string>)

  /** What the loader promise waits for once the module is evaluated. */
  datatype LoaderStart =
    | AlreadyAvailable        // resolved at once
    | AwaitScript             // waits for the loader script's load or error event
    | Rejected(error: Error)  // the executor threw

  /** `typeof google !== 'undefined' && google.charts && typeof google.charts.load === 'function'`. */
  function ApiAvailable(google: Value): Result<bool> {
    if google.Undefined? then Ok(false)
    else if google.Null? then Err(TypeError("Cannot read properties of null (reading 'charts')"))
    else
      var charts := Get(google, "charts");
      Ok(Truthy(charts) && Get(charts, "load").Func?)
  }

  function CountLoaderScripts(scripts: seq<string>): nat {
    if scripts == [] then 0
    else (if scripts[0] == LoaderUrl then 1 else 0) + CountLoaderScripts(scripts[1..])
  }

  /**
   The loader-script decision: nothing is added when the API is already there;
   an existing loader script is reused; otherwise one loader script is appended.
   */
  function StartLoader(page: Page): (r: (Page, LoaderStart))
    ensures r.0.google == page.google
    ensures r.1 == AlreadyAvailable <==> ApiAvailable(page.google) == Ok(true)
    ensures r.1 == AwaitScript <==> ApiAvailable(page.google) == Ok(false)
    ensures ApiAvailable(page.google).Err? ==> r.1 == Rejected(ApiAvailable(page.google).error)
    ensures r.1 == AlreadyAvailable ==> r.0 == page
    ensures r.1.Rejected? ==> r.0 == page
    ensures r.1 == AwaitScript ==> LoaderUrl in r.0.scripts
    ensures r.1 == AwaitScript && LoaderUrl in page.scripts ==> r.0 == page
    ensures r.0 != page ==> r.0.scripts == page.scripts + [LoaderUrl] && LoaderUrl !in page.scripts
  {
    match ApiAvailable(page.google)
    case Err(e) => (page, Rejected(e))
    case Ok(true) => (page, AlreadyAvailable)
    case Ok(false) =>
      if LoaderUrl in page.scripts then (page, AwaitScript)
      else (page.(scripts := page.scripts + [LoaderUrl]), AwaitScript)
  }

  /** Why the loader promise rejected: the executor threw, or the script fired `error` with this event. */
  datatype Reason = ExecutorThrew(error: Error) | ErrorEvent(event: Value)

  /** The loader promise: still pending, resolved, or rejected. */
  datatype Outcome = Pending | Resolved | Failed(reason: Reason)

  /** An event the loader script fires: `load`, or `error` with its event object. */
  datatype ScriptEvent = ScriptLoad | ScriptError(event: Value)

  /** The promise as the executor leaves it. */
  function Started(start: LoaderStart): (r: Outcome)
    ensures r == Resolved <==> start == AlreadyAvailable
    ensures r == Pending <==> start == AwaitScript
    ensures start.Rejected? ==> r == Failed(ExecutorThrew(start.error))
    ensures r.Failed? ==> start.Rejected?
  {
    match start
    case AlreadyAvailable => Resolved
    case AwaitScript => Pending
    case Rejected(e) => Failed(ExecutorThrew(e))
  }

  /**
   An event of the loader script reaching the promise. Only the waiting
   executor registered listeners (`load` resolves, `error` rejects with the
   event), and a settled promise ignores any later `resolve` or `reject`.
   */
  function ScriptEventArrives(start: LoaderStart, o: Outcome, ev: ScriptEvent): (r: Outcome)
    ensures start != AwaitScript || !o.Pending? ==> r == o
    ensures start == AwaitScript && o.Pending? ==> !r.Pending?
    ensures start == AwaitScript && o.Pending? ==> (r == Resolved <==> ev == ScriptLoad)
    ensures start == AwaitScript && o.Pending? && ev.ScriptError? ==> r == Failed(ErrorEvent(ev.event))
  {
    if start != AwaitScript || !o.Pending? then o
    else match ev
      case ScriptLoad => Resolved
      case ScriptError(e) => Failed(ErrorEvent(e))
  }

  /** The promise after the script's events, in the order they fire. */
  function LoaderOutcome(start: LoaderStart, events: seq<ScriptEvent>): Outcome
    decreases |events|
  {
    if events == [] then Started(start)
    else ScriptEventArrives(start, LoaderOutcome(start, events[..|events| - 1]), events[|events| - 1])
  }

  /**
   The loader promise settles once: a promise that resolved or rejected at
   evaluation stays so whatever the script fires; a waiting one stays pending
   until the script's first event, and that event alone decides the outcome.
   */
  lemma {:induction false} LoaderSettlesOnFirstEvent(start: LoaderStart, events: seq<ScriptEvent>)
    ensures start != AwaitScript ==> LoaderOutcome(start, events) == Started(start)
    ensures start == AwaitScript && events == [] ==> LoaderOutcome(start, events) == Pending
    ensures start == AwaitScript && events != [] ==>
      LoaderOutcome(start, events) == (match events[0]
        case ScriptLoad => Resolved
        case ScriptError(e) => Failed(ErrorEvent(e)))
    decreases |events|
  {
    if events != [] {
      var init := events[..|events| - 1];
      LoaderSettlesOnFirstEvent(start, init);
      if init != [] {
        assert init[0] == events[0];
      }
    }
  }

  /** The page after `n` copies of the loader module have been evaluated. */
  function EvaluateCopies(page: Page, n: nat): Page
    decreases n
  {
    if n == 0 then page else EvaluateCopies(StartLoader(page).0, n - 1)
  }

  lemma {:induction false} CountAppendLoader(scripts: seq<string>)
    ensures CountLoaderScripts(scripts + [LoaderUrl]) == CountLoaderScripts(scripts) + 1
    decreases |scripts|
  {
    if scripts == [] {
      assert scripts + [LoaderUrl] == [LoaderUrl];
    } else {
      assert (scripts + [LoaderUrl])[1..] == scripts[1..] + [LoaderUrl];
      CountAppendLoader(scripts[1..]);
    }
  }

  lemma {:induction false} CountZeroAbsent(scripts: seq<string>)
    requires CountLoaderScripts(scripts) == 0
    ensures LoaderUrl !in scripts
    decreases |scripts|
  {
    if scripts != [] {
      CountZeroAbsent(scripts[1..]);
    }
  }

  /**
   However many copies of the module are evaluated, at most one loader script
   is ever injected: a page with at most one keeps at most one, and a page
   without the API and without the script ends with exactly one.
   */
  lemma {:induction false} LoaderScriptAtMostOnce(page: Page, n: nat)
    requires CountLoaderScripts(page.scripts) <= 1
    ensures CountLoaderScripts(EvaluateCopies(page, n).scripts) <= 1
    ensures n > 0 && ApiAvailable(page.google) == Ok(false) ==>
      CountLoaderScripts(EvaluateCopies(page, n).scripts) == 1
    ensures ApiAvailable(page.google) != Ok(false) ==> EvaluateCopies(page, n) == page
    decreases n
  {
    if n > 0 {
      var page1 := StartLoader(page).0;
      if page1 != page {
        CountAppendLoader(page.scripts);
        assert CountLoaderScripts(page.scripts) == 0 by {
          if CountLoaderScripts(page.scripts) != 0 {
            LoaderPresentCounts(page.scripts);
          }
        }
      } else if ApiAvailable(page.google) == Ok(false) {
        assert LoaderUrl in page.scripts;
        LoaderPresentCounts(page.scripts);
      }
      LoaderScriptAtMostOnce(page1, n - 1);
    }
  }

  lemma {:induction false} LoaderPresentCounts(scripts: seq<string>)
    ensures LoaderUrl in scripts <==> CountLoaderScripts(scripts) >= 1
    decreases |scripts|
  {
    if scripts != [] {
      LoaderPresentCounts(scripts[1..]);
      assert forall x :: x in scripts <==> x == scripts[0] || x in scripts[1..];
    }
  }
}

=== FILE: package_loader.dfy ===
/**
 The shared package loader of the Polymer 1 elements (google-chart-loader.js).

 The module keeps one object `packagesLoaded` of package names already handed
 to `google.charts.load`, and the promise of the most recent load. A package is
 marked at the moment it is requested, not when the library calls back, so a
 name is never requested twice during the module's lifetime. Promises are
 modelled by handles: the handle of a load is the index of its request in the
 log of requests issued so far.
 */
module PackageLoader {
  import opened Js

  /** The configuration read once when the module is evaluated. */
  datatype Config = Config(version: string, packages: seq<string>, language: string)

  /** One call of `google.charts.load(version, {packages, language, callback})`. */
  datatype LoadRequest = LoadRequest(version: string, packages: seq<string>, language: string)

  /**
   The module's state: the own keys of `packagesLoaded`, the handle held by
   `mostRecentLoad` (None while it is still null) and every request issued.
   */
  datatype State = State(
    config: Config,
    own: set<string>,
    mostRecentLoad: Option<nat>,
    requests: seq<LoadRequest>)

  function Initial(config: Config): State {
    State(config, {}, None, [])
  }

  /**
   The configured defaults: each setting of `google.visualization` wins when it
   is non-empty; the language falls back to the document's `lang` and then to
   English, the version to `current` and the packages to `corechart`. The
   configured package list is used whenever it is present, even when empty
   (an empty array is truthy).
   */
  function Configure(vizLanguage: string, documentLang: string,
                     vizPackages: Option<seq<string>>, vizVersion: string): (c: Config)
    ensures c.language != "" && c.version != ""
    ensures vizLanguage != "" ==> c.language == vizLanguage
    ensures vizLanguage == "" && documentLang != "" ==> c.language == documentLang
    ensures vizLanguage == "" && documentLang == "" ==> c.language == "en"
    ensures vizVersion != "" ==> c.version == vizVersion
    ensures vizVersion == "" ==> c.version == "current"
    ensures vizPackages.Some? ==> c.packages == vizPackages.value
    ensures vizPackages.None? ==> c.packages == ["corechart"]
  {
    var language := ToJsString(Or(Or(Str(vizLanguage), Str(documentLang)), Str("en")));
    var version := ToJsString(Or(Str(vizVersion), Str("current")));
    var packages := match vizPackages case Some(p) => p case None => ["corechart"];
    Config(version, packages, language)
  }

  /**
   Whether `packagesLoaded[pkg]` is truthy: an own key, or one of the members
   every object inherits from `Object.prototype`.
   */
  predicate Marked(own: set<string>, pkg: string) {
    pkg in own || Truthy(Inherited(pkg))
  }

  /**
   The `reduce` of `load`: walks the packages left to right, marking each one
   not yet marked and collecting it into `packagesToLoad`. Returns the own keys
   afterwards and the collected packages.
   */
  function MarkAndCollect(own: set<string>, pkgs: seq<string>): (set<string>, seq<string>)
    decreases |pkgs|
  {
    if pkgs == [] then (own, [])
    else if !Marked(own, pkgs[0]) then
      var rest := MarkAndCollect(own + {pkgs[0]}, pkgs[1..]);
      (rest.0, [pkgs[0]] + rest.1)
    else MarkAndCollect(own, pkgs[1..])
  }

  predicate NoDuplicates(s: seq<string>) {
    forall i, j :: 0 <= i < j < |s| ==> s[i] != s[j]
  }

  /** The position of the first occurrence of `x` in `s`. */
  function FirstIndex(s: seq<string>, x: string): (k: nat)
    requires x in s
    ensures k < |s| && s[k] == x && x !in s[..k]
  {
    if s[0] == x then 0
    else
      var k := FirstIndex(s[1..], x) + 1;
      assert s[..k] == [s[0]] + s[1..][..k - 1];
      k
  }

  lemma FirstIndexTail(s: seq<string>, x: string)
    requires x in s && s[0] != x
    ensures x in s[1..] && FirstIndex(s, x) == FirstIndex(s[1..], x) + 1
  {
  }

  /**
   The reduce marks exactly the packages it is given (the set only grows), and
   collects each not-yet-marked package once, in the order of its first
   occurrence in the argument.
   */
  lemma MarkAndCollectSpec(own: set<string>, pkgs: seq<string>)
    ensures own <= MarkAndCollect(own, pkgs).0
    ensures forall p :: p in MarkAndCollect(own, pkgs).0 <==> p in own || p in MarkAndCollect(own, pkgs).1
    ensures forall p :: Marked(MarkAndCollect(own, pkgs).0, p) <==> Marked(own, p) || p in pkgs
    ensures forall p :: p in MarkAndCollect(own, pkgs).1 <==> p in pkgs && !Marked(own, p)
    ensures NoDuplicates(MarkAndCollect(own, pkgs).1)
    ensures Ordered(pkgs, MarkAndCollect(own, pkgs).1)
  {
    MarkAndCollectMembers(own, pkgs);
    MarkAndCollectOrdered(own, pkgs);
  }

  /** Which packages end up marked and which are collected. */
  lemma {:induction false} MarkAndCollectMembers(own: set<string>, pkgs: seq<string>)
    ensures own <= MarkAndCollect(own, pkgs).0
    ensures forall p :: p in MarkAndCollect(own, pkgs).0 <==> p in own || p in MarkAndCollect(own, pkgs).1
    ensures forall p :: Marked(MarkAndCollect(own, pkgs).0, p) <==> Marked(own, p) || p in pkgs
    ensures forall p :: p in MarkAndCollect(own, pkgs).1 <==> p in pkgs && !Marked(own, p)
    decreases |pkgs|
  {
    if pkgs == [] {
      return;
    }
    var p0 := pkgs[0];
    var tail := pkgs[1..];
    assert forall p :: p in pkgs <==> p == p0 || p in tail;
    if !Marked(own, p0) {
      MarkAndCollectMembers(own + {p0}, tail);
    } else {
      MarkAndCollectMembers(own, tail);
    }
  }

  /** The collected packages are distinct and in first-occurrence order. */
  lemma {:induction false} MarkAndCollectOrdered(own: set<string>, pkgs: seq<string>)
    ensures forall p :: p in MarkAndCollect(own, pkgs).1 ==> p in pkgs
    ensures NoDuplicates(MarkAndCollect(own, pkgs).1)
    ensures Ordered(pkgs, MarkAndCollect(own, pkgs).1)
    decreases |pkgs|
  {
    MarkAndCollectMembers(own, pkgs);
    if pkgs != [] {
      if !Marked(own, pkgs[0]) {
        MarkAndCollectOrdered(own + {pkgs[0]}, pkgs[1..]);
        OrderedAfterNew(own, pkgs);
      } else {
        MarkAndCollectOrdered(own, pkgs[1..]);
        OrderedAfterMarked(own, pkgs);
      }
    }
  }

  /** Every element of `t` occurs in `pkgs`, and earlier in `t` means first occurring earlier in `pkgs`. */
  ghost predicate Ordered(pkgs: seq<string>, t: seq<string>) {
    && (forall p :: p in t ==> p in pkgs)
    && (forall i, j :: 0 <= i < j < |t| ==> FirstIndex(pkgs, t[i]) < FirstIndex(pkgs, t[j]))
  }

  lemma OrderedAfterNew(own: set<string>, pkgs: seq<string>)
    requires pkgs != [] && !Marked(own, pkgs[0])
    requires NoDuplicates(MarkAndCollect(own + {pkgs[0]}, pkgs[1..]).1)
    requires Ordered(pkgs[1..], MarkAndCollect(own + {pkgs[0]}, pkgs[1..]).1)
    ensures NoDuplicates(MarkAndCollect(own, pkgs).1)
    ensures Ordered(pkgs, MarkAndCollect(own, pkgs).1)
  {
    var p0 := pkgs[0];
    var own1 := own + {p0};
    MarkAndCollectMembers(own1, pkgs[1..]);
    var t' := MarkAndCollect(own1, pkgs[1..]).1;
    var t := MarkAndCollect(own, pkgs).1;
    assert t == [p0] + t';
    assert p0 !in t';
    forall p | p in t ensures p in pkgs {
      if p != p0 {
        assert p in t';
        assert p in pkgs[1..];
      }
    }
    forall i, j | 0 <= i < j < |t|
      ensures FirstIndex(pkgs, t[i]) < FirstIndex(pkgs, t[j])
    {
      assert t[j] == t'[j - 1] && t[j] != p0;
      FirstIndexTail(pkgs, t[j]);
      if i > 0 {
        assert t[i] == t'[i - 1] && t[i] != p0;
        FirstIndexTail(pkgs, t[i]);
      }
    }
  }

  lemma OrderedAfterMarked(own: set<string>, pkgs: seq<string>)
    requires pkgs != [] && Marked(own, pkgs[0])
    requires Ordered(pkgs[1..], MarkAndCollect(own, pkgs[1..]).1)
    ensures Ordered(pkgs, MarkAndCollect(own, pkgs).1)
  {
    var tail := pkgs[1..];
    MarkAndCollectMembers(own, tail);
    var t := MarkAndCollect(own, pkgs).1;
    assert t == MarkAndCollect(own, tail).1;
    assert forall p :: p in t ==> !Marked(own, p);
    forall p | p in t ensures p in pkgs {
      assert p in tail;
    }
    forall i, j | 0 <= i < j < |t|
      ensures FirstIndex(pkgs, t[i]) < FirstIndex(pkgs, t[j])
    {
      assert t[i] in t && t[j] in t;
      assert t[i] != pkgs[0] && t[j] != pkgs[0];
      FirstIndexTail(pkgs, t[i]);
      FirstIndexTail(pkgs, t[j]);
    }
  }

  /**
   `load(packages)`: requests the packages not yet marked, in first-occurrence
   order, and makes the new load the most recent one. When nothing is new no
   request is issued and the most recent load (possibly still null) is returned.
   */
  function Load(st: State, pkgs: seq<string>): (r: (State, Option<nat>))
    ensures r.0.config == st.config
    ensures st.own <= r.0.own
    ensures forall p :: Marked(r.0.own, p) <==> Marked(st.own, p) || p in pkgs
    ensures (forall p :: p in pkgs ==> Marked(st.own, p)) ==> r == (st, st.mostRecentLoad)
    ensures (exists p :: p in pkgs && !Marked(st.own, p)) ==>
      && |r.0.requests| == |st.requests| + 1
      && r.0.requests[..|st.requests|] == st.requests
      && r.1 == Some(|st.requests|)
      && r.0.mostRecentLoad == r.1
      && r.0.requests[|st.requests|].version == st.config.version
      && r.0.requests[|st.requests|].language == st.config.language
      && (forall p :: p in r.0.requests[|st.requests|].packages <==> p in pkgs && !Marked(st.own, p))
      && NoDuplicates(r.0.requests[|st.requests|].packages)
  {
    MarkAndCollectSpec(st.own, pkgs);
    var (own', toLoad) := MarkAndCollect(st.own, pkgs);
    if |toLoad| == 0 then
      assert own' == st.own;
      (st.(own := own'), st.mostRecentLoad)
    else
      assert toLoad[0] in toLoad;
      var handle := |st.requests|;
      var request := LoadRequest(st.config.version, toLoad, st.config.language);
      (st.(own := own', mostRecentLoad := Some(handle), requests := st.requests + [request]), Some(handle))
  }

  /** The packages a new loader asks for: the configured ones, then the extras. */
  function Wanted(st: State, optPackages: Option<seq<string>>): seq<string> {
    st.config.packages + (match optPackages case Some(x) => x case None => [])
  }

  /**
   `new GoogleChartLoader(opt_packages)`: loads the configured packages
   followed by the extras and keeps the returned promise; `then` on a null
   `mostRecentLoad` throws.
   */
  function NewGoogleChartLoader(st: State, optPackages: Option<seq<string>>): (r: Result<(State, nat)>)
    ensures r.Ok? <==> (exists p :: p in Wanted(st, optPackages) && !Marked(st.own, p)) || st.mostRecentLoad.Some?
    ensures r.Ok? ==> Load(st, Wanted(st, optPackages)) == (r.value.0, Some(r.value.1))
    ensures r.Err? ==> Load(st, Wanted(st, optPackages)) == (st, None)
  {
    var (st', goog) := Load(st, Wanted(st, optPackages));
    match goog
    case None => Err(TypeError("Cannot read properties of null (reading 'then')"))
    case Some(h) => Ok((st', h))
  }

  /** The most recent load is the last request issued (null before the first). */
  ghost predicate RecentIsLast(st: State) {
    st.mostRecentLoad == (if st.requests == [] then None else Some(|st.requests| - 1))
  }

  lemma {:induction false} RequestedHasIndex(reqs: seq<LoadRequest>, p: string)
    requires p in Requested(reqs)
    ensures exists k :: 0 <= k < |reqs| && p in reqs[k].packages
    decreases |reqs|
  {
    var last := |reqs| - 1;
    if p !in reqs[last].packages {
      RequestedHasIndex(reqs[..last], p);
      var k :| 0 <= k < last && p in reqs[..last][k].packages;
      assert reqs[k] == reqs[..last][k];
    }
  }

  /**
   The promise a new loader keeps is the most recent load, and every package
   the loader wants (bar the inherited names, which read as loaded) was
   requested by that load or an earlier one, so it settles only after all of
   them. A second loader with the same packages requests nothing and shares
   the promise.
   */
  lemma LoaderWaitsForAllPackages(st: State, optPackages: Option<seq<string>>)
    requires Consistent(st) && RecentIsLast(st)
    ensures var r := NewGoogleChartLoader(st, optPackages);
      r.Ok? ==>
        && r.value.0.mostRecentLoad == Some(r.value.1)
        && r.value.1 < |r.value.0.requests|
        && (forall p :: p in Wanted(st, optPackages) && !Truthy(Inherited(p)) ==>
              exists k :: 0 <= k <= r.value.1 && p in r.value.0.requests[k].packages)
        && NewGoogleChartLoader(r.value.0, optPackages) == r
  {
    var wanted := Wanted(st, optPackages);
    var r := NewGoogleChartLoader(st, optPackages);
    if r.Ok? {
      var st' := r.value.0;
      var h := r.value.1;
      LoadKeepsConsistent(st, wanted);
      assert st'.requests[..|st.requests|] == st.requests;
      forall p | p in wanted && !Truthy(Inherited(p))
        ensures exists k :: 0 <= k <= h && p in st'.requests[k].packages
      {
        if p in st.own {
          assert p in Requested(st.requests);
          RequestedHasIndex(st.requests, p);
          var k :| 0 <= k < |st.requests| && p in st.requests[k].packages;
          assert st'.requests[k] == st.requests[k];
        } else {
          assert h == |st.requests|;
        }
      }
      assert forall p :: p in wanted ==> Marked(st'.own, p);
    }
  }

  /** Every package named in any request. */
  function Requested(reqs: seq<LoadRequest>): seq<string> {
    if reqs == [] then [] else Requested(reqs[..|reqs| - 1]) + reqs[|reqs| - 1].packages
  }

  /**
   The effect of a sequence of `load` calls. Marks are never taken back and
   requests are only appended; every package some call asks for ends marked,
   and the configuration is never touched.
   */
  function Run(st: State, calls: seq<seq<string>>): (r: State)
    ensures r.config == st.config
    ensures st.own <= r.own
    ensures st.requests <= r.requests
    ensures forall i, p | 0 <= i < |calls| && p in calls[i] :: Marked(r.own, p)
    decreases |calls|
  {
    if calls == [] then st else Run(Load(st, calls[0]).0, calls[1..])
  }

  /** Requested packages are all marked own keys, and none was requested twice. */
  ghost predicate Consistent(st: State) {
    && NoDuplicates(Requested(st.requests))
    && (forall p :: p in Requested(st.requests) ==> p in st.own && !Truthy(Inherited(p)))
    && (forall p :: p in st.own ==> p in Requested(st.requests))
  }

  lemma {:induction false} LoadKeepsConsistent(st: State, pkgs: seq<string>)
    requires Consistent(st)
    ensures Consistent(Load(st, pkgs).0)
    ensures forall p :: p in Requested(Load(st, pkgs).0.requests) <==>
      p in Requested(st.requests) || (p in pkgs && !Truthy(Inherited(p)))
  {
    MarkAndCollectSpec(st.own, pkgs);
    var (own', toLoad) := MarkAndCollect(st.own, pkgs);
    var st' := Load(st, pkgs).0;
    if |toLoad| == 0 {
      assert st'.requests == st.requests;
      assert forall p :: p in own' ==> p in st.own;
    } else {
      var request := LoadRequest(st.config.version, toLoad, st.config.language);
      assert st'.requests == st.requests + [request];
      assert (st.requests + [request])[..|st.requests|] == st.requests;
      var old_ := Requested(st.requests);
      assert Requested(st'.requests) == old_ + toLoad;
      forall i, j | 0 <= i < j < |old_ + toLoad|
        ensures (old_ + toLoad)[i] != (old_ + toLoad)[j]
      {
        if j >= |old_| && i < |old_| {
          assert (old_ + toLoad)[j] == toLoad[j - |old_|];
          assert !Marked(st.own, toLoad[j - |old_|]);
          assert old_[i] in st.own;
        }
      }
    }
  }

  /**
   A package name is sent to `google.charts.load` at most once per module
   lifetime: after any sequence of `load` calls from the initial state, no name
   appears in two requests or twice in one, and the names requested are exactly
   those asked for, except the names every object inherits, which read as
   already loaded.
   */
  lemma {:induction false} RequestedAtMostOnce(st: State, calls: seq<seq<string>>)
    requires Consistent(st)
    ensures Consistent(Run(st, calls))
    ensures NoDuplicates(Requested(Run(st, calls).requests))
    ensures forall p :: p in Requested(Run(st, calls).requests) <==>
      p in Requested(st.requests) || ((exists k :: 0 <= k < |calls| && p in calls[k]) && !Truthy(Inherited(p)))
    decreases |calls|
  {
    if calls != [] {
      var st1 := Load(st, calls[0]).0;
      LoadKeepsConsistent(st, calls[0]);
      RequestedAtMostOnce(st1, calls[1..]);
      forall p
        ensures p in Requested(Run(st, calls).requests) <==>
          p in Requested(st.requests) || ((exists k :: 0 <= k < |calls| && p in calls[k]) && !Truthy(Inherited(p)))
      {
        if exists k :: 0 <= k < |calls| && p in calls[k] {
          var k :| 0 <= k < |calls| && p in calls[k];
          if k > 0 {
            assert p in calls[1..][k - 1];
          }
        }
        if exists k :: 0 <= k < |calls[1..]| && p in calls[1..][k] {
          var k :| 0 <= k < |calls[1..]| && p in calls[1..][k];
          assert p in calls[k + 1];
        }
      }
    }
  }

  lemma InitialIsConsistent(config: Config)
    ensures Consistent(Initial(config))
  {
  }

  /**
   A style element inside a shadow root: the one created by the `serial`-th
   `moveStyles` call, carrying the id `shadow-css-n`, or any other element.
   */
  datatype StyleElement = Sheet(serial: nat, n: nat) | Other(id: string)

  /** A shadow root: its `sheetCount` (an unset count reads as 0) and its style elements. */
  datatype ShadowRoot = ShadowRoot(sheetCount: nat, styles: seq<StyleElement>)

  /** The root node of a chart: the document itself, or the shadow root at an index. */
  datatype Target = InDocument | InShadow(index: nat)

  /**
   The page as `moveStyles` sees it: the shadow roots; the number of style
   elements created so far; the page-wide variable `styleElement` (the
   assignment at google-chart-loader.js:91 has no declaration in scope, since
   the `const` of :86 belongs to its block, so it creates a global); and the
   roots whose `then` callbacks are still queued, oldest first.
   */
  datatype Page = Page(roots: seq<ShadowRoot>, created: nat, styleElement: Option<StyleElement>, queued: seq<nat>)

  predicate ValidTarget(page: Page, t: Target) {
    t.InShadow? ==> t.index < |page.roots|
  }

  predicate QueuedValid(page: Page) {
    forall k :: 0 <= k < |page.queued| ==> page.queued[k] < |page.roots|
  }

  /** `querySelector('#shadow-css-n')` finds an element in these styles. */
  predicate HasSheet(styles: seq<StyleElement>, n: nat) {
    exists e :: e in styles && e.Sheet? && e.n == n
  }

  /** The first element with the id `shadow-css-n` removed; None when the query returns null. */
  function RemoveFirst(styles: seq<StyleElement>, n: nat): Option<seq<StyleElement>> {
    if styles == [] then None
    else if styles[0].Sheet? && styles[0].n == n then Some(styles[1..])
    else match RemoveFirst(styles[1..], n)
      case None => None
      case Some(rest) => Some([styles[0]] + rest)
  }

  /** The styles without the element `e` (what `appendChild` does to its old parent). */
  function Detach(styles: seq<StyleElement>, e: StyleElement): (r: seq<StyleElement>)
    ensures forall x :: x in r <==> x in styles && x != e
  {
    if styles == [] then []
    else if styles[0] == e then Detach(styles[1..], e)
    else [styles[0]] + Detach(styles[1..], e)
  }

  /**
   `moveStyles(target)` as written, up to its `then`: nothing for the document;
   on a shadow root whose count N is positive the element `shadow-css-N` is
   removed (a missing one makes the removal throw); then a new element
   `shadow-css-(N+1)` is created into the page-wide `styleElement`, the count
   goes to N+1, and the append is queued behind the library's promise.
   */
  function MoveStylesAsWritten(page: Page, t: Target): (r: Result<Page>)
    requires ValidTarget(page, t)
    ensures t.InDocument? ==> r == Ok(page)
    ensures t.InShadow? ==>
      (page.roots[t.index].sheetCount > 0 && !HasSheet(page.roots[t.index].styles, page.roots[t.index].sheetCount) ==> r.Err?)
    ensures t.InShadow? ==>
      (r.Ok? <==> page.roots[t.index].sheetCount == 0 || HasSheet(page.roots[t.index].styles, page.roots[t.index].sheetCount))
    ensures t.InShadow? && r.Ok? ==>
      var count := page.roots[t.index].sheetCount + 1;
      && |r.value.roots| == |page.roots|
      && r.value.roots[t.index].sheetCount == count
      && r.value.created == page.created + 1
      && r.value.styleElement == Some(Sheet(page.created, count))
      && r.value.queued == page.queued + [t.index]
      && (forall k :: 0 <= k < |page.roots| && k != t.index ==> r.value.roots[k] == page.roots[k])
    ensures t.InShadow? && r.Ok? ==>
      var root := page.roots[t.index];
      && (root.sheetCount == 0 ==> r.value.roots[t.index].styles == root.styles)
      && (root.sheetCount > 0 ==>
            && CountSheets(r.value.roots[t.index].styles) + 1 == CountSheets(root.styles)
            && (forall e :: e in r.value.roots[t.index].styles ==> e in root.styles)
            && (forall e :: e in root.styles && !(e.Sheet? && e.n == root.sheetCount) ==> e in r.value.roots[t.index].styles))
  {
    match t
    case InDocument => Ok(page)
    case InShadow(i) =>
      var root := page.roots[i];
      var kept :=
        if root.sheetCount > 0 then RemoveFirst(root.styles, root.sheetCount) else Some(root.styles);
      RemoveFirstSpec(root.styles, root.sheetCount);
      match kept
      case None => Err(TypeError("Cannot read properties of null (reading 'parentNode')"))
      case Some(rest) =>
        var count := root.sheetCount + 1;
        Ok(Page(page.roots[i := ShadowRoot(count, rest)], page.created + 1,
                Some(Sheet(page.created, count)), page.queued + [i]))
  }

  /**
   The oldest queued `then` callback of `moveStyles` as written: it appends
   whatever element the page-wide `styleElement` holds at that moment, which
   is the element the most recent call created, to the root of its own call,
   moving it out of any root that held it.
   */
  function SettleAsWritten(page: Page): (r: Result<Page>)
    requires QueuedValid(page)
    ensures page.queued == [] ==> r == Ok(page)
    ensures page.queued != [] ==> (r.Err? <==> page.styleElement.None?)
    ensures page.queued != [] && r.Ok? ==>
      var e := page.styleElement.value;
      && r.value.queued == page.queued[1..]
      && r.value.styleElement == page.styleElement
      && |r.value.roots| == |page.roots|
      && (forall k :: 0 <= k < |page.roots| ==>
            && r.value.roots[k].sheetCount == page.roots[k].sheetCount
            && (e in r.value.roots[k].styles <==> k == page.queued[0])
            && (forall x :: x != e ==> (x in r.value.roots[k].styles <==> x in page.roots[k].styles)))
  {
    if page.queued == [] then Ok(page)
    else
      match page.styleElement
      case None => Err(ReferenceError("styleElement is not defined"))
      case Some(e) =>
        var j := page.queued[0];
        var roots := seq(|page.roots|, k requires 0 <= k < |page.roots| =>
          var detached := Detach(page.roots[k].styles, e);
          ShadowRoot(page.roots[k].sheetCount, if k == j then detached + [e] else detached));
        Ok(page.(roots := roots, queued := page.queued[1..]))
  }

  /**
   `moveStyles` with `styleElement` declared for each call and appended as
   soon as it is created (only its `@import` text has to wait for the
   library), so nothing is left queued.
   */
  function MoveStyles(page: Page, t: Target): Result<Page>
    requires ValidTarget(page, t)
  {
    match t
    case InDocument => Ok(page)
    case InShadow(i) =>
      var root := page.roots[i];
      var kept :=
        if root.sheetCount > 0 then RemoveFirst(root.styles, root.sheetCount) else Some(root.styles);
      match kept
      case None => Err(TypeError("Cannot read properties of null (reading 'parentNode')"))
      case Some(rest) =>
        var count := root.sheetCount + 1;
        Ok(page.(roots := page.roots[i := ShadowRoot(count, rest + [Sheet(page.created, count)])],
                 created := page.created + 1))
  }

  function CountSheets(styles: seq<StyleElement>): nat {
    if styles == [] then 0 else (if styles[0].Sheet? then 1 else 0) + CountSheets(styles[1..])
  }

  /** A shadow root holds exactly the one sheet its count names (none while the count is 0). */
  predicate RootInvariant(root: ShadowRoot) {
    if root.sheetCount == 0 then CountSheets(root.styles) == 0
    else CountSheets(root.styles) == 1 && HasSheet(root.styles, root.sheetCount)
  }

  predicate StylesInvariant(page: Page) {
    forall k :: 0 <= k < |page.roots| ==> RootInvariant(page.roots[k])
  }

  lemma {:induction false} RemoveFirstCounts(styles: seq<StyleElement>, n: nat)
    requires HasSheet(styles, n)
    ensures RemoveFirst(styles, n).Some?
    ensures CountSheets(RemoveFirst(styles, n).value) + 1 == CountSheets(styles)
    ensures forall s :: s in RemoveFirst(styles, n).value ==> s in styles
    decreases |styles|
  {
    if !(styles[0].Sheet? && styles[0].n == n) {
      var e :| e in styles && e.Sheet? && e.n == n;
      assert e in styles[1..];
      RemoveFirstCounts(styles[1..], n);
    }
  }

  lemma {:induction false} CountAppend(a: seq<StyleElement>, b: seq<StyleElement>)
    ensures CountSheets(a + b) == CountSheets(a) + CountSheets(b)
    decreases |a|
  {
    if a == [] {
      assert a + b == b;
    } else {
      assert (a + b)[1..] == a[1..] + b;
      CountAppend(a[1..], b);
    }
  }

  lemma {:induction false} ZeroCountNoSheet(styles: seq<StyleElement>, n: nat)
    requires CountSheets(styles) == 0
    ensures !HasSheet(styles, n)
    decreases |styles|
  {
    if styles != [] {
      ZeroCountNoSheet(styles[1..], n);
      assert forall e :: e in styles ==> e == styles[0] || e in styles[1..];
    }
  }

  lemma {:induction false} RemoveFirstAbsent(styles: seq<StyleElement>, n: nat)
    requires !HasSheet(styles, n)
    ensures RemoveFirst(styles, n).None?
    decreases |styles|
  {
    if styles != [] {
      assert !HasSheet(styles[1..], n) by {
        forall e | e in styles[1..] ensures !(e.Sheet? && e.n == n) {
          assert e in styles;
        }
      }
      RemoveFirstAbsent(styles[1..], n);
    }
  }

  lemma {:induction false} RemoveFirstKeepsOthers(styles: seq<StyleElement>, n: nat)
    requires RemoveFirst(styles, n).Some?
    ensures forall e :: e in styles && !(e.Sheet? && e.n == n) ==> e in RemoveFirst(styles, n).value
    decreases |styles|
  {
    if !(styles[0].Sheet? && styles[0].n == n) {
      RemoveFirstKeepsOthers(styles[1..], n);
    }
  }

  /**
   The removal finds an element exactly when the styles hold a `shadow-css-n`;
   it then takes out one sheet and keeps every other element.
   */
  lemma RemoveFirstSpec(styles: seq<StyleElement>, n: nat)
    ensures RemoveFirst(styles, n).Some? <==> HasSheet(styles, n)
    ensures RemoveFirst(styles, n).Some? ==>
      && CountSheets(RemoveFirst(styles, n).value) + 1 == CountSheets(styles)
      && (forall e :: e in RemoveFirst(styles, n).value ==> e in styles)
      && (forall e :: e in styles && !(e.Sheet? && e.n == n) ==> e in RemoveFirst(styles, n).value)
  {
    if HasSheet(styles, n) {
      RemoveFirstCounts(styles, n);
      RemoveFirstKeepsOthers(styles, n);
    } else {
      RemoveFirstAbsent(styles, n);
    }
  }

  /**
   With each call appending its own element at once, every shadow root keeps
   exactly the one sheet its count names and `moveStyles` never throws: the
   target's count rises by one, its other elements stay, and no other root
   changes; on the document nothing changes.
   */
  lemma {:induction false} MoveStylesKeepsInvariant(page: Page, t: Target)
    requires StylesInvariant(page) && ValidTarget(page, t)
    ensures MoveStyles(page, t).Ok?
    ensures StylesInvariant(MoveStyles(page, t).value)
    ensures t.InDocument? ==> MoveStyles(page, t).value == page
    ensures t.InShadow? ==>
      var root := page.roots[t.index];
      var root' := MoveStyles(page, t).value.roots[t.index];
      && |MoveStyles(page, t).value.roots| == |page.roots|
      && root'.sheetCount == root.sheetCount + 1
      && (forall e :: e in root.styles && !e.Sheet? ==> e in root'.styles)
      && (forall k :: 0 <= k < |page.roots| && k != t.index ==> MoveStyles(page, t).value.roots[k] == page.roots[k])
  {
    if t.InShadow? {
      var i := t.index;
      var root := page.roots[i];
      assert RootInvariant(root);
      var count := root.sheetCount;
      var rest: seq<StyleElement>;
      if count > 0 {
        RemoveFirstCounts(root.styles, count);
        rest := RemoveFirst(root.styles, count).value;
        RemoveFirstKeepsOthers(root.styles, count);
      } else {
        rest := root.styles;
      }
      var sheet := Sheet(page.created, count + 1);
      var moved := rest + [sheet];
      var page' := page.(roots := page.roots[i := ShadowRoot(count + 1, moved)], created := page.created + 1);
      assert MoveStyles(page, t) == Ok(page');
      CountAppend(rest, [sheet]);
      assert CountSheets([sheet]) == 1;
      assert moved[|rest|] == sheet;
      assert RootInvariant(page'.roots[i]);
      forall e | e in root.styles && !e.Sheet? ensures e in moved {
        assert e in rest;
      }
    }
  }

  /**
   Two calls on the same shadow root before the first call's `then` runs: the
   first removes the root's only sheet and the second finds no
   `shadow-css-(N+1)` to remove, so it throws. With each element appended
   when it is created, both calls succeed.
   */
  lemma BackToBackMovesThrow(page: Page, i: nat)
    requires StylesInvariant(page) && i < |page.roots|
    ensures MoveStylesAsWritten(page, InShadow(i)).Ok?
    ensures MoveStylesAsWritten(MoveStylesAsWritten(page, InShadow(i)).value, InShadow(i)).Err?
    ensures MoveStyles(page, InShadow(i)).Ok? && MoveStyles(MoveStyles(page, InShadow(i)).value, InShadow(i)).Ok?
  {
    var root := page.roots[i];
    assert RootInvariant(root);
    var count := root.sheetCount;
    var rest := root.styles;
    if count > 0 {
      RemoveFirstCounts(root.styles, count);
      rest := RemoveFirst(root.styles, count).value;
    }
    var page1 := Page(page.roots[i := ShadowRoot(count + 1, rest)], page.created + 1,
                      Some(Sheet(page.created, count + 1)), page.queued + [i]);
    assert MoveStylesAsWritten(page, InShadow(i)) == Ok(page1);
    ZeroCountNoSheet(rest, count + 1);
    MoveStylesKeepsInvariant(page, InShadow(i));
    MoveStylesKeepsInvariant(MoveStyles(page, InShadow(i)).value, InShadow(i));
  }

  /** Two fresh shadow roots, as two elements of one page would have. */
  const TwoFreshRoots := Page([ShadowRoot(0, []), ShadowRoot(0, [])], 0, None, [])

  /**
   The concrete input of the shared `styleElement`: both fresh roots are moved
   into in the same turn. Both queued callbacks append the second call's
   element, so the first root ends with a count of 1 and no sheet, and its
   next `moveStyles` throws. With an element of its own per call, each root
   keeps its sheet and the next call succeeds.
   */
  lemma SharedElementCounterexample()
    ensures MoveStylesAsWritten(TwoFreshRoots, InShadow(0)) == Ok(Queued1)
    ensures MoveStylesAsWritten(Queued1, InShadow(1)) == Ok(Queued2)
    ensures SettleAsWritten(Queued2) == Ok(Settled1)
    ensures SettleAsWritten(Settled1) == Ok(Settled2)
    ensures MoveStylesAsWritten(Settled2, InShadow(0)).Err?
    ensures MoveStyles(TwoFreshRoots, InShadow(0)) == Ok(Own1)
    ensures MoveStyles(Own1, InShadow(1)) == Ok(Own2)
    ensures MoveStyles(Own2, InShadow(0)).Ok?
  {
    CounterexampleQueues();
    CounterexampleSettles();
    CounterexampleOwnElements();
    assert !HasSheet([], 1);
  }

  lemma CounterexampleQueues()
    ensures MoveStylesAsWritten(TwoFreshRoots, InShadow(0)) == Ok(Queued1)
    ensures MoveStylesAsWritten(Queued1, InShadow(1)) == Ok(Queued2)
  {
    assert TwoFreshRoots.queued + [0] == [0] && [0] + [1] == [0, 1];
    assert TwoFreshRoots.roots[0 := ShadowRoot(1, [])] == Queued1.roots;
    assert Queued1.roots[1 := ShadowRoot(1, [])] == Queued2.roots;
  }

  lemma CounterexampleSettles()
    ensures SettleAsWritten(Queued2) == Ok(Settled1)
    ensures SettleAsWritten(Settled1) == Ok(Settled2)
  {
    var e := Sheet(1, 1);
    assert Detach([], e) == [];
    assert Detach([e], e) == [];
    assert [] + [e] == [e];
    assert SettleAsWritten(Queued2).value.roots == Settled1.roots;
    assert SettleAsWritten(Settled1).value.roots == Settled2.roots;
  }

  lemma CounterexampleOwnElements()
    ensures MoveStyles(TwoFreshRoots, InShadow(0)) == Ok(Own1)
    ensures MoveStyles(Own1, InShadow(1)) == Ok(Own2)
    ensures MoveStyles(Own2, InShadow(0)).Ok?
  {
    assert [] + [Sheet(0, 1)] == [Sheet(0, 1)];
    assert [] + [Sheet(1, 1)] == [Sheet(1, 1)];
    assert [Sheet(0, 1)][1..] == [];
    assert RemoveFirst([Sheet(0, 1)], 1) == Some([]);
    assert TwoFreshRoots.roots[0 := ShadowRoot(1, [Sheet(0, 1)])] == Own1.roots;
    assert Own1.roots[1 := ShadowRoot(1, [Sheet(1, 1)])] == Own2.roots;
  }

  /** The pages of the counterexample: both roots moved into, callbacks queued. */
  const Queued1 := Page([ShadowRoot(1, []), ShadowRoot(0, [])], 1, Some(Sheet(0, 1)), [0])
  const Queued2 := Page([ShadowRoot(1, []), ShadowRoot(1, [])], 2, Some(Sheet(1, 1)), [0, 1])
  /** The first callback appends the second root's element to the first root ... */
  const Settled1 := Page([ShadowRoot(1, [Sheet(1, 1)]), ShadowRoot(1, [])], 2, Some(Sheet(1, 1)), [1])
  /** ... and the second moves it on to the second root. */
  const Settled2 := Page([ShadowRoot(1, []), ShadowRoot(1, [Sheet(1, 1)])], 2, Some(Sheet(1, 1)), [])
  /** The same two calls, each appending its own element. */
  const Own1 := Page([ShadowRoot(1, [Sheet(0, 1)]), ShadowRoot(0, [])], 1, None, [])
  const Own2 := Page([ShadowRoot(1, [Sheet(0, 1)]), ShadowRoot(1, [Sheet(1, 1)])], 2, None, [])
}
